=== FILE: README.md ===
# elko core, modelled in Dafny

This project models the coordination core of elko, a service runtime in Go.
The centre is the **lease protocol** of `pkg/lease`. A lease is one Consul key
under `lease/` whose value is a single status byte:

- `A` means active;
- `C` means contested;
- `I` means invalidated;
- an absent key means nobody holds the lease.

The protocol gets all of its safety from Consul's conditional write
(`?cas=<index>`). Index 0 means "create only"; any other index means "only if
the key still has this modify index".

The model is functional. The store is an abstract map from key to
`(value, modifyIndex)` plus a store-wide raft index (`KvStore`). A lease
participant runs against a `World` (`StoreCalls`), which holds three things:

- the store;
- a nanosecond clock;
- a sequence of environment turns.

Each call the participant makes consumes one turn, in this order:

1. Other processes' writes for that turn land first, so races are explored
   without threads.
2. The call itself takes effect.
3. The clock then advances by the turn's latency.

A turn may also lose the request or the reply. `time.Sleep` is an explicit
clock advance.

Every operation returns the log of effects it produced: reads, waits,
conditional writes, deletes, callbacks, sleeps and deadline extensions. The
contracts are statements about that log. Examples:

- which writes can happen at all;
- that a cleanup is always preceded by a full period after the lease was
  seen or made invalid;
- that `Maintain` never issues a store call after the deadline it has
  established so far.

Around the lease protocol, the sequential parts of the rest of elko are
modelled too:

- the pure parts of the Consul client (`Consul`);
- the dependency ordering and import-literal checks of the Go service build
  tool (`Build`);
- the service manager's frame layout, service-ID check, configuration
  validation, node-ID format and first-byte dispatch (`Service`, `Server`);
- the wire protocol's error text and frame grammar (`Protocol`);
- the file cache's change tracking (`FileCache`);
- the web context helpers (`WebCtx`);
- the opcode table (`Op`).

`Wrappers`, `Bytes`, `Decimal`, `Strs` and `Base64` are support modules. They
model the Go standard-library functions the code calls: big-endian encoding,
`strconv`, `strings`, and URL-safe unpadded base64.

## Model

| member | source | states |
|---|---|---|
| Lease.New | pkg/lease/lease.go:197-203 | The handle's key is `"lease/"` followed by the name, and the name can be recovered from it. The period and the cleanup flag are kept. |
| Lease.NewKeysDistinct | pkg/lease/lease.go:197-203 | Two different lease names never map to the same store key. |
| Lease.Acquire | pkg/lease/lease.go:20-31 | Exactly one store call is made: a create-only write (expected index 0) of `[A]`. The expiry `now + period` is returned on every path, including failures. Success holds iff the write was accepted. "Already exists" is returned iff it was refused. A transport error is passed through. |
| Lease.AcquireLeavesActive | pkg/lease/lease.go:20-31 | After a successful Acquire, the store holds `[A]` under the key. |
| Lease.AcquireExcludes | pkg/lease/lease.go:20-31 | Mutual exclusion. Once one participant has acquired a key, a second Acquire of the same key fails, whatever the other processes wrote in between, as long as none of them deleted the key. |
| KvStore.Apply | pkg/lease/lease.go:22 | A store operation changes no other key. It never lowers the raft index. It keeps the store well formed. It changes nothing exactly when a conditional write is refused. |
| KvStore.CasDetectsInterference | pkg/consul/consul.go:164-169 | After any sequence of writes by others, a conditional write at the index previously observed is accepted iff the key still holds exactly the item observed. |
| KvStore.CreateOnlyOnce | pkg/lease/lease.go:22 | Once a create-only write has succeeded, no later create-only write of that key succeeds unless the key is deleted. |
| KvStore.StaysPresent | pkg/consul/consul.go:171-175 | A key stays present through any operations that do not delete it. |
| KvStore.ApplyAllStamps | pkg/consul/consul.go:164-169 | After any writes, each item is either untouched or carries a modify index newer than the old raft index. |
| StoreCalls.Observe | pkg/consul/consul.go:184-189 | Without a fault, a read gives NotFound exactly when the key is absent, and otherwise the stored item. A found item has a positive modify index. A fault always gives a read failure. |
| StoreCalls.ObserveMatchesClient | pkg/consul/consul.go:109-115 | A fault-free read agrees with the client's `GetItem` on the store's reply: NotFound there is NotFound here, and a found entry carries the same key, value and modify index. |
| StoreCalls.Get | pkg/consul/consul.go:184-189 | A read is logged at its issue time and keeps the store well formed. |
| StoreCalls.Wait | pkg/consul/consul.go:245-250 | A blocking read is logged with the index it waited on, at its issue time. |
| StoreCalls.CasCall | pkg/consul/consul.go:164-169 | A conditional write is logged with the key, value and expected index it sent. |
| StoreCalls.DeleteCall | pkg/consul/consul.go:171-175 | A delete is logged at its issue time and keeps the store well formed. |
| StoreCalls.Sleep | pkg/lease/lease.go:80 | A sleep advances the clock by exactly its duration and touches nothing else. |
| Lease.Cleanup | pkg/lease/lease.go:91-99 | The callback runs first iff one is registered. The delete happens iff the callback did not fail. A callback failure is returned and skips the delete. Otherwise the delete's error is returned. |
| Lease.SleepThenCleanup | pkg/lease/lease.go:113-116 | A full period is slept before the cleanup. Every cleanup step is issued at least one period after the sleep began. The error returned is the cleanup's: the callback's failure, otherwise the delete's outcome. |
| Lease.Revoke | pkg/lease/lease.go:117-126 | Exactly one write is made: `[I]` at the observed index. A refused write returns "failed to invalidate" and a transport error is returned, both with no cleanup. An accepted write is followed by a full-period sleep and then the cleanup, whose error is returned. |
| Lease.Invalidate | pkg/lease/lease.go:105-127 | The first call is a read of the key. Every cleanup step happens at least one period after a read that showed `I` or an accepted write of `I`. |
| Lease.InvalidateAfterRead | pkg/lease/lease.go:105-116 | An absent key returns nil with nothing else done. A read error is returned. An empty value is the Go index panic, modelled as an error. A key already showing `I` leads to a sleep and cleanup with no write, and the cleanup's error is returned. |
| Lease.InvalidateWrites | pkg/lease/lease.go:113-120 | The only write is `[I]` at the read's modify index. It happens exactly when the read found a non-empty value other than `I`. |
| Lease.InvalidateWriteOutcome | pkg/lease/lease.go:117-126 | A refused write ends with "failed to invalidate" and no cleanup. A write error is returned. An accepted write is followed by a sleep and the cleanup, whose error is returned. |
| Lease.MarginCons | pkg/lease/lease.go:105-127 | The cleanup-after-margin property survives putting non-cleanup steps in front of the log. |
| Lease.ContestAwait | pkg/lease/lease.go:70-87 | The wait is on the second read's modify index. Absent, error and empty replies end without cleanup. `I` leads to cleanup, with an extra full-period sleep only when the second read was not `I`. An unchanged modify index leads to cleanup. In both cleanup cases the lease is not held and the error is the cleanup's: the callback's failure, otherwise the delete's outcome. Anything else means the holder is alive, with no cleanup. |
| Lease.ContestRecheck | pkg/lease/lease.go:60-87 | The second read never writes. `A` means the lease is held, with nothing else done. Any other non-empty value goes on to wait at its modify index. |
| Lease.Challenge | pkg/lease/lease.go:47-69 | Challenging an `A` is exactly one write of `[C]` at the index seen, and nothing after it writes. A transport error of that write ends `(false, err)` with nothing more. Otherwise the second read follows, whether or not the write was accepted. |
| Lease.Contest | pkg/lease/lease.go:38-88 | The only possible write is `[C]` as the second call, at the first read's index, and only when the first read showed `A`. It is always made in that case. A refused `C` write is ignored. A write error is returned. An absent key at any read ends `(false, nil)` with no cleanup. "Held" implies no cleanup. Every cleanup follows a wait that showed the holder gone. |
| Lease.JustifiedCons | pkg/lease/lease.go:71-86 | The "cleanup only after an abandoned wait" property survives putting non-cleanup steps in front of the log. |
| Lease.AbsentEndsCons | pkg/lease/lease.go:40-77 | The "an absent key ends Contest with (false, nil)" property survives putting further steps in front of the log. |
| Lease.Failure | pkg/lease/lease.go:158-162 | A store error adds one to the shared attempts counter and leaves the expiry unchanged. The sixth consecutive error stops Maintain with that error. |
| Lease.Extend | pkg/lease/lease.go:168-170 | A renewal resets the attempts counter to 0 and sets the expiry to `now + period`. |
| Lease.MaintainAfterRead | pkg/lease/lease.go:152-192 | NotFound and `I` end with "invalidated" and no write. `A` renews without writing. Any other byte read before the deadline always leads to a write of `[A]` at the observed index, issued at once; past the deadline it ends with "invalidated". That write is the only store call and is issued no later than the expiry. An accepted write renews. A refused write ends with "invalidated". A write error counts as an attempt. |
| Lease.MaintainTick | pkg/lease/lease.go:145-193 | An iteration first sleeps `period / 7`. If the clock is then past the expiry, it stops with "invalidated" before any store call. Every store call of the iteration is timely. The new expiry is the last renewal. |
| Lease.MaintainFor | pkg/lease/lease.go:145-193 | Deadline supremacy over any number of iterations. Every read or write is issued no later than the expiry established by the renewals before it. The attempts counter stays below 6. |
| Lease.Maintain | pkg/lease/lease.go:134-194 | Starting from the given expiry, Maintain never issues a store call after its current deadline. It never holds six consecutive failures without stopping. |
| Lease.DeadlineAppend | pkg/lease/lease.go:168-190 | The deadline after two log segments is the deadline after the first, carried through the second. |
| Lease.TimelyAppend | pkg/lease/lease.go:145-193 | Timeliness composes across consecutive iterations. |
| Lease.TimelyWhenExtendedLast | pkg/lease/lease.go:171-190 | An iteration whose only renewal is its last step, and whose store calls are no later than the expiry, is timely. |
| Consul.Check | pkg/consul/consul.go:48-56 | Status 200 gives no error. Status 404 gives NotFound. Every other code gives a "non-200 response code" error carrying the code. |
| Consul.CheckDistinct | pkg/consul/consul.go:48-56 | Two different non-200, non-404 status codes give different error texts. |
| Consul.Message | pkg/consul/consul.go:48-56 | The error text of a bad status starts with the fixed "non-200 response code" prefix. The invalid-index text names the header value, quoted so that it reads back exactly, followed by the parse error's reason. |
| Consul.UrlPath | pkg/consul/consul.go:160-162 | The path is `/v1/kv/` + root + key, with one leading `/` removed from the key if it has one. |
| Consul.UrlPathSlash | pkg/consul/consul.go:160-162 | Only one leading slash is stripped: prefixing an extra `/` changes nothing unless the key already started with one. |
| Consul.GetEndpoint | pkg/consul/consul.go:97-107 | A fixed endpoint is always returned and changes nothing. With no endpoints the result is an error (fatal in the source). Otherwise the counter is incremented before indexing modulo the list length. |
| Consul.EndpointsRotate | pkg/consul/consul.go:97-107 | `n` successive calls return `endpoints[(c+1) % len]`, `endpoints[(c+2) % len]`, … and advance the counter by `n`. |
| Consul.EndpointsFixed | pkg/consul/consul.go:97-107 | With a fixed endpoint, every call returns it and the state never changes. |
| Consul.SetEndpoint | pkg/consul/consul.go:233-239 | Exactly one server sets the fixed endpoint and leaves the list alone. Any other count replaces the list and leaves the fixed endpoint alone. The counter is kept. |
| Consul.CasQuery | pkg/consul/consul.go:164-169 | The query is `cas=` followed by decimal digits. |
| Consul.CasQueryRoundTrip | pkg/consul/consul.go:164-169 | Parsing the digits of the CAS query as a uint64 gives back the index. |
| Consul.WaitQuery | pkg/consul/consul.go:245-250 | The query is `consistent&wait=`, then the interval, then `&index=`, then the decimal index, with nothing else in between. |
| Consul.WaitQueryRoundTrip | pkg/consul/consul.go:245-250 | The digits after the final `&index=` parse back to the index, and the interval is exactly what lies between `&wait=` and `&index=`. |
| Consul.Fetch | pkg/consul/consul.go:72-95 | A transport failure is returned as is. A non-200 status gives the `check` error. Items are decoded iff the status is 200 and the body holds items. |
| Consul.GetItem | pkg/consul/consul.go:109-115 | The first decoded item is returned. An empty list is an error. Errors of the request are passed through. |
| Consul.GetListing | pkg/consul/consul.go:117-130 | A listing succeeds iff the request succeeded and `X-Consul-Index` parses as a decimal uint64. The index is then below 2^64 and the items are the decoded ones. Otherwise the failure is an invalid-index error carrying the header text and the reason `strconv.ParseUint` gives. |
| Decimal.ParseUintError | pkg/consul/consul.go:126-128 | `strconv.ParseUint` fails exactly when the decimal parse fails. Empty text is a syntax error. A run of digits too large for 64 bits is a range error, and a range error needs a leading digit run. |
| Decimal.ReadQuotedEscape | pkg/consul/consul.go:126-128 | The `strconv.Quote` form of the header text in the invalid-index message reads back as exactly that text, whatever follows the closing quote. |
| Consul.PutResult | pkg/consul/consul.go:132-158 | A write's outcome is the decoded JSON boolean, and only after status 200. Other statuses give the `check` error. |
| Consul.DeleteResult | pkg/consul/consul.go:58-70 | A delete succeeds iff the request was answered with status 200. |
| Consul.ServeGet | pkg/consul/consul.go:184-189 | The abstract store answers a read with 200 iff the key is present. |
| Consul.ServeCas | pkg/consul/consul.go:164-169 | The abstract store answers a conditional write with its acceptance verdict and applies it. |
| Consul.GetMatchesStore | pkg/consul/consul.go:109-115 | Through the client, a read returns NotFound iff the key is absent, and otherwise returns the stored value and modify index. |
| Consul.CasMatchesStore | pkg/consul/consul.go:132-158 | Through the client, a conditional write reports exactly the store's check-and-set verdict. |
| Build.Order | cmd/build-go-service/build.go:113-144 | On success, the result is a permutation of the packages in which every package comes after each of its imports. A cycle is reported with the packages placed so far (ordered) and a non-empty rest, in which no package is ready. Together these are a permutation of the input. |
| Build.OrderPass | cmd/build-go-service/build.go:116-130 | One pass swaps, within the array, every package whose imports are all already moved to the front of the remaining slice, in scan order. `moved` grows during the pass. The array stays a permutation. A pass that moves nothing means no remaining package is ready. |
| Build.Visit | cmd/build-go-service/build.go:117-129 | One step of the pass keeps the pass invariant. |
| Build.PlaceStep | cmd/build-go-service/build.go:126-128 | Swapping a ready package into the next front slot keeps the permutation and extends the ordered prefix by that package. |
| Build.PassEmpty | cmd/build-go-service/build.go:131-142 | If a pass would move nothing, no remaining package is ready. |
| Build.PassAdvance | cmd/build-go-service/build.go:117-129 | A pass over a slice is its first element's decision followed by the pass over the rest, with `moved` updated. |
| Build.OrderedAt | cmd/build-go-service/build.go:116-144 | In an ordered sequence, each package's imports all occur before it. |
| Build.OrderedSnoc | cmd/build-go-service/build.go:143 | Appending a ready package keeps a sequence ordered. |
| Build.NoOrderWhenStuck | cmd/build-go-service/build.go:131-142 | When a pass is stuck, no arrangement of the packages is ordered, so the cycle report is justified. |
| Build.Unquote | cmd/build-go-service/build.go:253-259 | A literal is accepted iff it is longer than two characters and wrapped in double quotes. The result is the text between the quotes. |
| Build.UnquoteQuote | cmd/build-go-service/build.go:253-259 | Quoting a non-empty path and unquoting it gives the path back. |
| Build.CollectImports | cmd/build-go-service/build.go:253-259 | The import loop succeeds iff every literal is valid. The resulting set is the old set plus the unquoted paths, so duplicates are dropped. An error names an invalid literal. |
| Build.SettleName | cmd/build-go-service/build.go:241-252 | The first file fixes the package name. A later file with a different package clause is a conflict naming both. |
| Build.Resolved | cmd/build-go-service/build.go:232-245 | Below the service root, the package name is the directory's relative path. |
| Build.ScanFile | cmd/build-go-service/build.go:240-260 | One file's step keeps the scan invariant, or returns a result that meets the directory contract. |
| Build.ScanDirectory | cmd/build-go-service/build.go:211-271 | An empty directory and a directory resolving to `main` are skipped. A found package has all literals valid and every unquoted path, without duplicates. Disagreeing package clauses give a conflict error. An invalid literal gives an error naming it. A directory with agreeing clauses and valid literals always yields its package. A non-empty directory is skipped only when it resolves to `main`. |
| Build.ScanRejects | cmd/build-go-service/build.go:240-260 | A non-empty directory that does not resolve to `main` and has an invalid literal or disagreeing package clauses is an error, never skipped. |
| Service.WriteFrame | pkg/servicemanager/service.go:71-85 | The frame is 13 + n bytes long. Byte 0 is the opcode. Bytes 1–4 are n big-endian. Then come the n data bytes. The last 8 bytes are zero. |
| Service.FrameFields | pkg/servicemanager/service.go:115-128 | A reader of a frame followed by anything recovers the opcode, the length, the data and the following bytes. |
| Service.Grow | pkg/servicemanager/service.go:115-118 | The data buffer is replaced by one of exactly n bytes when n exceeds its capacity, and kept otherwise. |
| Service.Serve | pkg/servicemanager/service.go:87-169 | The buffer capacity only grows and holds every handled frame. Heartbeat, hello, request and response continue the loop when their data decodes. While `seen` is false, every handled frame is a hello. A connection closed at a non-hello check names an opcode other than hello, and one closed for an unknown opcode names an opcode outside the table. |
| Service.ServeStops | pkg/servicemanager/service.go:127-166 | A frame that passes the hello check but does not continue the loop ends it at once with nothing handled and the connection closed: undecodable hello, request or response data, then CLIENT_SHUTDOWN (undecodable or a requested shutdown), then an unknown opcode, in the switch's order. |
| Service.ServeRejectsFirst | pkg/servicemanager/service.go:107-113 | Before `seen` is set, a header with any opcode other than CLIENT_HELLO closes the connection with nothing handled and the buffer unchanged. |
| Service.HandleService | pkg/servicemanager/service.go:87-169 | As written, every frame that is handled is a CLIENT_HELLO. |
| Service.HeartbeatAfterHelloCloses | pkg/servicemanager/service.go:93-114 | Counterexample: a hello followed by a heartbeat closes the connection at the heartbeat as written, while the corrected loop handles both. |
| Service.HandleServiceFixed | pkg/servicemanager/service.go:87-169 | With `seen` set after the first check, the first handled frame is the hello. |
| Service.ServeAcceptsAll | pkg/servicemanager/service.go:87-169 | With the correction, the encoding of any frames that start with a hello and continue the loop is handled completely, in order, until the read fails at the end of input. |
| Service.IsValidServiceId | pkg/servicemanager/service.go:171-182 | True iff the ID is non-empty and every character is in a–z, 0–9 or `.`. |
| Server.SelectCluster | pkg/servicemanager/server.go:89-115 | `""` selects solo. `"consul"` requires endpoints, id and key in that order, each missing one giving its own error. With all three set, an empty parsed list is the "empty list" error and a non-empty one selects a consul cluster with exactly that list. Any other type is an error. |
| Server.ParseEndpoints | pkg/servicemanager/server.go:103-111 | The parsed endpoints are never empty strings. |
| Server.ParseEndpointsClean | pkg/servicemanager/server.go:103-111 | Every parsed endpoint is trimmed of surrounding spaces and contains no comma. |
| Server.KeepTrimmed | pkg/servicemanager/server.go:104-109 | Trimming and dropping empties never lengthens the list and leaves no empty entry. |
| Server.KeepTrimmedOne | pkg/servicemanager/server.go:104-109 | A single piece is kept as its trimmed form, or dropped when it trims to nothing. |
| Server.KeepTrimmedAppend | pkg/servicemanager/server.go:104-109 | Pieces are handled independently and in order: the result for a concatenation is the concatenation of the results. With the single-piece case this fixes the result for every input. |
| Server.KeepTrimmedClean | pkg/servicemanager/server.go:104-109 | The kept entries are trimmed and comma-free. |
| Server.KeepClean | pkg/servicemanager/server.go:104-109 | Entries that are already trimmed and non-empty are all kept, in order. |
| Server.ParseJoinedEndpoints | pkg/servicemanager/server.go:103-111 | Round trip: joining trimmed, comma-free endpoints with `,` and parsing gives them back in order. |
| Server.IdPrefix | pkg/servicemanager/server.go:116-128 | `""` gives `dev`. `azure` gives the metadata's answer or its error. Any other value is an error. |
| Server.GenNodeId | pkg/servicemanager/server.go:142-153 | A random-source error or a short read is an error. Otherwise the ID is the prefix, `-`, and a 12-character suffix that decodes back to the 4 big-endian Unix seconds followed by the 5 random bytes. |
| Server.NodeIdFields | pkg/servicemanager/server.go:143-145 | The node-ID bytes are the big-endian 32-bit seconds followed by the random bytes. |
| Server.New | pkg/servicemanager/server.go:85-140 | Errors come in the code's order: cluster, then metadata, then the node ID. A server results iff all three succeed. It has the selected cluster and a node ID starting with the prefix and `-`. |
| Server.Message | pkg/servicemanager/server.go:94-150 | Every error `New` makes itself reads `servicemanager: ` followed by its detail. Errors from the metadata lookup and the random source keep their own text. |
| Server.Detail | pkg/servicemanager/server.go:94-150 | An unknown cluster type or metadata server type is named after its fixed text, quoted as `%q` does, so that the quoted value reads back exactly. |
| Server.MessageDistinct | pkg/servicemanager/server.go:94-150 | Two different errors made by `New` never share a message. |
| Server.Handle | pkg/servicemanager/server.go:39-63 | The connection waits for its first byte iff every read so far returned nothing. |
| Server.HandleFirstByte | pkg/servicemanager/server.go:39-63 | The first byte read decides the route: 1 goes to the service handler, 2 is the node case, anything else or a read error drops the connection. |
| Base64.DecodeEncode | pkg/servicemanager/server.go:152 | URL-safe unpadded base64 decodes back to the bytes it encoded. |
| Base64.Encode | pkg/servicemanager/server.go:152 | The unpadded encoding of n bytes has `4 * (n / 3)` characters, plus 2 or 3 for a final partial group. |
| Base64.EncodeInjective | pkg/servicemanager/server.go:152 | Different byte strings give different encodings. |
| Protocol.ErrorText | pkg/protocol/protocol.go:103-117 | Type and message both set give `Type: Msg`. Type set, no message and arguments present give `Type: ` followed by the arguments' JSON. Otherwise the result is the message, or `Error` when the message is empty. It is never empty. |
| Protocol.ErrorTextKind | pkg/protocol/protocol.go:103-117 | The error type can be read back from the text up to the first `: `, whenever the type is set, contains no `: ` and the text carries it. |
| Protocol.Section | pkg/protocol/protocol.go:314-337 | A length-prefixed section is the 4-byte big-endian length followed by the bytes. |
| Protocol.Encode | pkg/protocol/protocol.go:302-344 | A frame starts with the opcode byte and is as long as the opcode plus a 4-byte length and the bytes of each section present. Its inverse is Protocol.ReadEncoded. |
| Protocol.ReadSection | pkg/protocol/protocol.go:209-237 | Reading a section splits the input into a section and the rest after it. |
| Protocol.ReadFrame | pkg/protocol/protocol.go:209-268 | Reading a frame always consumes input. On non-empty input the only failure is a truncated section. |
| Protocol.ReadEncoded | pkg/protocol/protocol.go:209-344 | Round trip: the writer emits the opcode, then a length-prefixed data section only if data is present, then a body section only if a body is present. When data is present iff the opcode is at least 64, and a body iff at least 128, reading the encoding recovers the opcode, data and body and leaves the rest. |
| Protocol.EncodedRead | pkg/protocol/protocol.go:209-268 | Converse: every frame the reader accepts is the encoding of a well-formed payload. |
| Protocol.ReadPayload | pkg/protocol/protocol.go:209-268 | The payload a frame the reader accepted was written from: well formed, delivering the frame read, and encoding back to exactly the bytes consumed. |
| Protocol.ReadAllEncoded | pkg/protocol/protocol.go:209-268 | A stream of encoded well-formed payloads is read back in full and in order. |
| Protocol.Write | pkg/protocol/protocol.go:144-168 | A write on a closed connection returns ErrConnectionClosed and enqueues nothing. Otherwise the payload is appended to the queue. |
| Protocol.Close | pkg/protocol/protocol.go:170-177 | Closing marks the connection closed and keeps the queue. |
| Protocol.WriteAllQueues | pkg/protocol/protocol.go:144-177 | On an open connection, a sequence of writes succeeds and enqueues exactly those payloads in order. On a closed one, every write returns ErrConnectionClosed and the connection is unchanged. |
| FileCache.ChangedSince | pkg/filecache/filecache.go:60-71 | True iff some given path is missing from `Changed` or changed after the index. It is false for no paths. |
| FileCache.UnknownAlwaysChanged | pkg/filecache/filecache.go:60-71 | A path the cache has never seen always counts as changed. |
| FileCache.TrackedUpToDate | pkg/filecache/filecache.go:60-106 | Paths whose tracked index is still current are not changed since the maximum tracked index. |
| FileCache.ChangedIndex | pkg/filecache/filecache.go:78-93 | The recorded index is `Changed[path]`, or 0 when absent. |
| FileCache.Track | pkg/filecache/filecache.go:91-93 | Tracking records the path's changed index in `Tracked`, keeps the other entries, and changes nothing else. |
| FileCache.Read | pkg/filecache/filecache.go:78-85 | Data is returned iff the path is in `Files`, and it is that file's data. The path is tracked. |
| FileCache.ExistsAfterPrune | pkg/filecache/filecache.go:143-148 | After pruning, `Exists` holds for a path iff it was cached and its entry was refreshed by the current scan. |
| FileCache.ResetTracking | pkg/filecache/filecache.go:87-89 | Only `Tracked` is emptied. |
| FileCache.TrackingData | pkg/filecache/filecache.go:95-106 | The result is the maximum tracked index (0 when nothing is tracked) and exactly the tracked paths, each once. Tracking is emptied. |
| FileCache.NameLeTotal | pkg/filecache/filecache.go:56-58 | Any two files are ordered by name one way or the other. |
| FileCache.NameLeTrans | pkg/filecache/filecache.go:56-58 | The name order is transitive. |
| FileCache.SortByName | pkg/filecache/filecache.go:42-58 | The file list is sorted by name and is a permutation of its input. |
| FileCache.Insert | pkg/filecache/filecache.go:56-58 | Inserting into a sorted list keeps it sorted and adds exactly the one file. |
| FileCache.UpdateFile | pkg/filecache/filecache.go:206-238 | With an unchanged mtime, only the entry's index is refreshed and no change is reported. Otherwise the path is recorded as changed at the current index, and a successful read stores the data, the mtime, the path as name and the current index. On success the one visited file is the stored entry. |
| FileCache.UpdateFileAgain | pkg/filecache/filecache.go:206-212 | After a file has been read, scanning it again with the same mtime reports no change and no error, whatever the disk would now return. |
| FileCache.UpdateNode | pkg/filecache/filecache.go:120-142 | Scanning one entry only adds files and changes, and refreshes what it visits. No change reported means no new path and no new change. Every entry the scan leaves at the current index is among the visited files or was cached unchanged, and every visited file carries that index. |
| FileCache.UpdateDir | pkg/filecache/filecache.go:163-204 | Scanning a directory keeps the same scan invariants, and `PathMap` gains only directories under it. Every entry the scan leaves at the current index is among the visited files or was cached unchanged, and every visited file carries that index. |
| FileCache.UpdateRoots | pkg/filecache/filecache.go:120-142 | Scanning the roots keeps the scan invariants over all of them. Every entry the scan leaves at the current index is among the visited files or was cached unchanged, and every visited file carries that index. |
| FileCache.ScanStepTrans | pkg/filecache/filecache.go:120-142 | Scan steps compose. |
| FileCache.Prune | pkg/filecache/filecache.go:143-148 | Files whose index is not current are removed from both `Files` and `Changed`. Everything else is kept. |
| FileCache.UpdatePaths | pkg/filecache/filecache.go:108-161 | The index grows by exactly one and tracking is untouched. On success every cached file is current and appears in the digest list, and every file in that list carries the new index. The list is sorted by name. On failure the digest is cleared. `ErrNothingChanged` is returned iff no scanned path changed and nothing was pruned. |
| FileCache.UpdateOutcome | pkg/filecache/filecache.go:143-160 | After pruning, "nothing changed" holds iff the scan reported no change and no file was stale. |
| FileCache.InitialValid | pkg/filecache/filecache.go:108-119 | The empty cache is well formed. |
| WebCtx.SetHeader | pkg/elko/context.go:155-160 | The value is stored under the lowercased name, creating the map if it is absent. Every other header is untouched. |
| WebCtx.SetHeaderCaseless | pkg/elko/context.go:155-160 | Names that differ only in ASCII case set the same header. |
| WebCtx.SetStatus | pkg/elko/context.go:162-164 | Only the status changes. |
| WebCtx.Redirect | pkg/elko/context.go:166-173 | The status is 301 if permanent and 302 otherwise. The `location` header is the URL. Every other header is untouched. |
| WebCtx.QuoTruncates | pkg/elko/context.go:151-153 | Integer division of the duration rounds toward zero, as Go does. |
| WebCtx.CacheResponse | pkg/elko/context.go:151-153 | `cache-control` is set to `public, max-age=` followed by the duration in whole seconds. |
| WebCtx.CacheResponseSeconds | pkg/elko/context.go:151-153 | Two durations give the same header value iff they have the same whole seconds. |
| WebCtx.NewContext | pkg/elko/context.go:109-124 | The ID is the service context, then 8 bytes big-endian of the counter plus one, then the service name. The counter becomes that value. |
| WebCtx.NewContextsCount | pkg/elko/context.go:109-124 | `n` calls advance the counter by `n`, and call `k` embeds counter `last + k + 1`. |
| WebCtx.NewContextsDistinct | pkg/elko/context.go:109-124 | Without wrap-around, successive contexts of one service get pairwise distinct IDs. |
| Op.Name | pkg/op/op.go:51-64 | The name is empty iff the code is undefined, as the map's zero value is. |
| Op.NameFamily | pkg/op/op.go:38-60 | A code's name starts with `Client` iff it is one of 1..5, and with `Server` iff it is one of 64..66. |
| Op.LookupName | pkg/op/op.go:51-64 | Every defined code is recovered from its name. |
| Op.NameLookup | pkg/op/op.go:51-64 | A name that looks up to a code is that code's name. |
| Op.NameInjective | pkg/op/op.go:51-60 | Distinct defined codes have distinct names. |

## Left out

- Consul transport: the HTTP round trip and JSON decoding (`pkg/consul/consul.go:58-158`) are an abstract `Exchange`. Its answer, decoded body and index header are inputs.
- Blocking-query timing: `Wait` returns the current item after the turn's latency. The wait interval's `Duration.String` form is a string parameter of `Consul.WaitQuery`.
- Clocks and sleeps: wall clocks and `time.Sleep` become the `World` clock and an explicit advance. Effect times are issue times. Sleeps and latencies are taken from the environment.
- Lease.Maintain: the unbounded loop runs for a `ticks` fuel bound. The properties are stated for every bound, but a run that never ends is not modelled as such.
- Lease.New: the period is a `nat`, so negative durations are not modelled. The cleanup function is only a flag; what it does is the environment's turn.
- Lease.Contest: the extra sleep at `pkg/lease/lease.go:79-81` follows the code. It depends on whether the second read showed `I`, not on whether this call did the invalidating.
- Lease: `Value[0]` on an empty value is a Go panic. It is modelled as the `EmptyValue` error.
- Consul.GetItem: `items[0]` on an empty reply is a Go panic. It is modelled as an error.
- FileCache.Read: reading a path that is not cached is fatal in the source. Here it returns no data.
- Consul.Message: the header text is quoted as `strconv.Quote` does for ASCII. Non-ASCII characters that Go escapes (non-printable code points, invalid UTF-8) are kept as themselves.
- Consul.GetEndpoint: the Go `int` counter is unbounded here, so wrap-around is not modelled.
- Concurrency: goroutines, channels and mutexes are not modelled. This covers `Conn.Run`, the proxy queue and the payload pool of the wire protocol, the service lock, and the accept loops. Races in the lease protocol appear only as environment turns.
- Protocol read loop: only the happy-path frame grammar is modelled. Error paths are not, and neither is the data slice left unreset after a handler error.
- Protocol.ReadEncoded: the writer's data section holds the output of the payload encoder, which has no body in the source. Here the data is taken as already-encoded bytes.
- Protocol.ErrorText: `json.Marshal` of the arguments is abstracted. The arguments arrive as their already-rendered JSON text, and a marshal failure is not modelled.
- `Decode`/`Encode` at `pkg/protocol/protocol.go:20-24` and `toError` at `pkg/elko/context.go:175-177` are bodiless or do not compile, and are not modelled.
- Opcode values: the wire protocol's `OP_*` opcode values used by the service handler are not part of this model. They are an `OpTable` parameter, checked in the switch's order.
- Service.Serve: the reuse of the data buffer across frames and partial reads are not modelled. The frame decoder of the payloads is a parameter.
- Server: Azure metadata lookup (`pkg/servicemanager/config.go`) and `crypto/rand` are inputs.
- Server.Detail: `%q` is modelled as `strconv.Quote` does it for ASCII. Non-ASCII runes are kept as they are, without Go's `\u` escapes for unprintable ones.
- Service.WriteFrame: `proto.Marshal` and its error path (service.go:72-77) are not modelled; the frame data arrives already marshalled. Handing the frame to `s.pending` is not modelled either.
- Server.GenNodeId: the Unix seconds are truncated to 32 bits explicitly, as `binary.BigEndian.PutUint32` does.
- FileCache: the ancestor walk at `pkg/filecache/filecache.go:149-153` is not modelled. It never terminates on absolute paths, because the parent of `/` is `/`.
- FileCache: the sha512 digest is replaced by the sorted file list it hashes. File modes and filesystem access are replaced by a tree of already-read nodes.
- FileCache.SortByName: the relative order of entries with equal names is not stated.
- WebCtx.SetHeader: lowercasing is ASCII only. Go's `strings.ToLower` also folds non-ASCII letters.
- WebCtx.NewContextsDistinct: requires that the 64-bit counter does not wrap. `NewContext` itself wraps modulo 2^64 as the code does.
- Build: the compiler, linker, `os.Stat` and `go/parser` steps are not modelled. The package list and the parsed files are inputs.
- Build.ScanDirectory: the root directory's name comes from the first file's package clause. The result is claimed equal to it only when every package clause is non-empty, as Go's parser guarantees.

## Findings

| source | as written | input that shows it | evidently intended | confidence | as-written member | corrected member |
|---|---|---|---|---|---|---|
| pkg/servicemanager/service.go:93-114 | `seen` is initialised to false and never set, so after the first frame every frame that is not CLIENT_HELLO closes the connection | the frames CLIENT_HELLO then CLIENT_HEARTBEAT on one connection | set `seen` once the first frame has passed the CLIENT_HELLO check, so later frames are dispatched by the switch | not executed | Service.HandleService, Service.HeartbeatAfterHelloCloses | Service.HandleServiceFixed, Service.ServeAcceptsAll |

=== FILE: base64.dfy ===
/** Unpadded URL-safe base64 (`base64.RawURLEncoding`): the alphabet of
    section 5 of RFC 4648, with the '=' padding left off. */
module Base64 {
  import opened Wrappers
  import opened Bytes

  /** The sextet a symbol stands for. */
  type Sextet = x: int | 0 <= x < 64

  function Symbol(i: Sextet): (c: char) {
    if i < 26 then ('A' as int + i) as char
    else if i < 52 then ('a' as int + (i - 26)) as char
    else if i < 62 then ('0' as int + (i - 52)) as char
    else if i == 62 then '-'
    else '_'
  }

  function SymbolValue(c: char): (r: Option<Sextet>)
    ensures r.Some? ==> Symbol(r.value) == c
  {
    if 'A' <= c <= 'Z' then Some(c as int - 'A' as int)
    else if 'a' <= c <= 'z' then Some(c as int - 'a' as int + 26)
    else if '0' <= c <= '9' then Some(c as int - '0' as int + 52)
    else if c == '-' then Some(62)
    else if c == '_' then Some(63)
    else None
  }

  lemma SymbolValueOfSymbol(i: Sextet)
    ensures SymbolValue(Symbol(i)) == Some(i)
  {
  }

  /** Three bytes as four symbols. */
  function Group3(a: byte, b: byte, c: byte): seq<char> {
    [Symbol(a / 4), Symbol((a % 4) * 16 + b / 16), Symbol((b % 16) * 4 + c / 64), Symbol(c % 64)]
  }

  /** `EncodeToString`: whole groups, then two symbols for one leftover byte
      or three for two. */
  function Encode(b: seq<byte>): (s: string)
    ensures |s| == (|b| / 3) * 4 + (if |b| % 3 == 0 then 0 else |b| % 3 + 1)
    decreases |b|
  {
    if |b| >= 3 then Group3(b[0], b[1], b[2]) + Encode(b[3..])
    else if |b| == 2 then [Symbol(b[0] / 4), Symbol((b[0] % 4) * 16 + b[1] / 16), Symbol((b[1] % 16) * 4)]
    else if |b| == 1 then [Symbol(b[0] / 4), Symbol((b[0] % 4) * 16)]
    else []
  }

  /** Decoding, group by group; a single leftover symbol is malformed. */
  function Decode(s: string): (r: Option<seq<byte>>)
    decreases |s|
  {
    if |s| == 0 then Some([])
    else if |s| == 1 then None
    else
      var v0 :- SymbolValue(s[0]);
      var v1 :- SymbolValue(s[1]);
      var a: byte := v0 * 4 + v1 / 16;
      if |s| == 2 then Some([a])
      else
        var v2 :- SymbolValue(s[2]);
        var b: byte := (v1 % 16) * 16 + v2 / 4;
        if |s| == 3 then Some([a, b])
        else
          var v3 :- SymbolValue(s[3]);
          var c: byte := (v2 % 4) * 64 + v3;
          var rest :- Decode(s[4..]);
          Some([a, b, c] + rest)
  }

  lemma GroupRoundTrip(a: byte, b: byte, c: byte)
    ensures (a / 4) * 4 + ((a % 4) * 16 + b / 16) / 16 == a
    ensures (((a % 4) * 16 + b / 16) % 16) * 16 + ((b % 16) * 4 + c / 64) / 4 == b
    ensures (((b % 16) * 4 + c / 64) % 4) * 64 + c % 64 == c
  {
  }

  lemma DecodeOne(x: byte)
    ensures Decode(Encode([x])) == Some([x])
  {
    GroupRoundTrip(x, 0, 0);
    SymbolValueOfSymbol(x / 4);
    SymbolValueOfSymbol((x % 4) * 16);
  }

  lemma DecodeTwo(x: byte, y: byte)
    ensures Decode(Encode([x, y])) == Some([x, y])
  {
    var v0, v1, v2 := x / 4, (x % 4) * 16 + y / 16, (y % 16) * 4;
    var e := Encode([x, y]);
    assert e == [Symbol(v0), Symbol(v1), Symbol(v2)];
    SymbolValueOfSymbol(v0);
    SymbolValueOfSymbol(v1);
    SymbolValueOfSymbol(v2);
    assert v0 * 4 + v1 / 16 == x by { GroupRoundTrip(x, y, 0); }
    assert (v1 % 16) * 16 + v2 / 4 == y by { GroupRoundTrip(x, y, 0); }
  }

  /** A whole group in front of any decodable rest. */
  lemma DecodeGroup(x: byte, y: byte, z: byte, rest: string)
    requires Decode(rest).Some?
    ensures Decode(Group3(x, y, z) + rest) == Some([x, y, z] + Decode(rest).value)
  {
    GroupRoundTrip(x, y, z);
    SymbolValueOfSymbol(x / 4);
    SymbolValueOfSymbol((x % 4) * 16 + y / 16);
    SymbolValueOfSymbol((y % 16) * 4 + z / 64);
    SymbolValueOfSymbol(z % 64);
    assert (Group3(x, y, z) + rest)[4..] == rest;
  }

  /** Round trip: decoding an encoding gives the bytes back. */
  lemma {:induction false} DecodeEncode(b: seq<byte>)
    ensures Decode(Encode(b)) == Some(b)
    decreases |b|
  {
    if |b| >= 3 {
      DecodeEncode(b[3..]);
      DecodeGroup(b[0], b[1], b[2], Encode(b[3..]));
      assert [b[0], b[1], b[2]] + b[3..] == b;
    } else if |b| == 2 {
      DecodeTwo(b[0], b[1]);
      assert b == [b[0], b[1]];
    } else if |b| == 1 {
      DecodeOne(b[0]);
      assert b == [b[0]];
    }
  }

  /** So different byte strings never share an encoding. */
  lemma EncodeInjective(a: seq<byte>, b: seq<byte>)
    requires Encode(a) == Encode(b)
    ensures a == b
  {
    DecodeEncode(a);
    DecodeEncode(b);
  }
}

=== FILE: build.dfy ===
/** The package handling of `cmd/build-go-service/build.go`: the pass that
    orders packages so that each comes after the packages it imports, and
    the per-directory logic of `FindPackages` that settles a package's name
    and its import list. */
module Build {
  import opened Wrappers

  /** A package as the ordering sees it: its name (its path under the
      service directory) and the imports that name other packages of the
      service. */
  datatype Package = Package(name: string, imports: seq<string>)

  /** The names of the packages in `s`. */
  function Names(s: seq<Package>): set<string> {
    if s == [] then {} else Names(s[..|s| - 1]) + {s[|s| - 1].name}
  }

  /** Every import of `p` is in `moved`. */
  predicate Ready(p: Package, moved: set<string>) {
    forall k :: 0 <= k < |p.imports| ==> p.imports[k] in moved
  }

  /** Each package comes after every package it imports. */
  predicate Ordered(s: seq<Package>) {
    s == [] || (Ordered(s[..|s| - 1]) && Ready(s[|s| - 1], Names(s[..|s| - 1])))
  }

  /** Ordered, position by position. */
  lemma {:induction false} OrderedAt(s: seq<Package>, i: nat)
    requires Ordered(s) && i < |s|
    ensures Ready(s[i], Names(s[..i]))
    decreases |s|
  {
    if i < |s| - 1 {
      var t := s[..|s| - 1];
      OrderedAt(t, i);
      assert t[i] == s[i] && t[..i] == s[..i];
    }
  }

  /** Every package of `stuck` imports something outside `placed`. */
  predicate Stuck(placed: seq<Package>, stuck: seq<Package>) {
    forall i :: 0 <= i < |stuck| ==> !Ready(stuck[i], Names(placed))
  }

  /** One pass, as a reference: scanning `rest` in order, a package whose
      imports are all moved is moved itself (and counts as moved for the
      packages after it); the others are skipped. */
  function Pass(moved: set<string>, rest: seq<Package>): (r: seq<Package>)
    ensures |r| <= |rest|
    decreases |rest|
  {
    if rest == [] then []
    else if Ready(rest[0], moved) then [rest[0]] + Pass(moved + {rest[0].name}, rest[1..])
    else Pass(moved, rest[1..])
  }

  lemma NamesSnoc(s: seq<Package>, p: Package)
    ensures Names(s + [p]) == Names(s) + {p.name}
  {
    assert (s + [p])[..|s|] == s;
  }

  /** The outcome of ordering: a full order, or the packages placed before
      a pass that moved nothing and the packages left. */
  datatype Outcome = Sorted(order: seq<Package>) | Cyclic(placed: seq<Package>, stuck: seq<Package>)

  /** The state of a pass after scanning `b[start..i]`: `b[start..j]` holds
      the packages placed so far, in the order the reference pass places
      them, and `b[i..]` is still untouched. */
  predicate PassState(a: seq<Package>, start: nat, moved: set<string>,
                      b: seq<Package>, j: nat, i: nat, m: set<string>) {
    && start <= j <= i <= |b| && |b| == |a|
    && multiset(b) == multiset(a)
    && b[..start] == a[..start] && b[i..] == a[i..]
    && m == Names(b[..j]) && Ordered(b[..j])
    && b[start..j] + Pass(m, b[i..]) == Pass(moved, a[start..])
  }

  /** One step of the pass: visit the package at `i` and, if all its
      imports are moved, swap it to `j` and mark it moved. */
  method Visit(ghost a: seq<Package>, start: nat, ghost moved: set<string>,
               b: seq<Package>, j: nat, i: nat, m: set<string>)
    returns (b': seq<Package>, j': nat, m': set<string>)
    requires PassState(a, start, moved, b, j, i, m) && i < |b|
    ensures PassState(a, start, moved, b', j', i + 1, m')
  {
    var p := b[i];
    ghost var target := Pass(moved, a[start..]);
    ghost var rest := b[i..];
    assert rest[0] == p && rest[1..] == b[i + 1..];
    PassAdvance(b[start..j], m, rest, target);
    if Ready(p, m) {
      var c := if i != j then b[i := b[j]][j := p] else b;
      PlaceStep(b, c, start, j, i, m);
      b', j', m' := c, j + 1, m + {p.name};
    } else {
      b', j', m' := b, j, m;
    }
  }

  /** One pass of the ordering loop over `a[start..]`: each ready package
      is swapped to position `j`, the front of the not-yet-placed part, and
      marked moved at once. Returns the new slice, the new `j` and the
      moved set. */
  method OrderPass(a: seq<Package>, start: nat, moved: set<string>)
    returns (b: seq<Package>, j: nat, movedAfter: set<string>)
    requires start <= |a| && moved == Names(a[..start]) && Ordered(a[..start])
    ensures |b| == |a| && multiset(b) == multiset(a) && b[..start] == a[..start]
    ensures start <= j <= |b|
    ensures movedAfter == Names(b[..j]) && Ordered(b[..j])
    ensures b[start..j] == Pass(moved, a[start..])
    ensures j == start ==> forall x :: start <= x < |a| ==> !Ready(a[x], moved)
  {
    b, j, movedAfter := a, start, moved;
    var i: nat := start;
    assert b[start..j] == [] && b[i..] == a[start..];
    while i < |b|
      invariant PassState(a, start, moved, b, j, i, movedAfter)
      decreases |b| - i
    {
      b, j, movedAfter := Visit(a, start, moved, b, j, i, movedAfter);
      i := i + 1;
    }
    if j == start {
      PassEmpty(moved, a[start..]);
      assert forall x :: start <= x < |a| ==> a[x] == a[start..][x - start];
    }
  }

  /** Moving the ready package at `i` to `j` keeps the pass invariants. */
  lemma PlaceStep(b: seq<Package>, c: seq<Package>, start: nat, j: nat, i: nat, moved: set<string>)
    requires start <= j <= i < |b| && moved == Names(b[..j]) && Ordered(b[..j])
    requires Ready(b[i], moved)
    requires c == if i != j then b[i := b[j]][j := b[i]] else b
    ensures |c| == |b| && multiset(c) == multiset(b)
    ensures c[..start] == b[..start] && c[i + 1..] == b[i + 1..]
    ensures moved + {b[i].name} == Names(c[..j + 1]) && Ordered(c[..j + 1])
    ensures c[start..j + 1] == b[start..j] + [b[i]]
  {
    assert c[..j + 1] == b[..j] + [b[i]];
    NamesSnoc(b[..j], b[i]);
    OrderedSnoc(b[..j], b[i]);
  }

  /** A pass that places nothing found no ready package. */
  lemma {:induction false} PassEmpty(m: set<string>, rest: seq<Package>)
    requires Pass(m, rest) == []
    ensures forall x :: 0 <= x < |rest| ==> !Ready(rest[x], m)
    decreases |rest|
  {
    if rest != [] {
      PassEmpty(m, rest[1..]);
      assert forall x :: 1 <= x < |rest| ==> rest[x] == rest[1..][x - 1];
    }
  }

  /** The reference pass, advanced by one package. */
  lemma PassAdvance(done: seq<Package>, m: set<string>, rest: seq<Package>, target: seq<Package>)
    requires |rest| > 0 && done + Pass(m, rest) == target
    ensures Ready(rest[0], m) ==> (done + [rest[0]]) + Pass(m + {rest[0].name}, rest[1..]) == target
    ensures !Ready(rest[0], m) ==> done + Pass(m, rest[1..]) == target
  {
    if Ready(rest[0], m) {
      assert (done + [rest[0]]) + Pass(m + {rest[0].name}, rest[1..]) == done + ([rest[0]] + Pass(m + {rest[0].name}, rest[1..]));
    }
  }

  lemma OrderedSnoc(s: seq<Package>, p: Package)
    requires Ordered(s) && Ready(p, Names(s))
    ensures Ordered(s + [p])
  {
    assert (s + [p])[..|s|] == s;
  }

  /** The ordering loop of `Build`: passes over the remaining slice until
      none remain or a pass moves nothing. */
  method Order(packages: seq<Package>) returns (r: Outcome)
    ensures r.Sorted? ==> multiset(r.order) == multiset(packages) && Ordered(r.order)
    ensures r.Cyclic? ==> multiset(r.placed + r.stuck) == multiset(packages)
    ensures r.Cyclic? ==> Ordered(r.placed) && |r.stuck| > 0 && Stuck(r.placed, r.stuck)
  {
    var a := packages;
    var start := 0;
    var moved: set<string> := {};
    while start < |a|
      invariant 0 <= start <= |a|
      invariant multiset(a) == multiset(packages)
      invariant moved == Names(a[..start])
      invariant Ordered(a[..start])
      decreases |a| - start
    {
      var b, j, m := OrderPass(a, start, moved);
      if j == start {
        assert a[..start] + a[start..] == a;
        return Cyclic(a[..start], a[start..]);
      }
      a, start, moved := b, j, m;
    }
    assert a[..start] == a;
    return Sorted(a);
  }

  lemma {:induction false} NamesHas(s: seq<Package>, i: nat)
    requires i < |s|
    ensures s[i].name in Names(s)
    decreases |s|
  {
    if i < |s| - 1 {
      NamesHas(s[..|s| - 1], i);
    }
  }

  lemma {:induction false} NamesWitness(s: seq<Package>, n: string)
    requires n in Names(s)
    ensures exists i :: 0 <= i < |s| && s[i].name == n
    decreases |s|
  {
    if n != s[|s| - 1].name {
      NamesWitness(s[..|s| - 1], n);
      var i :| 0 <= i < |s| - 1 && s[..|s| - 1][i].name == n;
      assert s[i].name == n;
    }
  }

  /** A cycle report is complete: when every remaining package imports
      something outside the placed ones, no arrangement of all the packages
      is ordered. */
  lemma NoOrderWhenStuck(placed: seq<Package>, stuck: seq<Package>, t: seq<Package>)
    requires |stuck| > 0 && Stuck(placed, stuck)
    requires multiset(t) == multiset(placed + stuck)
    ensures !Ordered(t)
  {
    if Ordered(t) {
      var ms := multiset(stuck);
      assert stuck[0] in ms;
      assert stuck[0] in multiset(t);
      var k0 :| 0 <= k0 < |t| && t[k0] == stuck[0];
      var x := 0;
      while t[x] !in ms
        invariant 0 <= x <= k0
        invariant forall y :: 0 <= y < x ==> t[y] !in ms
        decreases k0 - x
      {
        x := x + 1;
      }
      OrderedAt(t, x);
      var si :| 0 <= si < |stuck| && stuck[si] == t[x];
      assert !Ready(stuck[si], Names(placed));
      var k :| 0 <= k < |t[x].imports| && t[x].imports[k] !in Names(placed);
      var n := t[x].imports[k];
      NamesWitness(t[..x], n);
      var y :| 0 <= y < x && t[..x][y].name == n;
      assert t[y] in multiset(t);
      assert t[y] in multiset(placed);
      var z :| 0 <= z < |placed| && placed[z] == t[y];
      NamesHas(placed, z);
    }
  }

  // -------------------------------------------------- FindPackages, per directory

  /** A parsed Go file: its package clause and its raw import literals. */
  datatype SourceFile = SourceFile(pkg: string, imports: seq<string>)

  datatype ScanError =
    | Conflicting(first: string, other: string)  // two package clauses disagree
    | InvalidImport(lit: string)                 // an import literal that is not `"..."`

  /** A package found in a directory: its name and its imports. */
  datatype DirPackage = DirPackage(name: string, imports: set<string>)

  /** An import literal with its quotes removed; literals of two characters
      or fewer, or not wrapped in double quotes, are invalid. */
  function Unquote(lit: string): (r: Option<string>)
    ensures r.Some? <==> |lit| > 2 && lit[0] == '"' && lit[|lit| - 1] == '"'
    ensures r.Some? ==> |r.value| > 0 && lit == "\"" + r.value + "\""
  {
    if |lit| <= 2 || lit[0] != '"' || lit[|lit| - 1] != '"' then None
    else Some(lit[1..|lit| - 1])
  }

  /** Unquoting a quoted non-empty path gives the path back. */
  lemma UnquoteQuote(path: string)
    requires |path| > 0
    ensures Unquote("\"" + path + "\"") == Some(path)
  {
    var lit := "\"" + path + "\"";
    assert lit[1..|lit| - 1] == path;
  }

  /** The paths named by the valid literals of `lits`. */
  function LiteralPaths(lits: seq<string>): set<string> {
    if lits == [] then {}
    else
      var last := Unquote(lits[|lits| - 1]);
      LiteralPaths(lits[..|lits| - 1]) + (if last.Some? then {last.value} else {})
  }

  /** The import paths of all the files, without duplicates. */
  function AllImports(files: seq<SourceFile>): set<string> {
    if files == [] then {} else AllImports(files[..|files| - 1]) + LiteralPaths(files[|files| - 1].imports)
  }

  predicate ValidLiterals(files: seq<SourceFile>) {
    forall k, m :: 0 <= k < |files| && 0 <= m < |files[k].imports| ==> Unquote(files[k].imports[m]).Some?
  }

  /** The package name a directory gets: its path below the service root,
      or, for the root itself, the first file's package clause. */
  function Resolved(rel: string, files: seq<SourceFile>): (r: string)
    requires |files| > 0
    ensures rel != "" ==> r == rel
  {
    if rel == "" then files[0].pkg else rel
  }

  /** Package clauses are Go identifiers, never empty. */
  predicate Parsed(files: seq<SourceFile>) {
    forall k :: 0 <= k < |files| ==> files[k].pkg != ""
  }

  predicate Agree(files: seq<SourceFile>) {
    forall k :: 0 <= k < |files| ==> files[k].pkg == files[0].pkg
  }

  /** The import loop of one file: every literal must be valid; their paths
      are added to `seen`. */
  method CollectImports(lits: seq<string>, seen: set<string>) returns (r: Result<set<string>, ScanError>)
    ensures r.Ok? <==> forall m :: 0 <= m < |lits| ==> Unquote(lits[m]).Some?
    ensures r.Ok? ==> r.value == seen + LiteralPaths(lits)
    ensures r.Err? ==> r.error.InvalidImport? && r.error.lit in lits && Unquote(r.error.lit).None?
  {
    var acc := seen;
    var m := 0;
    while m < |lits|
      invariant 0 <= m <= |lits|
      invariant forall m' :: 0 <= m' < m ==> Unquote(lits[m']).Some?
      invariant acc == seen + LiteralPaths(lits[..m])
    {
      var path := Unquote(lits[m]);
      if path.None? {
        return Err(InvalidImport(lits[m]));
      }
      assert lits[..m + 1][..m] == lits[..m];
      acc := acc + {path.value};
      m := m + 1;
    }
    assert lits[..m] == lits;
    return Ok(acc);
  }

  /** The name logic for one more file: the root directory takes its name
      from the first package clause; afterwards every clause must match the
      first one seen. */
  function SettleName(name: string, pkgName: string, f: SourceFile): (r: Result<(string, string), ScanError>)
    ensures name != "" && pkgName != "" ==> (r.Ok? <==> f.pkg == pkgName)
    ensures r.Ok? && name != "" ==> r.value.0 == name
    ensures r.Ok? && name == "" ==> r.value == (f.pkg, f.pkg)
    ensures r.Ok? && name != "" && pkgName != "" ==> r.value.1 == pkgName
    ensures r.Ok? && name != "" && pkgName == "" ==> r.value.1 == f.pkg
    ensures r.Err? ==> r.error == Conflicting(pkgName, f.pkg) && pkgName != f.pkg
  {
    if name == "" then Ok((f.pkg, f.pkg))
    else if pkgName == "" then Ok((name, f.pkg))
    else if f.pkg != pkgName then Err(Conflicting(pkgName, f.pkg))
    else Ok((name, pkgName))
  }

  /** What is known after the first `i` files have been scanned without
      returning. */
  predicate ScanState(rel: string, files: seq<SourceFile>, i: nat, name: string, pkgName: string, seen: set<string>) {
    && 0 < |files| && i <= |files|
    && (i > 0 ==> name != "main")
    && (Resolved(rel, files) == "main" ==> i == 0)
    && (i > 0 && (Parsed(files) || rel != "") ==> name == Resolved(rel, files))
    && (i == 0 ==> name == rel && pkgName == "")
    && (Parsed(files) && i > 0 ==> pkgName == files[0].pkg)
    && (Parsed(files) ==> forall k :: 0 <= k < i ==> files[k].pkg == files[0].pkg)
    && (forall k, m :: 0 <= k < i && 0 <= m < |files[k].imports| ==> Unquote(files[k].imports[m]).Some?)
    && seen == AllImports(files[..i])
  }

  /** What `ScanDirectory` promises about its result. */
  predicate ScanResult(rel: string, files: seq<SourceFile>, r: Result<Option<DirPackage>, ScanError>) {
    && (files == [] ==> r == Ok(None))
    && (|files| > 0 && Resolved(rel, files) == "main" ==> r == Ok(None))
    && ((Parsed(files) || rel != "") && r == Ok(None) ==> files == [] || Resolved(rel, files) == "main")
    && (r.Ok? && r.value.Some? ==>
          && |files| > 0 && r.value.value.name != "main"
          && ValidLiterals(files) && r.value.value.imports == AllImports(files)
          && (Parsed(files) || rel != "" ==> r.value.value.name == Resolved(rel, files))
          && (Parsed(files) ==> Agree(files)))
    && (Parsed(files) && |files| > 0 && Resolved(rel, files) != "main" && Agree(files) && ValidLiterals(files) ==>
          r.Ok? && r.value.Some?)
    && (r.Err? && r.error.InvalidImport? ==>
          Unquote(r.error.lit).None? && exists k :: 0 <= k < |files| && r.error.lit in files[k].imports)
    && (r.Err? && r.error.Conflicting? ==>
          r.error.first != r.error.other && exists k :: 0 <= k < |files| && files[k].pkg == r.error.other)
  }

  /** The error direction: a directory that is not skipped, but whose
      package clauses disagree or which has an invalid import literal, is
      rejected with an error. */
  lemma ScanRejects(rel: string, files: seq<SourceFile>, r: Result<Option<DirPackage>, ScanError>)
    requires ScanResult(rel, files, r)
    requires |files| > 0 && (Parsed(files) || rel != "") && Resolved(rel, files) != "main"
    requires !ValidLiterals(files) || (Parsed(files) && !Agree(files))
    ensures r.Err?
  {
  }

  datatype ScanStep =
    | Continue(name: string, pkgName: string, seen: set<string>)
    | Return(result: Result<Option<DirPackage>, ScanError>)

  /** The body of the file loop for file `i`. */
  method ScanFile(rel: string, files: seq<SourceFile>, i: nat, name: string, pkgName: string, seen: set<string>)
    returns (s: ScanStep)
    requires ScanState(rel, files, i, name, pkgName, seen) && i < |files|
    ensures s.Continue? ==> ScanState(rel, files, i + 1, s.name, s.pkgName, s.seen)
    ensures s.Return? ==> ScanResult(rel, files, s.result)
  {
    var f := files[i];
    var settled := SettleName(name, pkgName, f);
    if settled.Err? {
      return Return(Err(settled.error));
    }
    if settled.value.0 == "main" {
      return Return(Ok(None));
    }
    var collected := CollectImports(f.imports, seen);
    if collected.Err? {
      return Return(Err(collected.error));
    }
    assert files[..i + 1][..i] == files[..i];
    return Continue(settled.value.0, settled.value.1, collected.value);
  }

  /** The per-directory part of `FindPackages`: settle the package name
      file by file, skip a `main` package, and collect the unquoted import
      paths. */
  method ScanDirectory(rel: string, files: seq<SourceFile>) returns (r: Result<Option<DirPackage>, ScanError>)
    ensures ScanResult(rel, files, r)
  {
    if |files| == 0 {
      return Ok(None);
    }
    var name := rel;
    var pkgName := "";
    var seen: set<string> := {};
    var i: nat := 0;
    while i < |files|
      invariant ScanState(rel, files, i, name, pkgName, seen)
      decreases |files| - i
    {
      var s := ScanFile(rel, files, i, name, pkgName, seen);
      if s.Return? {
        return s.result;
      }
      name, pkgName, seen := s.name, s.pkgName, s.seen;
      i := i + 1;
    }
    assert files[..i] == files;
    return Ok(Some(DirPackage(name, seen)));
  }
}

=== FILE: bytes.dfy ===
/** Bytes, fixed-width unsigned truncation and Go's `encoding/binary`
    big-endian layout. */
module Bytes {

  type byte = x: int | 0 <= x < 256

  const Two32: nat := 0x1_0000_0000
  const Two64: nat := 0x1_0000_0000_0000_0000

  /** 256 to the power `k`: the number of values `k` bytes can hold. */
  function Pow256(k: nat): (r: nat)
    ensures r >= 1
  {
    if k == 0 then 1 else 256 * Pow256(k - 1)
  }

  /** Go's conversion `uint32(x)`: two's-complement wrap-around, which is
      Dafny's Euclidean remainder. */
  function Uint32(x: int): (r: nat)
    ensures r < Two32
    ensures 0 <= x < Two32 ==> r == x
  {
    x % Two32
  }

  /** Go's conversion `uint64(x)`. */
  function Uint64(x: int): (r: nat)
    ensures r < Two64
    ensures 0 <= x < Two64 ==> r == x
  {
    x % Two64
  }

  /** The `k`-byte big-endian encoding of `n`, most significant byte first,
      as `binary.BigEndian.PutUint32`/`PutUint64` write it. */
  function BigEndian(n: nat, k: nat): (r: seq<byte>)
    requires n < Pow256(k)
    ensures |r| == k
  {
    if k == 0 then []
    else
      assert n / 256 < Pow256(k - 1);
      BigEndian(n / 256, k - 1) + [n % 256]
  }

  /** The number a big-endian byte string denotes, as `binary.BigEndian.Uint32`
      and `Uint64` read it. */
  function FromBigEndian(b: seq<byte>): (n: nat)
    ensures n < Pow256(|b|)
  {
    if |b| == 0 then 0
    else FromBigEndian(b[..|b| - 1]) * 256 + b[|b| - 1]
  }

  /** Reading back what was written recovers the number. */
  lemma {:induction false} FromBigEndianOfBigEndian(n: nat, k: nat)
    requires n < Pow256(k)
    ensures FromBigEndian(BigEndian(n, k)) == n
  {
    if k > 0 {
      var r := BigEndian(n, k);
      assert r[..k - 1] == BigEndian(n / 256, k - 1);
      FromBigEndianOfBigEndian(n / 256, k - 1);
    }
  }

  /** Writing back what was read recovers the bytes: the layout is a
      bijection between `k`-byte strings and numbers below 256^k. */
  lemma {:induction false} BigEndianOfFromBigEndian(b: seq<byte>)
    ensures BigEndian(FromBigEndian(b), |b|) == b
  {
    if |b| > 0 {
      var p := b[..|b| - 1];
      BigEndianOfFromBigEndian(p);
      var n := FromBigEndian(b);
      assert n / 256 == FromBigEndian(p);
      assert n % 256 == b[|b| - 1];
      assert b == p + [b[|b| - 1]];
    }
  }

  /** Distinct numbers have distinct encodings. */
  lemma BigEndianInjective(m: nat, n: nat, k: nat)
    requires m < Pow256(k) && n < Pow256(k)
    requires BigEndian(m, k) == BigEndian(n, k)
    ensures m == n
  {
    FromBigEndianOfBigEndian(m, k);
    FromBigEndianOfBigEndian(n, k);
  }

  lemma Pow256Four()
    ensures Pow256(4) == Two32
  {
  }

  lemma Pow256Eight()
    ensures Pow256(8) == Two64
  {
  }

  /** `binary.BigEndian.PutUint32` of `uint32(x)`. */
  function PutUint32(x: int): (r: seq<byte>)
    ensures |r| == 4
    ensures FromBigEndian(r) == Uint32(x)
  {
    Pow256Four();
    FromBigEndianOfBigEndian(Uint32(x), 4);
    BigEndian(Uint32(x), 4)
  }

  /** `binary.BigEndian.PutUint64` of `uint64(x)`. */
  function PutUint64(x: int): (r: seq<byte>)
    ensures |r| == 8
    ensures FromBigEndian(r) == Uint64(x)
  {
    Pow256Eight();
    FromBigEndianOfBigEndian(Uint64(x), 8);
    BigEndian(Uint64(x), 8)
  }
}

=== FILE: consul.dfy ===
/** The pure parts of the Consul client in `pkg/consul`: how an HTTP status
    becomes an error, how a key becomes a URL path, which server a request
    goes to, the query strings of the calls the lease code uses, and how a
    reply is turned into an item, a listing or a write outcome. The HTTP
    exchange itself is a value of type `Exchange`; `Serve*` give the replies
    the abstract store of `KvStore` would send, tying the client to it. */
module Consul {
  import opened Wrappers
  import opened Bytes
  import opened Strs
  import opened Decimal
  import opened KvStore

  const KvPath := "/v1/kv/"

  datatype ConsulError =
    | NotFound                   // `consul.NotFound`: status 404
    | BadStatus(code: int)       // any other non-200 status
    | Transport(msg: string)     // the HTTP request itself failed
    | Undecodable                // the body was not the JSON expected
    | NoItems                    // `items[0]` on an empty listing: a Go panic
    | InvalidIndex(text: string, err: NumError) // `X-Consul-Index` is not a uint64
    | NoEndpoint                 // `log.Fatal("consul: endpoint not set")`

  /** How an invalid-index message begins: `getListing` wraps the error of
      `strconv.ParseUint`, which quotes the text it was given. */
  const IndexPrefix := "consul: invalid X-Consul-Index value: strconv.ParseUint: parsing \""

  /** The text `Error()` gives for each error. An invalid-index message
      names the header text unambiguously, followed by the parse error. */
  function Message(e: ConsulError): (m: string)
    ensures e.BadStatus? ==> HasPrefix(m, "consul: got a non-200 response code: ")
    ensures e.InvalidIndex? ==>
              && HasPrefix(m, IndexPrefix)
              && ReadQuoted(m[|IndexPrefix|..]) == Some((e.text, ": " + NumErrorText(e.err)))
  {
    match e
    case NotFound => "consul: key not found"
    case BadStatus(c) => "consul: got a non-200 response code: " + FormatInt(c)
    case Transport(msg) => msg
    case Undecodable => "json: cannot decode body"
    case NoItems => "runtime error: index out of range [0] with length 0"
    case InvalidIndex(t, k) =>
      var rest := ": " + NumErrorText(k);
      var m := IndexPrefix + Escape(t) + "\"" + rest;
      ReadQuotedEscape(t, rest);
      assert m[|IndexPrefix|..] == Escape(t) + "\"" + rest;
      m
    case NoEndpoint => "consul: endpoint not set"
  }

  /** `check`: 200 is success, 404 is `NotFound`, anything else an error
      naming the status. */
  function Check(status: int): (r: Option<ConsulError>)
    ensures r == None <==> status == 200
    ensures r == Some(NotFound) <==> status == 404
    ensures status != 200 && status != 404 ==> r == Some(BadStatus(status))
  {
    if status != 200 then
      if status == 404 then Some(NotFound) else Some(BadStatus(status))
    else None
  }

  /** Distinct unexpected statuses give distinct error texts. */
  lemma CheckDistinct(a: int, b: int)
    requires a != b && a != 200 && a != 404 && b != 200 && b != 404
    ensures Message(Check(a).value) != Message(Check(b).value)
  {
    var p := "consul: got a non-200 response code: ";
    if Message(Check(a).value) == Message(Check(b).value) {
      assert (p + FormatInt(a))[|p|..] == FormatInt(a);
      assert (p + FormatInt(b))[|p|..] == FormatInt(b);
      FormatIntInjective(a, b);
    }
  }

  /** `urlpath`: the KV path of `key` under the root prefix, with at most
      one leading slash of the key dropped. */
  function UrlPath(root: string, key: string): (r: string)
    ensures HasPrefix(key, "/") ==> r == KvPath + root + key[1..]
    ensures !HasPrefix(key, "/") ==> r == KvPath + root + key
  {
    KvPath + root + TrimPrefix(key, "/")
  }

  /** A key with or without one leading slash names the same path. */
  lemma UrlPathSlash(root: string, key: string)
    ensures UrlPath(root, "/" + key) == UrlPath(root, key) || HasPrefix(key, "/")
    ensures HasPrefix(key, "/") ==> UrlPath(root, "/" + key) == KvPath + root + key
  {
    assert HasPrefix("/" + key, "/") && ("/" + key)[1..] == key;
  }

  // ------------------------------------------------------------- endpoints

  /** The package-level server choice: a fixed endpoint, or a rotation list
      with its counter. */
  datatype Servers = Servers(fixed: string, list: seq<string>, counter: int)

  /** `getEndpoint`: the fixed endpoint when set; otherwise the counter is
      advanced first and then used to index the list. */
  function GetEndpoint(s: Servers): (r: Result<(string, Servers), ConsulError>)
    ensures s.fixed != "" ==> r == Ok((s.fixed, s))
    ensures s.fixed == "" && |s.list| == 0 ==> r == Err(NoEndpoint)
    ensures s.fixed == "" && |s.list| > 0 ==>
              r.Ok? && r.value.1 == s.(counter := s.counter + 1)
              && r.value.0 == s.list[(s.counter + 1) % |s.list|]
  {
    if s.fixed != "" then Ok((s.fixed, s))
    else if |s.list| > 0 then
      var c := s.counter + 1;
      Ok((s.list[c % |s.list|], s.(counter := c)))
    else Err(NoEndpoint)
  }

  /** The servers chosen by `n` consecutive requests. */
  function Endpoints(s: Servers, n: nat): (r: Result<(seq<string>, Servers), ConsulError>)
    ensures r.Ok? ==> |r.value.0| == n
    decreases n
  {
    if n == 0 then Ok(([], s))
    else
      match GetEndpoint(s)
      case Err(e) => Err(e)
      case Ok((x, s1)) =>
        match Endpoints(s1, n - 1)
        case Err(e) => Err(e)
        case Ok((xs, s2)) => Ok(([x] + xs, s2))
  }

  /** Round robin: the k-th of n requests goes to `list[(counter + k + 1) % len]`,
      so the servers are used in turn starting after the counter. */
  lemma {:induction false} EndpointsRotate(s: Servers, n: nat)
    requires s.fixed == "" && |s.list| > 0
    ensures Endpoints(s, n).Ok?
    ensures Endpoints(s, n).value.1 == s.(counter := s.counter + n)
    ensures forall k :: 0 <= k < n ==> Endpoints(s, n).value.0[k] == s.list[(s.counter + k + 1) % |s.list|]
    decreases n
  {
    if n > 0 {
      var s1 := s.(counter := s.counter + 1);
      EndpointsRotate(s1, n - 1);
      var xs := Endpoints(s1, n - 1).value.0;
      assert Endpoints(s, n).value.0 == [s.list[(s.counter + 1) % |s.list|]] + xs;
    }
  }

  /** A fixed endpoint receives every request. */
  lemma {:induction false} EndpointsFixed(s: Servers, n: nat)
    requires s.fixed != ""
    ensures Endpoints(s, n) == Ok((seq(n, _ => s.fixed), s))
    decreases n
  {
    if n == 0 {
      assert seq(n, _ => s.fixed) == [];
    } else {
      EndpointsFixed(s, n - 1);
      assert [s.fixed] + seq(n - 1, _ => s.fixed) == seq(n, _ => s.fixed);
    }
  }

  /** `SetEndpoint(servers...)`: exactly one server becomes the fixed
      endpoint; any other number replaces the rotation list. */
  function SetEndpoint(s: Servers, servers: seq<string>): (r: Servers)
    ensures |servers| == 1 ==> r.fixed == servers[0] && r.list == s.list
    ensures |servers| != 1 ==> r.fixed == s.fixed && r.list == servers
    ensures r.counter == s.counter
  {
    if |servers| == 1 then s.(fixed := servers[0]) else s.(list := servers)
  }

  // --------------------------------------------------------------- queries

  /** The query of `CAS(key, value, index)`. */
  function CasQuery(index: nat): (q: string)
    ensures HasPrefix(q, "cas=") && AllDigits(q[4..])
  {
    "cas=" + FormatUint(index)
  }

  /** The query of `Get(key)`. */
  const GetQuery := "consistent"

  /** The query of `Wait(key, interval, index)`; `interval` is the text Go's
      `Duration.String` gives for the wait time. */
  function WaitQuery(interval: string, index: nat): (q: string)
    ensures var w := GetQuery + "&wait="; var d := FormatUint(index);
            && |q| == |w| + |interval| + |"&index="| + |d|
            && q[..|w|] == w
            && q[|w|..|w| + |interval|] == interval
            && q[|w| + |interval|..|q| - |d|] == "&index="
            && q[|q| - |d|..] == d
  {
    GetQuery + "&wait=" + interval + "&index=" + FormatUint(index)
  }

  /** The index a CAS query carries can be read back from it. */
  lemma CasQueryRoundTrip(index: nat)
    requires index < Two64
    ensures ParseUint64(CasQuery(index)[4..]) == Some(index)
  {
    assert CasQuery(index)[4..] == FormatUint(index);
    ParseFormatUint(index);
  }

  /** Likewise for a Wait query: the index is the decimal number after the
      last `&index=`, and the interval is what lies between `&wait=` and it. */
  lemma WaitQueryRoundTrip(interval: string, index: nat)
    requires index < Two64
    ensures var q := WaitQuery(interval, index);
            var n := |q| - |FormatUint(index)|;
            && ParseUint64(q[n..]) == Some(index)
            && q[n - 7..n] == "&index="
            && q[16..n - 7] == interval
  {
    ParseFormatUint(index);
  }

  // --------------------------------------------------------------- replies

  /** An item as the KV endpoint encodes it. */
  datatype KvItem = KvItem(key: string, modifyIndex: nat, value: seq<byte>)

  /** What the reply body decodes to. */
  datatype Body = Items(items: seq<KvItem>) | Flag(ok: bool) | Garbage

  datatype Response = Response(status: int, body: Body, indexHeader: string)

  /** One HTTP round trip: a transport failure or a response. */
  datatype Exchange = Failed(msg: string) | Answered(resp: Response)

  /** `get`: the decoded items and the `X-Consul-Index` header text. */
  function Fetch(x: Exchange): (r: Result<(seq<KvItem>, string), ConsulError>)
    ensures x.Failed? ==> r == Err(Transport(x.msg))
    ensures x.Answered? && Check(x.resp.status).Some? ==> r == Err(Check(x.resp.status).value)
    ensures r.Ok? <==> x.Answered? && x.resp.status == 200 && x.resp.body.Items?
    ensures r.Ok? ==> r.value == (x.resp.body.items, x.resp.indexHeader)
  {
    match x
    case Failed(m) => Err(Transport(m))
    case Answered(resp) =>
      match Check(resp.status)
      case Some(e) => Err(e)
      case None =>
        if resp.body.Items? then Ok((resp.body.items, resp.indexHeader)) else Err(Undecodable)
  }

  /** `getItem`: the first item of the reply. */
  function GetItem(x: Exchange): (r: Result<KvItem, ConsulError>)
    ensures r.Ok? <==> Fetch(x).Ok? && |Fetch(x).value.0| > 0
    ensures r.Ok? ==> r.value == Fetch(x).value.0[0]
    ensures Fetch(x).Err? ==> r == Err(Fetch(x).error)
  {
    var items :- Fetch(x);
    if |items.0| == 0 then Err(NoItems) else Ok(items.0[0])
  }

  datatype Listing = Listing(index: nat, items: seq<KvItem>)

  /** `getListing`: all items, with the index header parsed as a uint64. */
  function GetListing(x: Exchange): (r: Result<Listing, ConsulError>)
    ensures r.Ok? <==> Fetch(x).Ok? && ParseUint64(Fetch(x).value.1).Some?
    ensures r.Ok? ==> r.value.items == Fetch(x).value.0 && r.value.index < Two64
    ensures Fetch(x).Ok? && ParseUint64(Fetch(x).value.1).None? ==>
              r == Err(InvalidIndex(Fetch(x).value.1, ParseUintError(Fetch(x).value.1).value))
  {
    var got :- Fetch(x);
    match ParseUint64(got.1)
    case None => Err(InvalidIndex(got.1, ParseUintError(got.1).value))
    case Some(n) => Ok(Listing(n, got.0))
  }

  /** `put`: the JSON boolean of a 200 reply is the write's outcome. */
  function PutResult(x: Exchange): (r: Result<bool, ConsulError>)
    ensures r.Ok? <==> x.Answered? && x.resp.status == 200 && x.resp.body.Flag?
    ensures r.Ok? ==> r.value == x.resp.body.ok
    ensures x.Answered? && Check(x.resp.status).Some? ==> r == Err(Check(x.resp.status).value)
  {
    match x
    case Failed(m) => Err(Transport(m))
    case Answered(resp) =>
      match Check(resp.status)
      case Some(e) => Err(e)
      case None => if resp.body.Flag? then Ok(resp.body.ok) else Err(Undecodable)
  }

  /** `delete`: only the status matters. */
  function DeleteResult(x: Exchange): (r: Option<ConsulError>)
    ensures r == None <==> x.Answered? && x.resp.status == 200
  {
    match x
    case Failed(m) => Some(Transport(m))
    case Answered(resp) => Check(resp.status)
  }

  // ------------------------------------------- the store behind the client

  /** The reply the store gives to a consistent read of `k`. */
  function ServeGet(s: Store, k: string): (x: Exchange)
    ensures x.Answered? && (x.resp.status == 200 <==> k in s.items)
  {
    if k in s.items then
      Answered(Response(200, Items([KvItem(k, s.items[k].modifyIndex, s.items[k].value)]), FormatUint(s.index)))
    else Answered(Response(404, Garbage, FormatUint(s.index)))
  }

  /** The reply to `?cas=expected` and the store after it. */
  function ServeCas(s: Store, k: string, v: seq<byte>, expected: nat): (r: (Exchange, Store))
    ensures r.1 == Apply(s, Cas(k, v, expected))
    ensures r.0 == Answered(Response(200, Flag(CasAccepts(s, k, expected)), FormatUint(r.1.index)))
  {
    var t := Apply(s, Cas(k, v, expected));
    (Answered(Response(200, Flag(CasAccepts(s, k, expected)), FormatUint(t.index))), t)
  }

  /** `consul.Get` against the store reports exactly the store's item, and
      `NotFound` exactly when the key is absent. */
  lemma GetMatchesStore(s: Store, k: string)
    ensures GetItem(ServeGet(s, k)) == Err(NotFound) <==> k !in s.items
    ensures GetItem(ServeGet(s, k)).Ok? <==> k in s.items
    ensures k in s.items ==>
              var it := GetItem(ServeGet(s, k)).value;
              it.key == k && Item(it.value, it.modifyIndex) == s.items[k]
  {
  }

  /** `consul.CAS` against the store reports exactly the check-and-set rule
      the lease model relies on. */
  lemma CasMatchesStore(s: Store, k: string, v: seq<byte>, expected: nat)
    ensures PutResult(ServeCas(s, k, v, expected).0) == Ok(CasAccepts(s, k, expected))
  {
  }
}

=== FILE: context.dfy ===
/** The request-context helpers of `pkg/elko/context.go`: the response
    fields a `WebContext` accumulates, and the layout of a `Context` ID. */
module WebCtx {
  import opened Wrappers
  import opened Bytes
  import opened Strs
  import opened Decimal

  // ---------------------------------------------------------------------
  // WebContext
  // ---------------------------------------------------------------------

  /** The response side of a `WebContext`; `header` is `None` while the Go
      map is still nil. */
  datatype WebContext = WebContext(status: int, header: Option<map<string, string>>)

  /** The header map as read: a nil map reads as empty. */
  function Headers(c: WebContext): map<string, string> {
    c.header.GetOr(map[])
  }

  /** `SetHeader`: one entry under the lower-cased name. */
  function SetHeader(c: WebContext, name: string, value: string): (r: WebContext)
    ensures r.status == c.status && r.header.Some?
    ensures ToLower(name) in Headers(r) && Headers(r)[ToLower(name)] == value
    ensures forall k :: k != ToLower(name) ==>
              (k in Headers(r) <==> k in Headers(c)) &&
              (k in Headers(c) ==> Headers(r)[k] == Headers(c)[k])
  {
    WebContext(c.status, Some(Headers(c)[ToLower(name) := value]))
  }

  /** Names that differ only in letter case address the same entry, and
      setting it again replaces the earlier value. */
  lemma SetHeaderCaseless(c: WebContext, a: string, b: string, u: string, v: string)
    requires ToLower(a) == ToLower(b)
    ensures Headers(SetHeader(SetHeader(c, a, u), b, v)) == Headers(SetHeader(c, b, v))
  {
  }

  /** `SetStatus`: only the status changes. */
  function SetStatus(c: WebContext, code: int): (r: WebContext)
    ensures r.status == code && r.header == c.header
  {
    c.(status := code)
  }

  /** `Redirect`: 301 when permanent, 302 otherwise, with the target under
      "location". */
  function Redirect(c: WebContext, url: string, permanent: bool): (r: WebContext)
    ensures r.status == (if permanent then 301 else 302)
    ensures "location" in Headers(r) && Headers(r)["location"] == url
    ensures forall k :: k != "location" ==>
              (k in Headers(r) <==> k in Headers(c)) &&
              (k in Headers(c) ==> Headers(r)[k] == Headers(c)[k])
  {
    LowerLocation();
    SetHeader(SetStatus(c, if permanent then 301 else 302), "location", url)
  }

  lemma LowerLocation()
    ensures ToLower("location") == "location"
  {
  }

  /** Nanoseconds per second: `time.Second`. */
  const Second: int := 1_000_000_000

  /** Go's integer division, which truncates toward zero. */
  function Quo(a: int, b: int): (q: int)
    requires b > 0
  {
    if a >= 0 then a / b else -((-a) / b)
  }

  /** The quotient rounds toward zero: it never overshoots `a` and falls
      short of it by less than one `b`. */
  lemma QuoTruncates(a: int, b: int)
    requires b > 0
    ensures var q := Quo(a, b);
            && (a >= 0 ==> 0 <= q * b <= a < q * b + b)
            && (a < 0 ==> q * b - b < a <= q * b <= 0)
  {
    if a >= 0 {
      var k := a / b;
      assert Quo(a, b) == k;
      DivMod(a, b);
    } else {
      var k := (-a) / b;
      assert Quo(a, b) == -k;
      DivMod(-a, b);
      NegMul(k, b);
    }
  }

  /** Euclidean division of a natural number, with its product named. */
  lemma DivMod(m: nat, b: int)
    requires b > 0
    ensures var k := m / b;
            m - b < k * b <= m && 0 <= k * b
  {
    var k, r := m / b, m % b;
    assert m == k * b + r && 0 <= r < b;
    assert k >= 0;
  }

  lemma NegMul(k: int, b: int)
    ensures (-k) * b == -(k * b)
  {
  }

  const CacheControlPrefix := "public, max-age="

  /** `CacheResponse`: the duration in whole seconds, truncated toward
      zero, after "public, max-age=". */
  function CacheResponse(c: WebContext, d: int): (r: WebContext)
    ensures "cache-control" in Headers(r)
    ensures var v := Headers(r)["cache-control"];
            HasPrefix(v, CacheControlPrefix) && v[|CacheControlPrefix|..] == FormatInt(Quo(d, Second))
    ensures r.status == c.status
  {
    LowerCacheControl();
    SetHeader(c, "cache-control", CacheControlPrefix + FormatInt(Quo(d, Second)))
  }

  lemma LowerCacheControl()
    ensures ToLower("cache-control") == "cache-control"
  {
  }

  /** Two durations give the same header exactly when they have the same
      whole number of seconds. */
  lemma CacheResponseSeconds(c: WebContext, d: int, e: int)
    ensures Headers(CacheResponse(c, d))["cache-control"] == Headers(CacheResponse(c, e))["cache-control"]
            <==> Quo(d, Second) == Quo(e, Second)
  {
    var v := Headers(CacheResponse(c, d))["cache-control"];
    var w := Headers(CacheResponse(c, e))["cache-control"];
    if v == w {
      assert v[|CacheControlPrefix|..] == w[|CacheControlPrefix|..];
      FormatIntInjective(Quo(d, Second), Quo(e, Second));
    }
  }

  // ---------------------------------------------------------------------
  // NewContext
  // ---------------------------------------------------------------------

  /** `NewContext`: the counter is bumped (as a `uint64`, so it wraps), and
      the ID is the service context bytes, the new counter as 8 big-endian
      bytes, and the service name. */
  function NewContext(serviceCtx: seq<byte>, service: seq<byte>, last: nat): (r: (seq<byte>, nat))
    ensures r.1 == Uint64(last + 1)
    ensures |r.0| == |serviceCtx| + 8 + |service|
    ensures r.0[..|serviceCtx|] == serviceCtx && r.0[|serviceCtx| + 8..] == service
    ensures FromBigEndian(r.0[|serviceCtx|..|serviceCtx| + 8]) == r.1
  {
    var next := Uint64(last + 1);
    var id := serviceCtx + PutUint64(next) + service;
    assert id[|serviceCtx|..|serviceCtx| + 8] == PutUint64(next);
    (id, next)
  }

  /** The counter value an ID carries, read back from its layout. */
  function CounterOf(id: seq<byte>, ctxLen: nat): nat
    requires |id| >= ctxLen + 8
  {
    FromBigEndian(id[ctxLen..ctxLen + 8])
  }

  /** `n` contexts made one after another. */
  function NewContexts(serviceCtx: seq<byte>, service: seq<byte>, last: nat, n: nat): (r: (seq<seq<byte>>, nat))
    ensures |r.0| == n
    decreases n
  {
    if n == 0 then ([], last)
    else
      var (id, next) := NewContext(serviceCtx, service, last);
      var (ids, final) := NewContexts(serviceCtx, service, next, n - 1);
      ([id] + ids, final)
  }

  /** Until the 64-bit counter wraps, the i-th of a run of contexts carries
      counter last+i+1, so their IDs are pairwise distinct. */
  lemma {:induction false} NewContextsCount(serviceCtx: seq<byte>, service: seq<byte>, last: nat, n: nat)
    requires last + n < Two64
    ensures var ids := NewContexts(serviceCtx, service, last, n).0;
            && (forall i :: 0 <= i < n ==>
                  |ids[i]| == |serviceCtx| + 8 + |service| && CounterOf(ids[i], |serviceCtx|) == last + i + 1)
            && NewContexts(serviceCtx, service, last, n).1 == last + n
    decreases n
  {
    if n > 0 {
      NewContextsCount(serviceCtx, service, last + 1, n - 1);
      var ids := NewContexts(serviceCtx, service, last, n).0;
      forall i | 1 <= i < n
        ensures CounterOf(ids[i], |serviceCtx|) == last + i + 1
      {
        assert ids[i] == NewContexts(serviceCtx, service, last + 1, n - 1).0[i - 1];
      }
    }
  }

  lemma NewContextsDistinct(serviceCtx: seq<byte>, service: seq<byte>, last: nat, n: nat, i: nat, j: nat)
    requires last + n < Two64
    requires i < j < n
    ensures NewContexts(serviceCtx, service, last, n).0[i] != NewContexts(serviceCtx, service, last, n).0[j]
  {
    NewContextsCount(serviceCtx, service, last, n);
  }
}

=== FILE: decimal.dfy ===
/** Base-10 text of integers: Go's `strconv.FormatUint(n, 10)`, `%d` and
    `strconv.ParseUint(s, 10, 64)` with the error it reports, and the
    `strconv.Quote` form that error quotes its input in. */
module Decimal {
  import opened Wrappers
  import opened Bytes

  predicate IsDigit(c: char) {
    '0' <= c <= '9'
  }

  predicate AllDigits(s: string) {
    forall i :: 0 <= i < |s| ==> IsDigit(s[i])
  }

  function DigitChar(d: nat): (c: char)
    requires d < 10
    ensures IsDigit(c)
  {
    ('0' as int + d) as char
  }

  function DigitValue(c: char): (d: nat)
    requires IsDigit(c)
    ensures d < 10
  {
    c as int - '0' as int
  }

  /** `strconv.FormatUint(n, 10)`: shortest decimal text, no sign, no
      leading zero except for 0 itself. */
  function FormatUint(n: nat): (s: string)
    ensures |s| >= 1 && AllDigits(s)
    ensures |s| > 1 ==> s[0] != '0'
    decreases n
  {
    if n < 10 then [DigitChar(n)] else FormatUint(n / 10) + [DigitChar(n % 10)]
  }

  /** `%d` of a signed integer. */
  function FormatInt(i: int): (s: string)
    ensures i < 0 <==> (|s| > 0 && s[0] == '-')
  {
    if i < 0 then "-" + FormatUint(-i) else FormatUint(i)
  }

  /** The value of a string of digits. */
  function DigitsValue(s: string): nat
    requires AllDigits(s)
  {
    if |s| == 0 then 0 else DigitsValue(s[..|s| - 1]) * 10 + DigitValue(s[|s| - 1])
  }

  /** `strconv.ParseUint(s, 10, 64)`: a non-empty run of ASCII digits
      (leading zeros allowed, no sign, no underscores) whose value fits in
      64 bits. */
  function ParseUint64(s: string): (r: Option<nat>)
    ensures r.Some? ==> r.value < Two64 && |s| > 0 && AllDigits(s)
    ensures r.Some? <==> |s| > 0 && AllDigits(s) && DigitsValue(s) < Two64
  {
    if |s| == 0 || !AllDigits(s) then None
    else if DigitsValue(s) < Two64 then Some(DigitsValue(s))
    else None
  }

  lemma {:induction false} DigitsValueOfFormat(n: nat)
    ensures DigitsValue(FormatUint(n)) == n
    decreases n
  {
    if n >= 10 {
      var s := FormatUint(n);
      assert s[..|s| - 1] == FormatUint(n / 10);
      DigitsValueOfFormat(n / 10);
    }
  }

  /** Parsing what FormatUint wrote gives back the number. */
  lemma ParseFormatUint(n: nat)
    requires n < Two64
    ensures ParseUint64(FormatUint(n)) == Some(n)
  {
    DigitsValueOfFormat(n);
  }

  /** FormatUint is injective, so distinct indices give distinct query text. */
  lemma FormatUintInjective(m: nat, n: nat)
    requires FormatUint(m) == FormatUint(n)
    ensures m == n
  {
    DigitsValueOfFormat(m);
    DigitsValueOfFormat(n);
  }

  /** FormatInt is injective too: the sign and the digits are both kept. */
  lemma FormatIntInjective(i: int, j: int)
    requires FormatInt(i) == FormatInt(j)
    ensures i == j
  {
    if i < 0 && j < 0 {
      assert FormatUint(-i) == FormatInt(i)[1..] == FormatInt(j)[1..] == FormatUint(-j);
      FormatUintInjective(-i, -j);
    } else if i >= 0 && j >= 0 {
      FormatUintInjective(i, j);
    }
  }

  // ------------------------------------------------------- ParseUint errors

  /** The two reasons `strconv.ParseUint` gives. */
  datatype NumError = ErrSyntax | ErrRange

  function NumErrorText(e: NumError): string {
    match e
    case ErrSyntax => "invalid syntax"
    case ErrRange => "value out of range"
  }

  /** The leading run of digits of `s`. */
  function DigitRun(s: string): (r: string)
    ensures AllDigits(r) && |r| <= |s| && r == s[..|r|]
    ensures |r| < |s| ==> !IsDigit(s[|r|])
    decreases |s|
  {
    if s == [] || !IsDigit(s[0]) then []
    else
      var t := DigitRun(s[1..]);
      assert [s[0]] + t == s[..|t| + 1];
      [s[0]] + t
  }

  /** The error `strconv.ParseUint(s, 10, 64)` returns. Its loop stops at
      the first non-digit with a syntax error, and at the first digit that
      takes the value past 2^64 - 1 with a range error; since the value
      only grows along the digits, the range error wins exactly when the
      whole leading run of digits is too large. */
  function ParseUintError(s: string): (r: Option<NumError>)
    ensures r.None? <==> ParseUint64(s).Some?
    ensures r == Some(ErrRange) ==> |DigitRun(s)| > 0
    ensures |s| > 0 && AllDigits(s) && ParseUint64(s).None? ==> r == Some(ErrRange)
    ensures s == [] ==> r == Some(ErrSyntax)
  {
    var run := DigitRun(s);
    assert |s| > 0 && AllDigits(s) ==> run == s;
    if DigitsValue(run) >= Two64 then
      assert |run| > 0;
      Some(ErrRange)
    else if ParseUint64(s).Some? then None
    else
      Some(ErrSyntax)
  }

  // ---------------------------------------------------------------- Quote

  function HexDigit(d: nat): (c: char)
    requires d < 16
  {
    "0123456789abcdef"[d]
  }

  function HexValue(c: char): (d: Option<nat>)
    ensures d.Some? ==> d.value < 16
  {
    if '0' <= c <= '9' then Some(c as int - '0' as int)
    else if 'a' <= c <= 'f' then Some(c as int - 'a' as int + 10)
    else None
  }

  /** The letter of the C escape a control character has, if any. */
  function EscapeLetter(c: char): Option<char> {
    if c == 7 as char then Some('a')
    else if c == 8 as char then Some('b')
    else if c == 12 as char then Some('f')
    else if c == 10 as char then Some('n')
    else if c == 13 as char then Some('r')
    else if c == 9 as char then Some('t')
    else if c == 11 as char then Some('v')
    else None
  }

  /** The control character a C escape letter stands for. */
  function LetterChar(x: char): (c: Option<char>)
    ensures c.Some? ==> EscapeLetter(c.value) == Some(x)
  {
    if x == 'a' then Some(7 as char)
    else if x == 'b' then Some(8 as char)
    else if x == 'f' then Some(12 as char)
    else if x == 'n' then Some(10 as char)
    else if x == 'r' then Some(13 as char)
    else if x == 't' then Some(9 as char)
    else if x == 'v' then Some(11 as char)
    else None
  }

  /** One character as `strconv.Quote` writes it: the quote and backslash
      escaped, the C escapes for the control characters that have one,
      `\x` and two hex digits for the other ASCII control characters, and
      every other character as itself. */
  function EscapeChar(c: char): (r: string)
    ensures 1 <= |r| <= 4
    ensures |r| == 1 <==> r == [c]
    ensures |r| > 1 ==> r[0] == '\\'
  {
    if c == '"' || c == '\\' then ['\\', c]
    else if EscapeLetter(c).Some? then ['\\', EscapeLetter(c).value]
    else if c < 32 as char || c == 127 as char then
      ['\\', 'x', HexDigit(c as int / 16), HexDigit(c as int % 16)]
    else [c]
  }

  function Escape(t: string): string
    decreases |t|
  {
    if t == [] then [] else EscapeChar(t[0]) + Escape(t[1..])
  }

  /** `strconv.Quote(t)`. */
  function Quote(t: string): (q: string)
    ensures |q| >= 2 && q[0] == '"'
  {
    "\"" + Escape(t) + "\""
  }

  /** The character an escape at the front of `s` stands for, and its
      length. */
  function Unescape(s: string): (r: Option<(char, nat)>)
    requires |s| >= 1 && s[0] == '\\'
    ensures r.Some? ==> 2 <= r.value.1 <= |s|
  {
    if |s| < 2 then None
    else if s[1] == '"' || s[1] == '\\' then Some((s[1], 2))
    else if LetterChar(s[1]).Some? then Some((LetterChar(s[1]).value, 2))
    else if s[1] == 'x' && |s| >= 4 && HexValue(s[2]).Some? && HexValue(s[3]).Some? then
      Some(((HexValue(s[2]).value * 16 + HexValue(s[3]).value) as char, 4))
    else None
  }

  /** Reads a quoted text whose opening quote is already consumed: the
      characters up to the closing quote, and what follows it. */
  function ReadQuoted(s: string): Option<(string, string)>
    decreases |s|
  {
    if s == [] then None
    else if s[0] == '"' then Some(([], s[1..]))
    else if s[0] == '\\' then
      match Unescape(s)
      case None => None
      case Some(u) =>
        match ReadQuoted(s[u.1..])
        case None => None
        case Some(tr) => Some(([u.0] + tr.0, tr.1))
    else
      match ReadQuoted(s[1..])
      case None => None
      case Some(tr) => Some(([s[0]] + tr.0, tr.1))
  }

  lemma HexRoundTrip(c: char)
    requires c < 128 as char
    ensures HexValue(HexDigit(c as int / 16)) == Some(c as int / 16)
    ensures HexValue(HexDigit(c as int % 16)) == Some(c as int % 16)
    ensures ((c as int / 16) * 16 + c as int % 16) as char == c
  {
  }

  /** Every letter escape is undone by `LetterChar`. */
  lemma LetterRoundTrip(c: char)
    requires EscapeLetter(c).Some?
    ensures LetterChar(EscapeLetter(c).value) == Some(c)
    ensures EscapeLetter(c).value != '"' && EscapeLetter(c).value != '\\' && EscapeLetter(c).value != 'x'
  {
  }

  /** An escape sequence is decoded back to its character. */
  lemma UnescapeEscape(c: char, rest: string)
    requires |EscapeChar(c)| > 1
    ensures Unescape(EscapeChar(c) + rest) == Some((c, |EscapeChar(c)|))
  {
    var e := EscapeChar(c);
    var s := e + rest;
    assert s[..|e|] == e;
    if c == '"' || c == '\\' {
    } else if EscapeLetter(c).Some? {
      LetterRoundTrip(c);
    } else {
      assert c < 32 as char || c == 127 as char;
      assert LetterChar('x') == None;
      HexRoundTrip(c);
    }
  }

  /** One escaped character reads back as that character. */
  lemma EscapeCharRead(c: char, rest: string)
    ensures ReadQuoted(EscapeChar(c) + rest) ==
            match ReadQuoted(rest)
            case None => None
            case Some(tr) => Some(([c] + tr.0, tr.1))
  {
    var e := EscapeChar(c);
    var s := e + rest;
    if |e| == 1 {
      assert s[0] == c && s[1..] == rest;
      assert c != '"' && c != '\\';
    } else {
      UnescapeEscape(c, rest);
      assert s[|e|..] == rest;
    }
  }

  /** Round trip: the quoted form of `t` reads back as `t`, whatever
      follows the closing quote. */
  lemma {:induction false} ReadQuotedEscape(t: string, rest: string)
    ensures ReadQuoted(Escape(t) + "\"" + rest) == Some((t, rest))
    decreases |t|
  {
    if t == [] {
      assert Escape(t) + "\"" + rest == "\"" + rest;
      assert ("\"" + rest)[1..] == rest;
    } else {
      ReadQuotedEscape(t[1..], rest);
      assert Escape(t) + "\"" + rest == EscapeChar(t[0]) + (Escape(t[1..]) + "\"" + rest);
      EscapeCharRead(t[0], Escape(t[1..]) + "\"" + rest);
      assert [t[0]] + t[1..] == t;
    }
  }
}

=== FILE: filecache.dfy ===
/** The change-tracking file cache of `pkg/filecache`. The package-level
    variables become one `Cache` value that every operation takes and
    returns; the file system is handed in as a tree of `Node`s holding what
    `os.Stat`, `ioutil.ReadDir`, `ioutil.ReadFile` and
    `filepath.EvalSymlinks` would answer. */
module FileCache {
  import opened Wrappers
  import opened Strs

  /** A cached file. `mtime` is the modification time in nanoseconds since
      the Unix epoch; the content digest is a function of `data` and is not
      kept separately. */
  datatype File = File(data: seq<byte>, mtime: int, name: string, index: int)

  type byte = x: int | 0 <= x < 256

  /** `time.Time{}` (1 January of year 1), in nanoseconds since the epoch. */
  const ZeroTime: int := -62135596800 * 1_000_000_000

  /** The zero `File` that `updateFile` registers before reading. */
  const ZeroFile := File([], ZeroTime, "", 0)

  /** The package state. `digest` is the name-sorted file list the digest
      is computed over, `None` while `Digest` is nil. */
  datatype Cache = Cache(changed: map<string, int>, files: map<string, File>, index: int,
                         tracked: map<string, int>, digest: Option<seq<File>>,
                         pathMap: map<string, seq<File>>)

  /** Indexes never run ahead of the update counter. */
  predicate Valid(c: Cache) {
    && c.index >= 0
    && (forall p :: p in c.changed ==> c.changed[p] <= c.index)
    && (forall p :: p in c.files ==> 0 <= c.files[p].index <= c.index)
    && (forall p :: p in c.tracked ==> c.tracked[p] <= c.index)
  }

  /** The cache at start-up. */
  const Initial := Cache(map[], map[], 0, map[], Some([]), map[])

  lemma InitialValid()
    ensures Valid(Initial)
  {
  }

  // ---------------------------------------------------------------------
  // Queries and tracking
  // ---------------------------------------------------------------------

  /** A path is stale against `index` when it is unknown or was changed by
      a later update. */
  predicate Stale(c: Cache, index: int, path: string) {
    path !in c.changed || c.changed[path] > index
  }

  /** `ChangedSince`: the scan stops at the first stale path. */
  function ChangedSince(c: Cache, index: int, paths: seq<string>): (r: bool)
    ensures r <==> exists i :: 0 <= i < |paths| && Stale(c, index, paths[i])
  {
    if paths == [] then false
    else if paths[0] !in c.changed then true
    else if c.changed[paths[0]] > index then true
    else
      var r := ChangedSince(c, index, paths[1..]);
      assert forall i :: 1 <= i < |paths| ==> paths[i] == paths[1..][i - 1];
      r
  }

  /** `Exists`. */
  predicate Exists(c: Cache, path: string) {
    path in c.files
  }

  /** The value `Changed[path]` reads as: 0 when absent. */
  function ChangedIndex(c: Cache, path: string): (i: int)
    ensures path in c.changed ==> i == c.changed[path]
    ensures path !in c.changed ==> i == 0
  {
    if path in c.changed then c.changed[path] else 0
  }

  /** `Track`: only the one tracked entry changes. */
  function Track(c: Cache, path: string): (r: Cache)
    ensures r.tracked.Keys == c.tracked.Keys + {path}
    ensures r.tracked[path] == ChangedIndex(c, path)
    ensures forall p :: p in c.tracked && p != path ==> r.tracked[p] == c.tracked[p]
    ensures r == c.(tracked := r.tracked)
  {
    c.(tracked := c.tracked[path := ChangedIndex(c, path)])
  }

  /** `Read`: tracks the path and returns its data. A missing file is fatal
      in the code; here it is `None`, with the path tracked all the same. */
  function Read(c: Cache, path: string): (r: (Option<seq<byte>>, Cache))
    ensures r.1 == Track(c, path)
    ensures r.0.Some? <==> Exists(c, path)
    ensures r.0.Some? ==> r.0.value == c.files[path].data
  {
    (if path in c.files then Some(c.files[path].data) else None, Track(c, path))
  }

  /** `ResetTracking`. */
  function ResetTracking(c: Cache): (r: Cache)
    ensures r.tracked == map[] && r == c.(tracked := map[])
  {
    c.(tracked := map[])
  }

  /** `TrackingData`: the largest tracked index (at least 0) and every
      tracked path, in whatever order the map yields them; tracking is then
      reset. */
  method TrackingData(c: Cache) returns (max: int, paths: seq<string>, r: Cache)
    ensures max >= 0
    ensures forall p :: p in c.tracked ==> c.tracked[p] <= max
    ensures max > 0 ==> exists p :: p in c.tracked && c.tracked[p] == max
    ensures forall p :: p in paths <==> p in c.tracked
    ensures |paths| == |c.tracked.Keys|
    ensures r == ResetTracking(c)
  {
    max := 0;
    paths := [];
    var rest := c.tracked.Keys;
    while rest != {}
      invariant rest <= c.tracked.Keys
      invariant forall p :: p in paths <==> p in c.tracked && p !in rest
      invariant |paths| + |rest| == |c.tracked.Keys|
      invariant max >= 0
      invariant forall p :: p in c.tracked && p !in rest ==> c.tracked[p] <= max
      invariant max > 0 ==> exists p :: p in c.tracked && c.tracked[p] == max
      decreases |rest|
    {
      var p :| p in rest;
      paths := paths + [p];
      if c.tracked[p] > max {
        max := c.tracked[p];
      }
      rest := rest - {p};
    }
    r := ResetTracking(c);
  }

  /** Tracking records what a build saw: while every tracked path still has
      the index it was tracked at, none of them counts as changed since the
      largest of those indexes. */
  lemma TrackedUpToDate(c: Cache, max: int, paths: seq<string>)
    requires forall i :: 0 <= i < |paths| ==> paths[i] in c.tracked && paths[i] in c.changed
    requires forall i :: 0 <= i < |paths| ==> c.changed[paths[i]] == c.tracked[paths[i]]
    requires forall p :: p in c.tracked ==> c.tracked[p] <= max
    ensures !ChangedSince(c, max, paths)
  {
  }

  /** A path tracked while unknown is always reported as changed. */
  lemma UnknownAlwaysChanged(c: Cache, index: int, paths: seq<string>, i: nat)
    requires i < |paths| && paths[i] !in c.changed
    ensures ChangedSince(c, index, paths)
  {
  }

  // ---------------------------------------------------------------------
  // FileList ordering
  // ---------------------------------------------------------------------

  /** `FileList.Less` as a weak order: `a` may come before `b`. */
  predicate NameLe(a: File, b: File) {
    !Less(b.name, a.name)
  }

  predicate SortedByName(s: seq<File>) {
    forall i, j :: 0 <= i < j < |s| ==> NameLe(s[i], s[j])
  }

  lemma NameLeTrans(a: File, b: File, c: File)
    requires NameLe(a, b) && NameLe(b, c)
    ensures NameLe(a, c)
  {
    LessTotal(a.name, b.name);
    if Less(c.name, a.name) {
      if Less(a.name, b.name) {
        LessTransitive(c.name, a.name, b.name);
      }
    }
  }

  lemma NameLeTotal(a: File, b: File)
    ensures NameLe(a, b) || NameLe(b, a)
  {
    LessTotal(a.name, b.name);
    if Less(a.name, b.name) && Less(b.name, a.name) {
      LessTransitive(a.name, b.name, a.name);
      LessIrreflexive(a.name);
    }
  }

  function Insert(f: File, s: seq<File>): (r: seq<File>)
    requires SortedByName(s)
    ensures SortedByName(r)
    ensures multiset(r) == multiset(s) + multiset{f}
    decreases |s|
  {
    if s == [] then [f]
    else if NameLe(f, s[0]) then
      InsertFront(f, s);
      [f] + s
    else
      NameLeTotal(f, s[0]);
      var t := Insert(f, s[1..]);
      InsertBehind(s[0], s[1..], f, t);
      assert s == [s[0]] + s[1..];
      [s[0]] + t
  }

  lemma InsertFront(f: File, s: seq<File>)
    requires SortedByName(s) && s != [] && NameLe(f, s[0])
    ensures SortedByName([f] + s)
  {
    var r := [f] + s;
    forall i, j | 0 <= i < j < |r| ensures NameLe(r[i], r[j]) {
      if i == 0 {
        if j > 1 {
          NameLeTrans(f, s[0], s[j - 1]);
        }
      } else {
        assert r[i] == s[i - 1] && r[j] == s[j - 1];
      }
    }
  }

  lemma InsertBehind(h: File, s: seq<File>, f: File, t: seq<File>)
    requires SortedByName([h] + s) && SortedByName(t) && NameLe(h, f)
    requires multiset(t) == multiset(s) + multiset{f}
    ensures SortedByName([h] + t)
  {
    var r := [h] + t;
    var hs := [h] + s;
    forall i, j | 0 <= i < j < |r| ensures NameLe(r[i], r[j]) {
      if i == 0 {
        assert r[0] == h && r[j] == t[j - 1];
        assert t[j - 1] in multiset(t);
        if t[j - 1] != f {
          assert t[j - 1] in multiset(s);
          var k :| 0 <= k < |s| && s[k] == t[j - 1];
          assert hs[0] == h && hs[k + 1] == s[k];
          assert NameLe(hs[0], hs[k + 1]);
        }
      } else {
        assert r[i] == t[i - 1] && r[j] == t[j - 1];
      }
    }
  }

  /** `sort.Sort` on a `FileList`: the same entries ordered by `Name`.
      Entries with equal names (the same path reached twice) are the same
      file, so their relative order does not matter. */
  function SortByName(l: seq<File>): (r: seq<File>)
    ensures SortedByName(r)
    ensures multiset(r) == multiset(l)
  {
    if l == [] then []
    else
      var r := Insert(l[0], SortByName(l[1..]));
      assert l == [l[0]] + l[1..];
      r
  }

  // ---------------------------------------------------------------------
  // Update
  // ---------------------------------------------------------------------

  /** What the file system shows at a path: a directory with its listing, a
      directory whose listing could not be read, a regular file with its modification time, its
      contents (or the read error) and where its symlinks resolve (or that
      error), or a `Stat` that failed. Children carry their joined path. */
  datatype Node =
    | Dir(path: string, entries: seq<Node>)
    | Unlistable(path: string, err: string)
    | Regular(path: string, mtime: int, contents: Result<seq<byte>, string>, resolved: Result<string, string>)
    | Broken(path: string, err: string)

  /** What one scan step reports: whether anything changed, the files it
      visited, the cache after it, and the error that stopped it. */
  datatype Scan = Scan(changed: bool, files: seq<File>, cache: Cache, err: Option<string>)

  /** The cache moves forward during a scan: the counter and the tracking
      and digest fields stay, entries are only added, and every entry
      written carries the current index (a file that could not be read yet
      is the zero file). */
  predicate ScanStep(c: Cache, d: Cache) {
    && d.index == c.index && d.tracked == c.tracked && d.digest == c.digest
    && c.changed.Keys <= d.changed.Keys
    && (forall p :: p in d.changed ==> d.changed[p] == c.index || (p in c.changed && d.changed[p] == c.changed[p]))
    && c.files.Keys <= d.files.Keys
    && (forall p :: p in d.files ==>
          d.files[p].index == c.index || (p in c.files && d.files[p] == c.files[p]) || (p !in c.files && d.files[p] == ZeroFile))
  }

  /** Files that were not cached before a successful step carry the
      current index. */
  predicate Fresh(c: Cache, d: Cache) {
    forall p :: p in d.files && p !in c.files ==> d.files[p].index == c.index
  }

  /** Some entry of `Changed` holds the index `idx`. */
  predicate Marked(c: Cache, idx: int) {
    exists p :: p in c.changed && c.changed[p] == idx
  }

  /** Every entry the scan from `c` left carrying `c`'s index is either
      among the visited files `vs` or was already cached as it is. */
  predicate Recorded(c: Cache, d: Cache, vs: seq<File>) {
    forall p :: p in d.files && d.files[p].index == c.index ==>
      d.files[p] in vs || (p in c.files && d.files[p] == c.files[p])
  }

  /** `r` is `vs` followed by files that all carry index `idx`. */
  predicate Stamped(vs: seq<File>, r: seq<File>, idx: int) {
    |vs| <= |r| && r[..|vs|] == vs && forall i :: |vs| <= i < |r| ==> r[i].index == idx
  }

  /** Recording composes over two scan steps at the same index, when the
      second step's visited files include the first's. */
  lemma RecordedTrans(a: Cache, b: Cache, c: Cache, vs: seq<File>, ws: seq<File>)
    requires b.index == a.index && Recorded(a, b, vs) && Recorded(b, c, ws)
    requires forall f :: f in vs ==> f in ws
    ensures Recorded(a, c, ws)
  {
  }

  /** Stamping composes: `vs`, then a step's files, then a later step's. */
  lemma StampedTrans(vs: seq<File>, fs: seq<File>, r: seq<File>, idx: int)
    requires forall f :: f in fs ==> f.index == idx
    requires Stamped(vs + fs, r, idx)
    ensures Stamped(vs, r, idx) && forall f :: f in vs + fs ==> f in r
  {
    assert r[..|vs|] == (vs + fs)[..|vs|] == vs;
    forall i | |vs| <= i < |r| ensures r[i].index == idx {
      if i < |vs + fs| {
        assert r[i] == (vs + fs)[i] == fs[i - |vs|];
      }
    }
    forall f | f in vs + fs ensures f in r {
      var i :| 0 <= i < |vs + fs| && (vs + fs)[i] == f;
      assert r[..|vs + fs|][i] == f;
    }
  }

  lemma ScanStepTrans(a: Cache, b: Cache, c: Cache)
    requires ScanStep(a, b) && ScanStep(b, c)
    ensures ScanStep(a, c)
    ensures Fresh(a, b) && Fresh(b, c) ==> Fresh(a, c)
    ensures Marked(b, a.index) ==> Marked(c, a.index)
  {
    if Marked(b, a.index) {
      var p :| p in b.changed && b.changed[p] == a.index;
      assert c.changed[p] == a.index;
    }
  }

  /** The paths of every directory in a tree. */
  function DirPaths(n: Node): set<string> {
    match n
    case Dir(path, entries) => {path} + DirPathsOf(entries)
    case _ => {}
  }

  function DirPathsOf(ns: seq<Node>): set<string> {
    if ns == [] then {} else DirPaths(ns[0]) + DirPathsOf(ns[1..])
  }

  /** Marking a path changed is a scan step. */
  lemma MarkStep(c: Cache, p: string)
    ensures var d := c.(changed := c.changed[p := c.index]);
            ScanStep(c, d) && Fresh(c, d) && Marked(d, c.index)
  {
    var d := c.(changed := c.changed[p := c.index]);
    assert d.changed[p] == c.index;
  }

  /** Storing an entry with the current index is a scan step. */
  lemma StoreStep(c: Cache, p: string, f: File)
    requires f.index == c.index
    ensures ScanStep(c, c.(files := c.files[p := f]))
    ensures Fresh(c, c.(files := c.files[p := f]))
  {
  }

  /** The zero entry `updateFile` registers for a path it has not seen. */
  function Register(c: Cache, p: string): (r: Cache)
    ensures r.changed == c.changed && r.index == c.index && p in r.files
  {
    if p in c.files then c else c.(files := c.files[p := ZeroFile])
  }

  /** Storing the visited file `f` at `path`, over a cache that elsewhere
      agrees with `c`, leaves every current entry recorded. */
  lemma StoreRecorded(c: Cache, d: Cache, path: string, f: File)
    requires forall q :: q in d.files && q != path ==> q in c.files && d.files[q] == c.files[q]
    ensures Recorded(c, d.(files := d.files[path := f]), [f])
  {
  }

  /** Registering is a scan step. */
  lemma RegisterStep(c: Cache, p: string)
    ensures ScanStep(c, Register(c, p))
  {
  }

  /** `updateFile`. An unchanged modification time only refreshes the
      entry's index. Otherwise the path is marked changed (after a zero
      entry is registered if it is new), the contents are read, the entry
      is filled in, and the resolved path must lie inside `scope`. */
  function UpdateFile(c: Cache, path: string, mtime: int, contents: Result<seq<byte>, string>,
                      resolved: Result<string, string>, scope: string): (r: Scan)
    ensures ScanStep(c, r.cache) && r.cache.pathMap == c.pathMap
    ensures r.err.None? ==> Fresh(c, r.cache) && path in r.cache.files && r.cache.files[path].index == c.index
    ensures r.changed ==> Marked(r.cache, c.index)
    ensures path in c.files && c.files[path].mtime == mtime ==>
              !r.changed && r.err.None? && r.cache == c.(files := c.files[path := c.files[path].(index := c.index)])
    ensures !(path in c.files && c.files[path].mtime == mtime) ==>
              r.changed && path in r.cache.changed && r.cache.changed[path] == c.index
    ensures !(path in c.files && c.files[path].mtime == mtime) && contents.Ok? ==>
              path in r.cache.files && r.cache.files[path] == File(contents.value, mtime, path, c.index)
    ensures r.err.None? ==> r.files == [r.cache.files[path]] && Recorded(c, r.cache, r.files)
  {
    if path in c.files && c.files[path].mtime == mtime then
      var f := c.files[path].(index := c.index);
      StoreStep(c, path, f);
      StoreRecorded(c, c, path, f);
      Scan(false, [f], c.(files := c.files[path := f]), None)
    else
      var c0 := c.(changed := c.changed[path := c.index]);
      MarkStep(c, path);
      var c1 := Register(c0, path);
      RegisterStep(c0, path);
      ScanStepTrans(c, c0, c1);
      assert c1.changed[path] == c.index;
      if contents.Err? then Scan(true, [], c1, Some(contents.error))
      else
        var f := File(contents.value, mtime, path, c.index);
        var c2 := c1.(files := c1.files[path := f]);
        StoreStep(c1, path, f);
        StoreRecorded(c, c1, path, f);
        ScanStepTrans(c, c1, c2);
        assert c2.changed[path] == c.index;
        assert Fresh(c, c2);
        if resolved.Err? then Scan(true, [], c2, Some(resolved.error))
        else if !HasPrefix(resolved.value, scope) then Scan(true, [], c2, Some(OutsideScope(path, scope, resolved.value)))
        else Scan(true, [f], c2, None)
  }

  /** Once a file has been read, scanning it again with the same
      modification time finds it unchanged: the entry records the time. */
  lemma UpdateFileAgain(c: Cache, path: string, mtime: int, contents: Result<seq<byte>, string>,
                        resolved: Result<string, string>, scope: string,
                        later: Result<seq<byte>, string>, resolvedLater: Result<string, string>)
    requires UpdateFile(c, path, mtime, contents, resolved, scope).err.None?
    ensures var d := UpdateFile(c, path, mtime, contents, resolved, scope).cache;
            var again := UpdateFile(d, path, mtime, later, resolvedLater, scope);
            !again.changed && again.err.None? && again.files == [d.files[path].(index := d.index)]
  {
  }

  /** The error text for a file whose symlinks leave the scope. */
  function OutsideScope(path: string, scope: string, target: string): string {
    "elko: path " + path + " is symlinked to outside the ELKO_SYMLINK_SCOPE (" + scope + "): " + target
  }

  /** One node met in a scan: a file goes to `UpdateFile`, a directory to
      `UpdateDir`, and a failed `Stat` stops the scan. */
  function UpdateNode(c: Cache, n: Node, scope: string): (r: Scan)
    ensures ScanStep(c, r.cache)
    ensures r.err.None? ==> Fresh(c, r.cache)
    ensures r.err.None? && !r.changed ==> r.cache.changed == c.changed && r.cache.files.Keys == c.files.Keys
    ensures r.changed ==> Marked(r.cache, c.index)
    ensures r.cache.pathMap.Keys <= c.pathMap.Keys + DirPaths(n)
    ensures r.err.None? ==> Recorded(c, r.cache, r.files) && Stamped([], r.files, c.index)
    decreases n, 1
  {
    match n
    case Broken(_, err) => Scan(false, [], c, Some(err))
    case Regular(path, mtime, contents, resolved) => UpdateFile(c, path, mtime, contents, resolved, scope)
    case Unlistable(_, err) => Scan(false, [], c, Some(err))
    case Dir(path, entries) => UpdateDir(c, path, entries, false, [], scope)
  }

  /** `updateDir`'s loop over a listing. The directory is marked changed at
      the first child that changed, and the visited files are recorded under
      its path in `PathMap` once the listing is done. */
  function UpdateDir(c: Cache, dir: string, entries: seq<Node>, changedSoFar: bool,
                     visited: seq<File>, scope: string): (r: Scan)
    requires changedSoFar ==> Marked(c, c.index)
    ensures ScanStep(c, r.cache)
    ensures r.err.None? ==> Fresh(c, r.cache)
    ensures r.err.None? && !r.changed ==> r.cache.changed == c.changed && r.cache.files.Keys == c.files.Keys
    ensures r.changed ==> Marked(r.cache, c.index)
    ensures changedSoFar ==> r.changed
    ensures r.cache.pathMap.Keys <= c.pathMap.Keys + {dir} + DirPathsOf(entries)
    ensures r.err.None? ==> Recorded(c, r.cache, r.files) && Stamped(visited, r.files, c.index)
    decreases entries, 0
  {
    if entries == [] then Scan(changedSoFar, visited, c.(pathMap := c.pathMap[dir := visited]), None)
    else
      var s := UpdateNode(c, entries[0], scope);
      if s.err.Some? then Scan(changedSoFar, [], s.cache, s.err)
      else
        var c2 := if s.changed && !changedSoFar then s.cache.(changed := s.cache.changed[dir := c.index]) else s.cache;
        assert ScanStep(s.cache, c2);
        ScanStepTrans(c, s.cache, c2);
        assert Marked(c, c.index) ==> Marked(s.cache, c.index);
        var r := UpdateDir(c2, dir, entries[1..], changedSoFar || s.changed, visited + s.files, scope);
        ScanStepTrans(c, c2, r.cache);
        assert r.cache.pathMap.Keys <= c.pathMap.Keys + {dir} + DirPathsOf(entries);
        ComposeStep(c, c2, s.files, visited, r.cache, r.files, r.err.None?);
        r
  }

  /** `Update`'s loop over its arguments: each changed path is marked with
      the new index. */
  function UpdateRoots(c: Cache, roots: seq<Node>, changedSoFar: bool, visited: seq<File>,
                       scope: string): (r: Scan)
    requires changedSoFar ==> Marked(c, c.index)
    ensures ScanStep(c, r.cache)
    ensures r.err.None? ==> Fresh(c, r.cache)
    ensures r.err.None? && !r.changed ==> r.cache.changed == c.changed && r.cache.files.Keys == c.files.Keys
    ensures r.changed ==> Marked(r.cache, c.index)
    ensures changedSoFar ==> r.changed
    ensures r.cache.pathMap.Keys <= c.pathMap.Keys + DirPathsOf(roots)
    ensures r.err.None? ==> Recorded(c, r.cache, r.files) && Stamped(visited, r.files, c.index)
    decreases |roots|
  {
    if roots == [] then Scan(changedSoFar, visited, c, None)
    else
      var s := UpdateNode(c, roots[0], scope);
      if s.err.Some? then Scan(changedSoFar, [], s.cache, s.err)
      else
        var c2 := if s.changed then s.cache.(changed := s.cache.changed[roots[0].path := c.index]) else s.cache;
        assert ScanStep(s.cache, c2);
        ScanStepTrans(c, s.cache, c2);
        assert Marked(c, c.index) ==> Marked(s.cache, c.index);
        var r := UpdateRoots(c2, roots[1..], changedSoFar || s.changed, visited + s.files, scope);
        ScanStepTrans(c, c2, r.cache);
        ComposeStep(c, c2, s.files, visited, r.cache, r.files, r.err.None?);
        assert DirPathsOf(roots) == DirPaths(roots[0]) + DirPathsOf(roots[1..]);
        r
  }

  /** One step of a scan loop followed by the rest of the loop records
      and stamps what the whole loop does. */
  lemma ComposeStep(c: Cache, c2: Cache, fs: seq<File>, visited: seq<File>, d: Cache, r: seq<File>, ok: bool)
    requires c2.index == c.index && Recorded(c, c2, fs) && Stamped([], fs, c.index)
    requires ok ==> Recorded(c2, d, r) && Stamped(visited + fs, r, c.index)
    ensures ok ==> Recorded(c, d, r) && Stamped(visited, r, c.index)
  {
    if ok {
      StampedOf(fs, c.index);
      StampedTrans(visited, fs, r, c.index);
      RecordedTrans(c, c2, d, fs, r);
    }
  }

  /** A stamped list read from its start: every file carries the index. */
  lemma StampedOf(fs: seq<File>, idx: int)
    requires Stamped([], fs, idx)
    ensures forall f :: f in fs ==> f.index == idx
  {
    forall f | f in fs ensures f.index == idx {
      var i :| 0 <= i < |fs| && fs[i] == f;
    }
  }

  /** Files left behind by this update: cached, but not seen in it. */
  predicate Pruned(c: Cache, p: string) {
    p in c.files && c.files[p].index != c.index
  }

  /** The pruning loop: stale files leave both `Files` and `Changed`. */
  function Prune(c: Cache): (r: Cache)
    ensures r.files.Keys == set p | p in c.files && !Pruned(c, p)
    ensures forall p :: p in r.files ==> r.files[p] == c.files[p] && r.files[p].index == c.index
    ensures r.changed.Keys == set p | p in c.changed && !Pruned(c, p)
    ensures forall p :: p in r.changed ==> r.changed[p] == c.changed[p]
    ensures r == c.(files := r.files, changed := r.changed)
  {
    c.(files := map p | p in c.files && !Pruned(c, p) :: c.files[p],
       changed := map p | p in c.changed && !Pruned(c, p) :: c.changed[p])
  }

  /** After pruning, a path exists iff it was cached and the scan refreshed
      its entry. */
  lemma ExistsAfterPrune(c: Cache, p: string)
    ensures Exists(Prune(c), p) <==> Exists(c, p) && c.files[p].index == c.index
  {
  }

  datatype Outcome = Updated | NothingChanged | Failed(msg: string)

  datatype Update = Update(cache: Cache, outcome: Outcome)

  const NothingChangedText := "filecache: no files changed"

  /** `Update`: a new index, `Digest` and `PathMap` cleared, the arguments
      scanned, stale entries pruned, and the digest list rebuilt in name
      order. The result says whether anything changed. */
  function UpdatePaths(c: Cache, roots: seq<Node>, scope: string): (r: Update)
    requires Valid(c)
    ensures r.cache.index == c.index + 1 && r.cache.tracked == c.tracked
    ensures Valid(r.cache)
    ensures r.cache.pathMap.Keys <= DirPathsOf(roots)
    ensures r.outcome.Failed? ==> r.cache.digest == None
    ensures !r.outcome.Failed? ==> r.cache.digest.Some? && SortedByName(r.cache.digest.value)
    ensures !r.outcome.Failed? ==> forall p :: p in r.cache.files ==> r.cache.files[p].index == r.cache.index
    ensures !r.outcome.Failed? ==> forall p :: p in r.cache.files ==> r.cache.files[p] in r.cache.digest.value
    ensures !r.outcome.Failed? ==> forall f :: f in r.cache.digest.value ==> f.index == r.cache.index
    ensures !r.outcome.Failed? ==>
              (r.outcome == NothingChanged <==> r.cache.changed == c.changed && r.cache.files.Keys == c.files.Keys)
  {
    var c1 := c.(digest := None, pathMap := map[], index := c.index + 1);
    var s := UpdateRoots(c1, roots, false, [], scope);
    if s.err.Some? then Update(s.cache, Failed(s.err.value))
    else
      var p := Prune(s.cache);
      var stale := exists q :: q in s.cache.files && Pruned(s.cache, q);
      var d := p.(digest := Some(SortByName(s.files)));
      UpdateOutcome(c, c1, s, p, stale);
      ValidDigest(p, d);
      DigestLists(c1, s, p);
      Update(d, if !s.changed && !stale then NothingChanged else Updated)
  }

  /** The sorted digest list holds exactly the scan's visited files, all
      stamped with the new index, and so every file that survives pruning. */
  lemma DigestLists(c1: Cache, s: Scan, p: Cache)
    requires forall q :: q in c1.files ==> c1.files[q].index < c1.index
    requires s.err.None? && Recorded(c1, s.cache, s.files) && Stamped([], s.files, c1.index)
    requires s.cache.index == c1.index && p == Prune(s.cache)
    ensures forall q :: q in p.files ==> p.files[q] in SortByName(s.files)
    ensures forall f :: f in SortByName(s.files) ==> f.index == c1.index
  {
    StampedOf(s.files, c1.index);
    var l := SortByName(s.files);
    forall q | q in p.files ensures p.files[q] in l {
      assert p.files[q] in s.files;
      assert p.files[q] in multiset(s.files);
    }
    forall f | f in l ensures f.index == c1.index {
      assert f in multiset(l);
    }
  }

  lemma ValidDigest(p: Cache, d: Cache)
    requires Valid(p) && d == p.(digest := d.digest)
    ensures Valid(d)
  {
  }

  /** The reasoning behind `UpdatePaths`' result: nothing scanned changed and
      nothing was pruned exactly when `Changed` and the set of cached files
      are as they were. */
  lemma UpdateOutcome(c: Cache, c1: Cache, s: Scan, p: Cache, stale: bool)
    requires Valid(c)
    requires c1 == c.(digest := None, pathMap := map[], index := c.index + 1)
    requires s.err.None? && ScanStep(c1, s.cache) && Fresh(c1, s.cache)
    requires !s.changed ==> s.cache.changed == c1.changed && s.cache.files.Keys == c1.files.Keys
    requires s.changed ==> Marked(s.cache, c1.index)
    requires p == Prune(s.cache)
    requires stale == exists q :: q in s.cache.files && Pruned(s.cache, q)
    ensures Valid(p)
    ensures !s.changed && !stale <==> p.changed == c.changed && p.files.Keys == c.files.Keys
  {
    if stale {
      var q :| q in s.cache.files && Pruned(s.cache, q);
      assert q in c.files && q !in p.files;
    } else if s.changed {
      var q :| q in s.cache.changed && s.cache.changed[q] == c1.index;
      assert !Pruned(s.cache, q);
      assert q in p.changed && p.changed[q] == c.index + 1;
      assert q !in c.changed || c.changed[q] != p.changed[q];
    } else {
      assert p.files.Keys == s.cache.files.Keys;
      assert p.changed == s.cache.changed;
    }
  }
}

=== FILE: kvstore.dfy ===
/** The Consul key-value store as the lease protocol sees it: keys mapped to
    an item carrying its value and modify index, plus the store-wide raft
    index that every write advances. Only the semantics the lease code
    relies on are modelled: linearizable reads, the `?cas=` conditional
    write, delete, and the blocking read (which returns the current item). */
module KvStore {
  import opened Wrappers
  import opened Bytes

  datatype Item = Item(value: seq<byte>, modifyIndex: nat)

  datatype Store = Store(items: map<string, Item>, index: nat)

  /** Every stored item was written at some index in 1..index. */
  predicate Valid(s: Store) {
    forall k :: k in s.items ==> 0 < s.items[k].modifyIndex <= s.index
  }

  /** A write or delete issued by any process. */
  datatype Op =
    | Cas(key: string, value: seq<byte>, expected: nat)
    | Put(key: string, value: seq<byte>)
    | Delete(key: string)

  function Lookup(s: Store, k: string): Option<Item> {
    if k in s.items then Some(s.items[k]) else None
  }

  /** Consul's check-and-set rule: index 0 means "only if absent", any other
      index means "only if the key is present with exactly that modify
      index". */
  predicate CasAccepts(s: Store, k: string, expected: nat) {
    || (expected == 0 && k !in s.items)
    || (k in s.items && s.items[k].modifyIndex == expected)
  }

  /** Whether applying `op` to `s` succeeds: only a conditional write can be
      refused. */
  predicate Succeeds(s: Store, op: Op) {
    op.Cas? ==> CasAccepts(s, op.key, op.expected)
  }

  /** The store after `op`. A successful write stamps the item with the next
      raft index; a refused write changes nothing. */
  function Apply(s: Store, op: Op): (t: Store)
    ensures Valid(s) ==> Valid(t)
    ensures s.index <= t.index
    ensures forall k :: k != op.key ==> Lookup(t, k) == Lookup(s, k)
    ensures !Succeeds(s, op) <==> t == s
  {
    if !Succeeds(s, op) then s
    else match op
      case Cas(k, v, _) => Store(s.items[k := Item(v, s.index + 1)], s.index + 1)
      case Put(k, v) => Store(s.items[k := Item(v, s.index + 1)], s.index + 1)
      case Delete(k) => Store(s.items - {k}, s.index + 1)
  }

  function ApplyAll(s: Store, ops: seq<Op>): (t: Store)
    ensures Valid(s) ==> Valid(t)
    ensures s.index <= t.index
    decreases |ops|
  {
    if |ops| == 0 then s else ApplyAll(Apply(s, ops[0]), ops[1..])
  }

  /** Any item the store holds after a run of operations is either the very
      item it held before, or was written after the earlier state's index. */
  lemma {:induction false} ApplyAllStamps(s: Store, ops: seq<Op>, k: string)
    requires Valid(s)
    ensures var t := ApplyAll(s, ops);
            k in t.items ==> (k in s.items && t.items[k] == s.items[k]) || t.items[k].modifyIndex > s.index
    decreases |ops|
  {
    if |ops| > 0 {
      var s1 := Apply(s, ops[0]);
      ApplyAllStamps(s1, ops[1..], k);
    }
  }

  /** The property the whole lease protocol rests on: a conditional write
      that quotes the index of an earlier read succeeds exactly when the key
      still holds the very item that read returned, however many writes
      (to this or other keys) happened in between. */
  lemma CasDetectsInterference(s: Store, ops: seq<Op>, k: string)
    requires Valid(s) && k in s.items
    ensures var t := ApplyAll(s, ops);
            CasAccepts(t, k, s.items[k].modifyIndex) <==> Lookup(t, k) == Lookup(s, k)
  {
    ApplyAllStamps(s, ops, k);
  }

  /** Create-only writes: of two index-0 writes to one key with no delete of
      that key in between, at most one succeeds. */
  lemma {:induction false} CreateOnlyOnce(s: Store, ops: seq<Op>, k: string, v: seq<byte>, w: seq<byte>)
    requires Valid(s) && Succeeds(s, Cas(k, v, 0))
    requires forall i :: 0 <= i < |ops| ==> ops[i] != Delete(k)
    ensures !Succeeds(ApplyAll(Apply(s, Cas(k, v, 0)), ops), Cas(k, w, 0))
  {
    var s1 := Apply(s, Cas(k, v, 0));
    assert s1.items == s.items[k := Item(v, s.index + 1)];
    StaysPresent(s1, ops, k);
  }

  /** Without a delete of `k`, a present key stays present. */
  lemma {:induction false} StaysPresent(s: Store, ops: seq<Op>, k: string)
    requires k in s.items
    requires forall i :: 0 <= i < |ops| ==> ops[i] != Delete(k)
    ensures k in ApplyAll(s, ops).items
    decreases |ops|
  {
    if |ops| > 0 {
      var s1 := Apply(s, ops[0]);
      assert Lookup(s1, k).Some?;
      StaysPresent(s1, ops[1..], k);
    }
  }
}

=== FILE: lease.dfy ===
/** The lease coordination protocol of `pkg/lease`: a lease is one key under
    `lease/` whose single status byte is `A` (active), `C` (contested) or `I`
    (invalidated); an absent key means nobody holds it. All safety comes from
    the store's conditional writes. Each operation runs against a `World`
    (store, local clock, environment turns) and returns the log of calls it
    made; its contract is stated over that log. */
module Lease {
  import opened Wrappers
  import opened Bytes
  import opened Strs
  import opened KvStore
  import opened StoreCalls

  const Active: byte := 65     // 'A'
  const Contested: byte := 67  // 'C'
  const Revoked: byte := 73    // 'I'

  /** `Maintain` gives up on the sixth consecutive store error. */
  const MaxAttempts: nat := 6

  const KeyPrefix: string := "lease/"

  /** A lease handle: the store key, the renewal period in nanoseconds, and
      whether a cleanup callback is registered. */
  datatype Entry = Entry(key: string, period: nat, hasCleanup: bool)

  datatype LeaseError =
    | AlreadyExists(key: string)     // Acquire lost the create-only write
    | Invalidated(key: string)       // the lease is no longer ours
    | InvalidateFailed(key: string)  // Invalidate lost its conditional write
    | StoreError(msg: string)        // transport or HTTP failure of a store call
    | CallbackError(msg: string)     // the cleanup callback failed
    | EmptyValue(key: string)        // `Value[0]` on an empty value: a Go panic

  /** `New`: the handle for lease `name`. */
  function New(name: string, hasCleanup: bool, period: nat): (e: Entry)
    ensures HasPrefix(e.key, KeyPrefix) && TrimPrefix(e.key, KeyPrefix) == name
    ensures e.period == period && e.hasCleanup == hasCleanup
  {
    Entry(KeyPrefix + name, period, hasCleanup)
  }

  /** Different lease names never share a key. */
  lemma NewKeysDistinct(a: string, b: string, ca: bool, cb: bool, pa: nat, pb: nat)
    requires a != b
    ensures New(a, ca, pa).key != New(b, cb, pb).key
  {
    assert TrimPrefix(New(a, ca, pa).key, KeyPrefix) == a;
    assert TrimPrefix(New(b, cb, pb).key, KeyPrefix) == b;
  }

  /** The reply carried a value whose status byte is `b`. */
  predicate Shows(g: GetResp, b: byte) {
    g.Found? && |g.item.value| > 0 && g.item.value[0] == b
  }

  predicate IsCleanupStep(x: Effect) {
    x.Called? || x.Removed?
  }

  predicate NoCleanup(log: seq<Effect>) {
    forall i :: 0 <= i < |log| ==> !IsCleanupStep(log[i])
  }

  predicate NoWrite(log: seq<Effect>) {
    forall i :: 0 <= i < |log| ==> !log[i].Wrote?
  }

  /** Every step from position `k` on is a cleanup step, and there is one. */
  predicate CleanupFrom(log: seq<Effect>, k: nat) {
    k < |log| && forall i :: k <= i < |log| ==> IsCleanupStep(log[i])
  }

  function ToError(failure: Option<string>): Option<LeaseError> {
    match failure
    case None => None
    case Some(m) => Some(StoreError(m))
  }

  // ---------------------------------------------------------------- Acquire

  datatype Acquired = Acquired(expiry: int, err: Option<LeaseError>, log: seq<Effect>, world: World)

  /** `Acquire`: one create-only write of `A`; the expiry `now + period` is
      taken before the write and returned whatever the outcome. */
  function Acquire(e: Entry, w: World): (r: Acquired)
    ensures r.expiry == w.now + e.period
    ensures |r.log| == 1 && r.log[0].Wrote? && r.log[0].key == e.key && r.log[0].at == w.now
    ensures r.log[0].value == [Active] && r.log[0].expected == 0
    ensures r.err == None <==> r.log[0].result == CasDone(true)
    ensures r.err == Some(AlreadyExists(e.key)) <==> r.log[0].result == CasDone(false)
    ensures r.log[0].result.CasFailed? ==> r.err == Some(StoreError(r.log[0].result.msg))
    ensures KvStore.Valid(w.store) ==> KvStore.Valid(r.world.store)
  {
    var expiry := w.now + e.period;
    var c := CasCall(w, e.key, [Active], 0);
    match c.eff.result
    case CasFailed(m) => Acquired(expiry, Some(StoreError(m)), [c.eff], c.world)
    case CasDone(ok) =>
      if ok then Acquired(expiry, None, [c.eff], c.world)
      else Acquired(expiry, Some(AlreadyExists(e.key)), [c.eff], c.world)
  }

  /** A successful Acquire leaves the key holding `A`. */
  lemma AcquireLeavesActive(e: Entry, w: World)
    requires Acquire(e, w).err == None
    ensures Lookup(Acquire(e, w).world.store, e.key).Some?
    ensures Lookup(Acquire(e, w).world.store, e.key).value.value == [Active]
  {
    var (t, w1) := Begin(w);
    assert CasAccepts(w1.store, e.key, 0);
  }

  /** Mutual exclusion: after a successful Acquire, another Acquire of the
      same key cannot succeed unless someone deletes the key in between. */
  lemma AcquireExcludes(e1: Entry, e2: Entry, w: World)
    requires KvStore.Valid(w.store) && e1.key == e2.key
    requires Acquire(e1, w).err == None
    requires var env := Acquire(e1, w).world.env;
             |env| > 0 ==> forall i :: 0 <= i < |env[0].others| ==> env[0].others[i] != Delete(e1.key)
    ensures Acquire(e2, Acquire(e1, w).world).err != None
  {
    var w1 := Acquire(e1, w).world;
    AcquireLeavesActive(e1, w);
    var (t, w2) := Begin(w1);
    StaysPresent(w1.store, t.others, e1.key);
    assert e1.key in w2.store.items;
    assert !CasAccepts(w2.store, e2.key, 0);
  }

  // ---------------------------------------------------------------- Cleanup

  datatype Done = Done(err: Option<LeaseError>, log: seq<Effect>, world: World)

  /** `err` is what a cleanup starting at position `k` of `log` returns: the
      callback's failure when it failed, otherwise the delete's outcome. */
  predicate ReportsCleanup(log: seq<Effect>, k: nat, err: Option<LeaseError>) {
    && k < |log|
    && (log[k].Called? && log[k].failure.Some? ==> err == Some(CallbackError(log[k].failure.value)))
    && (log[|log| - 1].Removed? ==> err == ToError(log[|log| - 1].failure))
  }

  /** `Cleanup`: run the callback (when registered), then delete the key;
      a failing callback skips the delete. */
  function Cleanup(e: Entry, w: World): (r: Done)
    ensures w.now <= r.world.now
    ensures 1 <= |r.log| <= 2
    ensures forall i :: 0 <= i < |r.log| ==> IsCleanupStep(r.log[i]) && r.log[i].key == e.key && r.log[i].at >= w.now
    ensures r.log[0].Called? <==> e.hasCleanup
    ensures r.log[|r.log| - 1].Removed? <==> !(r.log[0].Called? && r.log[0].failure.Some?)
    ensures r.log[0].Called? && r.log[0].failure.Some? ==> r.err == Some(CallbackError(r.log[0].failure.value))
    ensures r.log[|r.log| - 1].Removed? ==> r.err == ToError(r.log[|r.log| - 1].failure)
    ensures KvStore.Valid(w.store) ==> KvStore.Valid(r.world.store)
  {
    if e.hasCleanup then
      var c := Callback(w, e.key);
      if c.eff.failure.Some? then Done(Some(CallbackError(c.eff.failure.value)), [c.eff], c.world)
      else
        var d := DeleteCall(c.world, e.key);
        Done(ToError(d.eff.failure), [c.eff, d.eff], d.world)
    else
      var d := DeleteCall(w, e.key);
      Done(ToError(d.eff.failure), [d.eff], d.world)
  }

  // ------------------------------------------------------------- Invalidate

  /** `x` records that the key held, or was just given, status `I`. */
  predicate MarksRevoked(x: Effect) {
    || (x.Read? && Shows(x.got, Revoked))
    || (x.Wrote? && x.value == [Revoked] && x.result == CasDone(true))
  }

  /** The safety margin: every cleanup step comes at least one full period
      after a recorded observation or write of `I`. */
  predicate CleanupAfterMargin(log: seq<Effect>, period: nat) {
    forall i :: 0 <= i < |log| && IsCleanupStep(log[i]) ==>
      exists j :: 0 <= j < i && MarksRevoked(log[j]) && log[j].at + period <= log[i].at
  }

  /** Sleep one full period, then clean up. */
  function SleepThenCleanup(e: Entry, w: World): (r: Done)
    ensures w.now <= r.world.now
    ensures |r.log| >= 2 && r.log[0] == Slept(w.now, e.period) && CleanupFrom(r.log, 1)
    ensures forall i :: 1 <= i < |r.log| ==> w.now + e.period <= r.log[i].at
    ensures ReportsCleanup(r.log, 1, r.err)
    ensures KvStore.Valid(w.store) ==> KvStore.Valid(r.world.store)
  {
    var s := Sleep(w, e.period);
    var d := Cleanup(e, s.world);
    Done(d.err, [s.eff] + d.log, d.world)
  }

  /** Prepending a step keeps the margin of the steps after it. */
  lemma {:induction false} MarginCons(x: Effect, log: seq<Effect>, period: nat)
    requires CleanupAfterMargin(log, period) && !IsCleanupStep(x)
    ensures CleanupAfterMargin([x] + log, period)
  {
    var l := [x] + log;
    forall i | 0 <= i < |l| && IsCleanupStep(l[i])
      ensures exists j :: 0 <= j < i && MarksRevoked(l[j]) && l[j].at + period <= l[i].at
    {
      assert i >= 1 && l[i] == log[i - 1];
      var j :| 0 <= j < i - 1 && MarksRevoked(log[j]) && log[j].at + period <= log[i - 1].at;
      assert l[j + 1] == log[j];
    }
  }

  /** The conditional write of `I` at the observed index, and on success the
      sleep and cleanup. */
  function Revoke(e: Entry, seen: Item, w: World): (r: Done)
    ensures w.now <= r.world.now
    ensures |r.log| >= 1 && r.log[0].Wrote? && r.log[0].key == e.key && r.log[0].at == w.now
    ensures r.log[0].value == [Revoked] && r.log[0].expected == seen.modifyIndex
    ensures NoWrite(r.log[1..])
    ensures r.log[0].result.CasFailed? ==> r.err == Some(StoreError(r.log[0].result.msg)) && |r.log| == 1
    ensures r.log[0].result == CasDone(false) ==> r.err == Some(InvalidateFailed(e.key)) && |r.log| == 1
    ensures r.log[0].result == CasDone(true) ==>
              |r.log| >= 3 && r.log[1] == Slept(r.log[1].at, e.period) && CleanupFrom(r.log, 2)
              && ReportsCleanup(r.log, 2, r.err)
    ensures CleanupAfterMargin(r.log, e.period)
    ensures KvStore.Valid(w.store) ==> KvStore.Valid(r.world.store)
  {
    var c := CasCall(w, e.key, [Revoked], seen.modifyIndex);
    match c.eff.result
    case CasFailed(m) => Done(Some(StoreError(m)), [c.eff], c.world)
    case CasDone(ok) =>
      if !ok then Done(Some(InvalidateFailed(e.key)), [c.eff], c.world)
      else
        var d := SleepThenCleanup(e, c.world);
        var log := [c.eff] + d.log;
        assert log[1..] == d.log;
        assert MarksRevoked(log[0]);
        assert forall i :: 2 <= i < |log| ==> IsCleanupStep(log[i]) && log[0].at + e.period <= log[i].at;
        Done(d.err, log, d.world)
  }

  /** `Invalidate`: revoke the lease whatever its holder is doing. Reading
      `I` already means someone else revoked it: only the sleep and cleanup
      remain. */
  function Invalidate(e: Entry, w: World): (r: Done)
    ensures w.now <= r.world.now
    ensures |r.log| >= 1 && r.log[0].Read? && r.log[0].key == e.key && r.log[0].at == w.now
    ensures CleanupAfterMargin(r.log, e.period)
    ensures KvStore.Valid(w.store) ==> KvStore.Valid(r.world.store)
  {
    var g := Get(w, e.key);
    match g.eff.got
    case NotFound => Done(None, [g.eff], g.world)
    case GetFailed(m) => Done(Some(StoreError(m)), [g.eff], g.world)
    case Found(it) =>
      if |it.value| == 0 then Done(Some(EmptyValue(e.key)), [g.eff], g.world)
      else if it.value[0] == Revoked then
        var d := SleepThenCleanup(e, g.world);
        var log := [g.eff] + d.log;
        assert forall i :: 2 <= i < |log| ==> IsCleanupStep(log[i]) && log[0].at + e.period <= log[i].at;
        assert MarksRevoked(log[0]);
        Done(d.err, log, d.world)
      else
        var d := Revoke(e, it, g.world);
        MarginCons(g.eff, d.log, e.period);
        Done(d.err, [g.eff] + d.log, d.world)
  }

  /** What Invalidate does with each answer to its read, short of writing. */
  lemma InvalidateAfterRead(e: Entry, w: World)
    ensures var r := Invalidate(e, w);
      && (r.log[0].got == NotFound ==> r.err == None && |r.log| == 1)
      && (r.log[0].got.GetFailed? ==> r.err == Some(StoreError(r.log[0].got.msg)) && |r.log| == 1)
      && (r.log[0].got.Found? && |r.log[0].got.item.value| == 0 ==> r.err == Some(EmptyValue(e.key)) && |r.log| == 1)
      && (Shows(r.log[0].got, Revoked) ==>
            && |r.log| >= 3 && r.log[1] == Slept(r.log[1].at, e.period) && CleanupFrom(r.log, 2) && NoWrite(r.log)
            && ReportsCleanup(r.log, 2, r.err))
  {
    var g := Get(w, e.key);
    if Shows(g.eff.got, Revoked) {
      var d := SleepThenCleanup(e, g.world);
      assert Invalidate(e, w).log == [g.eff] + d.log;
    }
  }

  /** Invalidate writes at most once: `I`, conditional on the index it read,
      and only after reading a status other than `I`. */
  lemma InvalidateWrites(e: Entry, w: World)
    ensures var r := Invalidate(e, w);
      && (r.log[0].got.Found? && |r.log[0].got.item.value| > 0 && !Shows(r.log[0].got, Revoked) ==>
            && |r.log| >= 2 && r.log[1].Wrote? && r.log[1].key == e.key && r.log[1].value == [Revoked]
            && r.log[1].expected == r.log[0].got.item.modifyIndex && NoWrite(r.log[2..]))
      && (!(r.log[0].got.Found? && |r.log[0].got.item.value| > 0 && !Shows(r.log[0].got, Revoked)) ==> NoWrite(r.log))
  {
    var g := Get(w, e.key);
    if g.eff.got.Found? && |g.eff.got.item.value| > 0 && !Shows(g.eff.got, Revoked) {
      var d := Revoke(e, g.eff.got.item, g.world);
      var log := [g.eff] + d.log;
      assert Invalidate(e, w).log == log;
      assert log[2..] == d.log[1..];
    } else if Shows(g.eff.got, Revoked) {
      InvalidateAfterRead(e, w);
    }
  }

  /** How the conditional write's outcome decides the rest of Invalidate. */
  lemma InvalidateWriteOutcome(e: Entry, w: World)
    ensures var r := Invalidate(e, w);
      && (|r.log| >= 2 && r.log[1].Wrote? && r.log[1].result == CasDone(false) ==>
            r.err == Some(InvalidateFailed(e.key)) && |r.log| == 2)
      && (|r.log| >= 2 && r.log[1].Wrote? && r.log[1].result.CasFailed? ==>
            r.err == Some(StoreError(r.log[1].result.msg)) && |r.log| == 2)
      && (|r.log| >= 2 && r.log[1].Wrote? && r.log[1].result == CasDone(true) ==>
            && |r.log| >= 4 && r.log[2] == Slept(r.log[2].at, e.period) && CleanupFrom(r.log, 3)
            && ReportsCleanup(r.log, 3, r.err))
  {
    var g := Get(w, e.key);
    if g.eff.got.Found? && |g.eff.got.item.value| > 0 && !Shows(g.eff.got, Revoked) {
      var d := Revoke(e, g.eff.got.item, g.world);
      var log := [g.eff] + d.log;
      assert Invalidate(e, w).log == log;
    } else if Shows(g.eff.got, Revoked) {
      InvalidateAfterRead(e, w);
    }
  }

  // ---------------------------------------------------------------- Contest

  /** Contest's answer: whether the holder is still alive. */
  datatype Verdict = Verdict(held: bool, err: Option<LeaseError>, log: seq<Effect>, world: World)

  /** A read or wait that found the key absent. */
  predicate Absent(x: Effect) {
    (x.Read? || x.Waited?) && x.got == NotFound
  }

  /** A wait whose answer shows the holder did not reassert itself: the key
      now holds `I`, or its index has not moved. */
  predicate Abandoned(x: Effect) {
    && x.Waited? && x.got.Found? && |x.got.item.value| > 0
    && (x.got.item.value[0] == Revoked || x.got.item.modifyIndex == x.since)
  }

  /** An absent key always ends the call, with neither liveness nor error. */
  predicate AbsentEnds(log: seq<Effect>, held: bool, err: Option<LeaseError>) {
    forall i :: 0 <= i < |log| && Absent(log[i]) ==> i == |log| - 1 && !held && err == None
  }

  /** Every cleanup step follows a wait that showed the holder gone. */
  predicate CleanupJustified(log: seq<Effect>) {
    forall i :: 0 <= i < |log| && IsCleanupStep(log[i]) ==> exists j :: 0 <= j < i && Abandoned(log[j])
  }

  lemma {:induction false} JustifiedCons(x: Effect, log: seq<Effect>)
    requires CleanupJustified(log) && !IsCleanupStep(x)
    ensures CleanupJustified([x] + log)
  {
    var l := [x] + log;
    forall i | 0 <= i < |l| && IsCleanupStep(l[i])
      ensures exists j :: 0 <= j < i && Abandoned(l[j])
    {
      assert l[i] == log[i - 1];
      var j :| 0 <= j < i - 1 && Abandoned(log[j]);
      assert l[j + 1] == log[j];
    }
  }

  lemma {:induction false} AbsentEndsCons(x: Effect, log: seq<Effect>, held: bool, err: Option<LeaseError>)
    requires AbsentEnds(log, held, err) && !Absent(x) && |log| > 0
    ensures AbsentEnds([x] + log, held, err)
  {
    var l := [x] + log;
    forall i | 0 <= i < |l| && Absent(l[i])
      ensures i == |l| - 1 && !held && err == None
    {
      assert l[i] == log[i - 1];
    }
  }

  /** The wait for the holder to reassert itself, after the second read saw
      the non-`A` item `seen`. */
  function ContestAwait(e: Entry, seen: Item, w: World): (r: Verdict)
    requires |seen.value| > 0
    ensures w.now <= r.world.now
    ensures |r.log| >= 1 && r.log[0].Waited? && r.log[0].key == e.key
    ensures r.log[0].since == seen.modifyIndex && r.log[0].at == w.now
    ensures NoWrite(r.log)
    ensures r.log[0].got.GetFailed? ==> !r.held && r.err == Some(StoreError(r.log[0].got.msg)) && |r.log| == 1
    ensures r.log[0].got.Found? && |r.log[0].got.item.value| == 0 ==>
              !r.held && r.err == Some(EmptyValue(e.key)) && |r.log| == 1
    ensures Shows(r.log[0].got, Revoked) && seen.value[0] != Revoked ==>
              && !r.held && |r.log| >= 3 && r.log[1] == Slept(r.log[1].at, e.period) && CleanupFrom(r.log, 2)
              && ReportsCleanup(r.log, 2, r.err)
    ensures Shows(r.log[0].got, Revoked) && seen.value[0] == Revoked ==>
              !r.held && CleanupFrom(r.log, 1) && ReportsCleanup(r.log, 1, r.err)
    ensures Abandoned(r.log[0]) && !Shows(r.log[0].got, Revoked) ==>
              !r.held && CleanupFrom(r.log, 1) && ReportsCleanup(r.log, 1, r.err)
    ensures r.log[0].got.Found? && |r.log[0].got.item.value| > 0 && !Abandoned(r.log[0]) ==>
              r.held && r.err == None && |r.log| == 1
    ensures r.held ==> r.err == None && NoCleanup(r.log)
    ensures AbsentEnds(r.log, r.held, r.err) && CleanupJustified(r.log)
    ensures KvStore.Valid(w.store) ==> KvStore.Valid(r.world.store)
  {
    var j := Wait(w, e.key, seen.modifyIndex);
    match j.eff.got
    case NotFound => Verdict(false, None, [j.eff], j.world)
    case GetFailed(m) => Verdict(false, Some(StoreError(m)), [j.eff], j.world)
    case Found(it) =>
      if |it.value| == 0 then Verdict(false, Some(EmptyValue(e.key)), [j.eff], j.world)
      else if it.value[0] == Revoked then
        if seen.value[0] != Revoked then
          var d := SleepThenCleanup(e, j.world);
          assert Abandoned(j.eff);
          Verdict(false, d.err, [j.eff] + d.log, d.world)
        else
          var d := Cleanup(e, j.world);
          assert Abandoned(j.eff);
          Verdict(false, d.err, [j.eff] + d.log, d.world)
      else if seen.modifyIndex == it.modifyIndex then
        var d := Cleanup(e, j.world);
        assert Abandoned(j.eff);
        Verdict(false, d.err, [j.eff] + d.log, d.world)
      else Verdict(true, None, [j.eff], j.world)
  }

  /** Contest's second read: `A` means the holder is alive; otherwise wait
      on the index just read. */
  function ContestRecheck(e: Entry, w: World): (r: Verdict)
    ensures w.now <= r.world.now
    ensures |r.log| >= 1 && r.log[0].Read? && r.log[0].key == e.key && r.log[0].at == w.now
    ensures NoWrite(r.log)
    ensures r.log[0].got.GetFailed? ==> !r.held && r.err == Some(StoreError(r.log[0].got.msg)) && |r.log| == 1
    ensures r.log[0].got.Found? && |r.log[0].got.item.value| == 0 ==>
              !r.held && r.err == Some(EmptyValue(e.key)) && |r.log| == 1
    ensures Shows(r.log[0].got, Active) ==> r.held && r.err == None && |r.log| == 1
    ensures r.log[0].got.Found? && |r.log[0].got.item.value| > 0 && !Shows(r.log[0].got, Active) ==>
              |r.log| >= 2 && r.log[1].Waited? && r.log[1].since == r.log[0].got.item.modifyIndex
    ensures r.held ==> r.err == None && NoCleanup(r.log)
    ensures AbsentEnds(r.log, r.held, r.err) && CleanupJustified(r.log)
    ensures KvStore.Valid(w.store) ==> KvStore.Valid(r.world.store)
  {
    var g := Get(w, e.key);
    match g.eff.got
    case NotFound => Verdict(false, None, [g.eff], g.world)
    case GetFailed(m) => Verdict(false, Some(StoreError(m)), [g.eff], g.world)
    case Found(it) =>
      if |it.value| == 0 then Verdict(false, Some(EmptyValue(e.key)), [g.eff], g.world)
      else if it.value[0] == Active then Verdict(true, None, [g.eff], g.world)
      else
        var v := ContestAwait(e, it, g.world);
        JustifiedCons(g.eff, v.log);
        AbsentEndsCons(g.eff, v.log, v.held, v.err);
        Verdict(v.held, v.err, [g.eff] + v.log, v.world)
  }

  /** The challenge of an active holder: a conditional write of `C` at the
      index seen, then the second read unless the write failed in transit. */
  function Challenge(e: Entry, seen: Item, w: World): (r: Verdict)
    ensures w.now <= r.world.now
    ensures |r.log| >= 1 && r.log[0].Wrote? && r.log[0].key == e.key && r.log[0].at == w.now
    ensures r.log[0].value == [Contested] && r.log[0].expected == seen.modifyIndex
    ensures NoWrite(r.log[1..])
    ensures r.log[0].result.CasDone? ==> |r.log| >= 2 && r.log[1].Read?
    ensures r.log[0].result.CasFailed? ==>
              !r.held && r.err == Some(StoreError(r.log[0].result.msg)) && |r.log| == 1
    ensures r.held ==> r.err == None && NoCleanup(r.log)
    ensures AbsentEnds(r.log, r.held, r.err) && CleanupJustified(r.log)
    ensures KvStore.Valid(w.store) ==> KvStore.Valid(r.world.store)
  {
    var c := CasCall(w, e.key, [Contested], seen.modifyIndex);
    if c.eff.result.CasFailed? then Verdict(false, Some(StoreError(c.eff.result.msg)), [c.eff], c.world)
    else
      var v := ContestRecheck(e, c.world);
      JustifiedCons(c.eff, v.log);
      AbsentEndsCons(c.eff, v.log, v.held, v.err);
      assert ([c.eff] + v.log)[1..] == v.log;
      Verdict(v.held, v.err, [c.eff] + v.log, v.world)
  }

  /** In a log whose tail after position 1 never writes, every write is at
      position 1 at most. */
  lemma WriteFirst(log: seq<Effect>)
    requires |log| >= 2 && NoWrite(log[2..])
    ensures forall i :: 0 <= i < |log| && log[i].Wrote? ==> i <= 1
  {
    forall i | 2 <= i < |log|
      ensures !log[i].Wrote?
    {
      assert log[i] == log[2..][i - 2];
    }
  }

  /** `Contest`: find out whether the holder is alive. An `A` is first
      challenged with a conditional write of `C`, whose refusal is ignored
      but whose transport error is returned. */
  function Contest(e: Entry, w: World): (r: Verdict)
    ensures w.now <= r.world.now
    ensures |r.log| >= 1 && r.log[0].Read? && r.log[0].key == e.key && r.log[0].at == w.now
    ensures forall i :: 0 <= i < |r.log| && r.log[i].Wrote? ==>
              && i == 1 && Shows(r.log[0].got, Active) && r.log[i].key == e.key
              && r.log[i].value == [Contested] && r.log[i].expected == r.log[0].got.item.modifyIndex
    ensures Shows(r.log[0].got, Active) ==> |r.log| >= 2 && r.log[1].Wrote?
    ensures |r.log| >= 2 && r.log[1].Wrote? && r.log[1].result.CasDone? ==> |r.log| >= 3 && r.log[2].Read?
    ensures |r.log| >= 2 && r.log[1].Wrote? && r.log[1].result.CasFailed? ==>
              !r.held && r.err == Some(StoreError(r.log[1].result.msg)) && |r.log| == 2
    ensures r.held ==> r.err == None && NoCleanup(r.log)
    ensures AbsentEnds(r.log, r.held, r.err) && CleanupJustified(r.log)
    ensures KvStore.Valid(w.store) ==> KvStore.Valid(r.world.store)
  {
    var g := Get(w, e.key);
    match g.eff.got
    case NotFound => Verdict(false, None, [g.eff], g.world)
    case GetFailed(m) => Verdict(false, Some(StoreError(m)), [g.eff], g.world)
    case Found(it) =>
      if |it.value| == 0 then Verdict(false, Some(EmptyValue(e.key)), [g.eff], g.world)
      else if it.value[0] == Active then
        var v := Challenge(e, it, g.world);
        JustifiedCons(g.eff, v.log);
        AbsentEndsCons(g.eff, v.log, v.held, v.err);
        WriteFirst([g.eff] + v.log);
        Verdict(v.held, v.err, [g.eff] + v.log, v.world)
      else
        var v := ContestRecheck(e, g.world);
        JustifiedCons(g.eff, v.log);
        AbsentEndsCons(g.eff, v.log, v.held, v.err);
        Verdict(v.held, v.err, [g.eff] + v.log, v.world)
  }

  // --------------------------------------------------------------- Maintain

  /** The loop state of `Maintain`: the expiry in force and the number of
      consecutive store errors. */
  datatype MState = MState(expiry: int, attempts: nat)

  /** One iteration either continues with a new state or returns an error. */
  datatype Tick = Next(st: MState) | Stop(err: LeaseError)

  datatype Round = Round(tick: Tick, log: seq<Effect>, world: World)

  /** A store error: counted, and the sixth in a row is returned. It never
      extends the expiry. */
  function Failure(st: MState, msg: string): (r: Tick)
    ensures r.Stop? <==> st.attempts + 1 == MaxAttempts
    ensures r.Stop? ==> r.err == StoreError(msg)
    ensures r.Next? ==> r.st.expiry == st.expiry && r.st.attempts == st.attempts + 1
    ensures st.attempts < MaxAttempts && r.Next? ==> r.st.attempts < MaxAttempts
  {
    if st.attempts + 1 == MaxAttempts then Stop(StoreError(msg))
    else Next(MState(st.expiry, st.attempts + 1))
  }

  /** Reasserting the lease at local time `t`: the new expiry `t + period`
      with the error count reset. */
  function Extend(e: Entry, t: int): (r: (Tick, Effect))
    ensures r.0.Next? && r.0.st.attempts == 0 && r.0.st.expiry == t + e.period
    ensures r.1 == Extended(t, r.0.st.expiry)
  {
    (Next(MState(t + e.period, 0)), Extended(t, t + e.period))
  }

  /** Whether `x` is a call to the store made while holding the lease. */
  predicate StoreCall(x: Effect) {
    x.Read? || x.Wrote?
  }

  /** The rest of an iteration once the read has answered `got`. */
  function MaintainAfterRead(e: Entry, st: MState, got: GetResp, w: World): (r: Round)
    ensures w.now <= r.world.now
    ensures got == NotFound ==> r.tick == Stop(Invalidated(e.key)) && r.log == []
    ensures got.GetFailed? ==> r.tick == Failure(st, got.msg) && r.log == []
    ensures got.Found? && |got.item.value| == 0 ==> r.tick == Stop(EmptyValue(e.key)) && r.log == []
    ensures Shows(got, Revoked) ==> r.tick == Stop(Invalidated(e.key)) && r.log == []
    ensures Shows(got, Active) ==> r.log == [Extend(e, w.now).1] && r.tick == Extend(e, w.now).0
    ensures w.now > st.expiry && got.Found? && |got.item.value| > 0 && !Shows(got, Active) ==>
              r.tick == Stop(Invalidated(e.key)) && r.log == []
    ensures w.now <= st.expiry && got.Found? && |got.item.value| > 0 && !Shows(got, Active) && !Shows(got, Revoked) ==>
              && |r.log| >= 1 && r.log[0].Wrote? && r.log[0].at == w.now && r.log[0].key == e.key
              && r.log[0].value == [Active] && r.log[0].expected == got.item.modifyIndex
    ensures forall i :: 0 <= i < |r.log| && StoreCall(r.log[i]) ==>
              && i == 0 && r.log[i].Wrote? && r.log[i].at == w.now <= st.expiry
              && r.log[i].key == e.key && r.log[i].value == [Active]
              && got.Found? && r.log[i].expected == got.item.modifyIndex
              && |got.item.value| > 0 && got.item.value[0] != Active && got.item.value[0] != Revoked
    ensures |r.log| > 0 && r.log[0].Wrote? && r.log[0].result == CasDone(false) ==>
              r.tick == Stop(Invalidated(e.key)) && |r.log| == 1
    ensures |r.log| > 0 && r.log[0].Wrote? && r.log[0].result.CasFailed? ==>
              r.tick == Failure(st, r.log[0].result.msg) && |r.log| == 1
    ensures |r.log| > 0 && r.log[0].Wrote? && r.log[0].result == CasDone(true) ==>
              |r.log| == 2 && r.log[1] == Extend(e, r.log[1].at).1 && r.tick == Extend(e, r.log[1].at).0
    ensures forall i :: 0 <= i < |r.log| && r.log[i].Extended? ==>
              i == |r.log| - 1 && r.tick == Next(MState(r.log[i].until, 0))
    ensures r.tick.Next? && !(|r.log| > 0 && r.log[|r.log| - 1].Extended?) ==>
              r.tick.st == MState(st.expiry, st.attempts + 1)
    ensures KvStore.Valid(w.store) ==> KvStore.Valid(r.world.store)
  {
    match got
    case NotFound => Round(Stop(Invalidated(e.key)), [], w)
    case GetFailed(m) => Round(Failure(st, m), [], w)
    case Found(it) =>
      if |it.value| == 0 then Round(Stop(EmptyValue(e.key)), [], w)
      else if it.value[0] == Revoked then Round(Stop(Invalidated(e.key)), [], w)
      else if it.value[0] == Active then
        var x := Extend(e, w.now);
        Round(x.0, [x.1], w)
      else if w.now > st.expiry then Round(Stop(Invalidated(e.key)), [], w)
      else
        var c := CasCall(w, e.key, [Active], it.modifyIndex);
        match c.eff.result
        case CasFailed(m) => Round(Failure(st, m), [c.eff], c.world)
        case CasDone(ok) =>
          if ok then
            var x := Extend(e, c.world.now);
            Round(x.0, [c.eff, x.1], c.world)
          else Round(Stop(Invalidated(e.key)), [c.eff], c.world)
  }

  /** The expiry in force after `log`, starting from `expiry`: the most
      recent extension wins. */
  function DeadlineAfter(expiry: int, log: seq<Effect>): (r: int)
    ensures (forall i :: 0 <= i < |log| ==> !log[i].Extended?) ==> r == expiry
    ensures |log| > 0 && log[|log| - 1].Extended? ==> r == log[|log| - 1].until
    decreases |log|
  {
    if log == [] then expiry
    else DeadlineAfter(if log[0].Extended? then log[0].until else expiry, log[1..])
  }

  lemma {:induction false} DeadlineAppend(x: int, a: seq<Effect>, b: seq<Effect>)
    ensures DeadlineAfter(x, a + b) == DeadlineAfter(DeadlineAfter(x, a), b)
    decreases |a|
  {
    if a != [] {
      assert (a + b)[1..] == a[1..] + b;
      DeadlineAppend(if a[0].Extended? then a[0].until else x, a[1..], b);
    } else {
      assert a + b == b;
    }
  }

  /** Deadline supremacy: every store call is issued no later than the
      expiry in force when it is issued. */
  predicate Timely(expiry: int, log: seq<Effect>) {
    forall i :: 0 <= i < |log| && StoreCall(log[i]) ==> log[i].at <= DeadlineAfter(expiry, log[..i])
  }

  lemma {:induction false} TimelyAppend(x: int, a: seq<Effect>, y: int, b: seq<Effect>)
    requires Timely(x, a) && y == DeadlineAfter(x, a) && Timely(y, b)
    ensures Timely(x, a + b)
  {
    var l := a + b;
    forall i | 0 <= i < |l| && StoreCall(l[i])
      ensures l[i].at <= DeadlineAfter(x, l[..i])
    {
      if i < |a| {
        assert l[..i] == a[..i];
      } else {
        assert l[i] == b[i - |a|];
        assert l[..i] == a + b[..i - |a|];
        DeadlineAppend(x, a, b[..i - |a|]);
      }
    }
  }

  /** A log in which only the last step may extend the expiry, and every
      store call is issued by `expiry`, is timely. */
  lemma {:induction false} TimelyWhenExtendedLast(expiry: int, log: seq<Effect>)
    requires forall i :: 0 <= i < |log| && log[i].Extended? ==> i == |log| - 1
    requires forall i :: 0 <= i < |log| && StoreCall(log[i]) ==> log[i].at <= expiry
    ensures Timely(expiry, log)
  {
    forall i | 0 <= i < |log| && StoreCall(log[i])
      ensures log[i].at <= DeadlineAfter(expiry, log[..i])
    {
      assert forall k :: 0 <= k < i ==> log[..i][k] == log[k];
    }
  }

  /** One iteration of `Maintain`: sleep a seventh of the period, give up
      if the expiry has passed, read the key, and act on what it holds. */
  function MaintainTick(e: Entry, st: MState, w: World): (r: Round)
    ensures w.now <= r.world.now
    ensures |r.log| >= 1 && r.log[0] == Slept(w.now, e.period / 7)
    ensures w.now + e.period / 7 > st.expiry ==> r.tick == Stop(Invalidated(e.key)) && |r.log| == 1
    ensures w.now + e.period / 7 <= st.expiry ==>
              |r.log| >= 2 && r.log[1].Read? && r.log[1].key == e.key && r.log[1].at == w.now + e.period / 7
    ensures Timely(st.expiry, r.log)
    ensures r.tick.Next? ==> r.tick.st.expiry == DeadlineAfter(st.expiry, r.log)
    ensures st.attempts < MaxAttempts && r.tick.Next? ==> r.tick.st.attempts < MaxAttempts
    ensures KvStore.Valid(w.store) ==> KvStore.Valid(r.world.store)
  {
    var s := Sleep(w, e.period / 7);
    if s.world.now > st.expiry then Round(Stop(Invalidated(e.key)), [s.eff], s.world)
    else
      var g := Get(s.world, e.key);
      var m := MaintainAfterRead(e, st, g.eff.got, g.world);
      var log := [s.eff, g.eff] + m.log;
      assert forall i :: 2 <= i < |log| ==> log[i] == m.log[i - 2];
      TimelyWhenExtendedLast(st.expiry, log);
      Round(m.tick, log, m.world)
  }

  /** The outcome of running `Maintain` for a bounded number of iterations:
      the error it returned, or none when the iterations ran out. */
  datatype Run = Run(err: Option<LeaseError>, st: MState, log: seq<Effect>, world: World)

  function MaintainFor(e: Entry, st: MState, w: World, ticks: nat): (r: Run)
    ensures w.now <= r.world.now
    ensures st.attempts < MaxAttempts ==> r.st.attempts < MaxAttempts
    ensures r.err == None ==> r.st.expiry == DeadlineAfter(st.expiry, r.log)
    ensures Timely(st.expiry, r.log)
    ensures KvStore.Valid(w.store) ==> KvStore.Valid(r.world.store)
    decreases ticks
  {
    if ticks == 0 then Run(None, st, [], w)
    else
      var t := MaintainTick(e, st, w);
      match t.tick
      case Stop(err) => Run(Some(err), st, t.log, t.world)
      case Next(next) =>
        var rest := MaintainFor(e, next, t.world, ticks - 1);
        DeadlineAppend(st.expiry, t.log, rest.log);
        TimelyAppend(st.expiry, t.log, next.expiry, rest.log);
        Run(rest.err, rest.st, t.log + rest.log, rest.world)
  }

  /** `Maintain(expiry)`, bounded to `ticks` iterations. */
  function Maintain(e: Entry, expiry: int, w: World, ticks: nat): (r: Run)
    ensures Timely(expiry, r.log)
    ensures r.st.attempts < MaxAttempts
    ensures r.err == None ==> r.st.expiry == DeadlineAfter(expiry, r.log)
  {
    MaintainFor(e, MState(expiry, 0), w, ticks)
  }
}

=== FILE: op.dfy ===
/** The opcode table of `pkg/op`: `Code` is a `uint8`, client opcodes are
    1..5, server opcodes 64..66, and `String` names each defined code. */
module Op {
  import opened Bytes
  import opened Strs
  import opened Wrappers

  type Code = byte

  const ClientHeartbeat: Code := 1
  const ClientHello: Code := 2
  const ClientRequest: Code := 3
  const ClientResponse: Code := 4
  const ClientShutdown: Code := 5
  const ServerHello: Code := 64
  const ServerRequest: Code := 65
  const ServerShutdown: Code := 66

  /** The codes the name table defines. */
  predicate Defined(c: Code) {
    1 <= c <= 5 || 64 <= c <= 66
  }

  /** `Code.String`: the identifier of a defined code, and the empty string
      (the map's zero value) for any other. */
  function Name(c: Code): (s: string)
    ensures s == "" <==> !Defined(c)
  {
    if c == ClientHeartbeat then "ClientHeartbeat"
    else if c == ClientHello then "ClientHello"
    else if c == ClientRequest then "ClientRequest"
    else if c == ClientResponse then "ClientResponse"
    else if c == ClientShutdown then "ClientShutdown"
    else if c == ServerHello then "ServerHello"
    else if c == ServerRequest then "ServerRequest"
    else if c == ServerShutdown then "ServerShutdown"
    else ""
  }

  /** Client codes are exactly those named `Client…`, server codes exactly
      those named `Server…`. */
  lemma NameFamily(c: Code)
    ensures HasPrefix(Name(c), "Client") <==> 1 <= c <= 5
    ensures HasPrefix(Name(c), "Server") <==> 64 <= c <= 66
  {
    var s := Name(c);
    if c == ClientHeartbeat { Family(s, "Client", "Server"); }
    else if c == ClientHello { Family(s, "Client", "Server"); }
    else if c == ClientRequest { Family(s, "Client", "Server"); }
    else if c == ClientResponse { Family(s, "Client", "Server"); }
    else if c == ClientShutdown { Family(s, "Client", "Server"); }
    else if c == ServerHello { Family(s, "Server", "Client"); }
    else if c == ServerRequest { Family(s, "Server", "Client"); }
    else if c == ServerShutdown { Family(s, "Server", "Client"); }
  }

  /** A name spelt out from `family` starts with it and not with `other`. */
  lemma Family(s: string, family: string, other: string)
    requires 0 < |family| == |other| <= |s| && family[0] != other[0]
    requires forall k :: 0 <= k < |family| ==> s[k] == family[k]
    ensures HasPrefix(s, family) && !HasPrefix(s, other)
  {
    assert s[..|family|] == family;
    assert s[..|other|][0] != other[0];
  }

  /** The code an identifier names, if any: the reverse of the table. */
  function Lookup(s: string): (r: Option<Code>)
    ensures r.Some? ==> Defined(r.value)
  {
    if s == "ClientHeartbeat" then Some(ClientHeartbeat)
    else if s == "ClientHello" then Some(ClientHello)
    else if s == "ClientRequest" then Some(ClientRequest)
    else if s == "ClientResponse" then Some(ClientResponse)
    else if s == "ClientShutdown" then Some(ClientShutdown)
    else if s == "ServerHello" then Some(ServerHello)
    else if s == "ServerRequest" then Some(ServerRequest)
    else if s == "ServerShutdown" then Some(ServerShutdown)
    else None
  }

  /** Every defined code is recovered from its name. */
  lemma LookupName(c: Code)
    requires Defined(c)
    ensures Lookup(Name(c)) == Some(c)
  {
  }

  /** Every name the table knows leads back to itself. */
  lemma NameLookup(s: string)
    requires Lookup(s).Some?
    ensures Name(Lookup(s).value) == s
  {
  }

  /** So the names of defined codes are pairwise distinct. */
  lemma NameInjective(a: Code, b: Code)
    requires Defined(a) && Defined(b) && Name(a) == Name(b)
    ensures a == b
  {
    LookupName(a);
    LookupName(b);
  }
}

=== FILE: protocol.dfy ===
/** The wire protocol of `pkg/protocol`: the text of a protocol `Error`, the
    frame grammar shared by `StartWriteLoop` (encoder) and `StartReadLoop`
    (decoder), and the closed check of `Conn.Write`. */
module Protocol {
  import opened Wrappers
  import opened Bytes

  // ---------------------------------------------------------------------
  // Error.Error
  // ---------------------------------------------------------------------

  /** A protocol error. `args` is `None` for a nil `Args` slice and
      otherwise carries the JSON text `json.Marshal` produces for it. */
  datatype Error = Error(kind: string, args: Option<string>, msg: string)

  /** `Error.Error`. */
  function ErrorText(e: Error): (s: string)
    ensures e.kind != "" && e.msg != "" ==> s == e.kind + ": " + e.msg
    ensures e.kind != "" && e.msg == "" && e.args.Some? ==> s == e.kind + ": " + e.args.value
    ensures e.kind == "" || (e.msg == "" && e.args.None?) ==>
              s == (if e.msg != "" then e.msg else "Error")
    ensures s != ""
  {
    if e.kind != "" && e.msg != "" then e.kind + ": " + e.msg
    else if e.kind != "" && e.args.Some? then e.kind + ": " + e.args.value
    else if e.msg != "" then e.msg
    else "Error"
  }

  /** The kind prefix is recoverable whenever it is printed: a kind without
      ": " inside it is found again by cutting at the first ": ". */
  lemma ErrorTextKind(e: Error, cut: nat)
    requires e.kind != "" && (e.msg != "" || e.args.Some?)
    requires cut == |e.kind|
    requires forall i :: 0 <= i < |e.kind| - 1 ==> !(e.kind[i] == ':' && e.kind[i + 1] == ' ')
    ensures FirstSeparator(ErrorText(e)) == Some(cut)
  {
    var s := ErrorText(e);
    assert s[..|e.kind|] == e.kind;
    assert s[|e.kind|] == ':' && s[|e.kind| + 1] == ' ';
    FirstSeparatorAt(s, |e.kind|);
  }

  /** The position of the first ": " in `s`. */
  function FirstSeparator(s: string): (r: Option<nat>)
    ensures r.Some? ==> r.value + 1 < |s| && s[r.value] == ':' && s[r.value + 1] == ' '
    decreases |s|
  {
    if |s| < 2 then None
    else if s[0] == ':' && s[1] == ' ' then Some(0)
    else match FirstSeparator(s[1..])
      case None => None
      case Some(k) => Some(k + 1)
  }

  lemma {:induction false} FirstSeparatorAt(s: string, k: nat)
    requires k + 1 < |s| && s[k] == ':' && s[k + 1] == ' '
    requires forall i :: 0 <= i < k ==> !(s[i] == ':' && s[i + 1] == ' ')
    ensures FirstSeparator(s) == Some(k)
    decreases k
  {
    if k > 0 {
      assert !(s[0] == ':' && s[1] == ' ');
      var t := s[1..];
      forall i | 0 <= i < k - 1 ensures !(t[i] == ':' && t[i + 1] == ' ') {
        assert t[i] == s[i + 1] && t[i + 1] == s[i + 2];
      }
      FirstSeparatorAt(t, k - 1);
    }
  }

  // ---------------------------------------------------------------------
  // Frames
  // ---------------------------------------------------------------------

  /** Opcodes from 64 up carry a data section. */
  const DataFrom: byte := 64
  /** Opcodes from 128 up also carry a body section. */
  const BodyFrom: byte := 128

  /** What a writer is handed. `data` stands for the bytes the encoder made
      of a non-nil `Data`; `None` is a nil `Data` (or `Body`). */
  datatype Payload = Payload(opcode: byte, data: Option<seq<byte>>, body: Option<seq<byte>>)

  /** What the reader hands to `Handler.Handle`: absent sections read as
      empty byte strings. */
  datatype Frame = Frame(opcode: byte, data: seq<byte>, body: seq<byte>)

  datatype ReadError = EndOfStream | Truncated

  /** A section as the writer emits it: a big-endian `uint32(len)` and then
      the bytes. The length is wrapped to 32 bits as the conversion does. */
  function Section(b: seq<byte>): (r: seq<byte>)
    ensures |r| == 4 + |b| && r[4..] == b
    ensures FromBigEndian(r[..4]) == Uint32(|b|)
  {
    PutUint32(|b|) + b
  }

  /** The bytes `StartWriteLoop` puts on the wire for one payload: the
      opcode byte, then each section that is present. */
  function Encode(p: Payload): (r: seq<byte>)
    ensures |r| >= 1 && r[0] == p.opcode
    ensures |r| == 1 + (if p.data.Some? then 4 + |p.data.value| else 0)
                     + (if p.body.Some? then 4 + |p.body.value| else 0)
  {
    [p.opcode]
    + (if p.data.Some? then Section(p.data.value) else [])
    + (if p.body.Some? then Section(p.body.value) else [])
  }

  /** A payload the reader understands: sections present exactly where the
      opcode calls for them, and each shorter than 2^32 bytes. */
  predicate WellFormed(p: Payload) {
    && (p.data.Some? <==> p.opcode >= DataFrom)
    && (p.body.Some? <==> p.opcode >= BodyFrom)
    && (p.data.Some? ==> |p.data.value| < Two32)
    && (p.body.Some? ==> |p.body.value| < Two32)
  }

  /** The frame a well-formed payload arrives as. */
  function Delivered(p: Payload): Frame {
    Frame(p.opcode, p.data.GetOr([]), p.body.GetOr([]))
  }

  /** One length-prefixed section at the front of `s`, and what follows. */
  function ReadSection(s: seq<byte>): (r: Result<(seq<byte>, seq<byte>), ReadError>)
    ensures r.Ok? ==> |r.value.0| < Two32 && s == Section(r.value.0) + r.value.1
    ensures r.Err? ==> r.error == Truncated
  {
    if |s| < 4 then Err(Truncated)
    else
      var n := FromBigEndian(s[..4]);
      if |s| - 4 < n then Err(Truncated)
      else
        Pow256Four();
        BigEndianOfFromBigEndian(s[..4]);
        FromBigEndianOfBigEndian(n, 4);
        assert s == s[..4] + s[4..4 + n] + s[4 + n..];
        Ok((s[4..4 + n], s[4 + n..]))
  }

  /** One frame as `StartReadLoop` consumes it: the opcode byte, then a
      data section when the opcode is at least 64, then a body section when
      it is at least 128. */
  function ReadFrame(s: seq<byte>): (r: Result<(Frame, seq<byte>), ReadError>)
    ensures r.Ok? ==> |r.value.1| < |s|
    ensures r.Err? && s != [] ==> r.error == Truncated
  {
    if s == [] then Err(EndOfStream)
    else
      var op: byte := s[0];
      var (data, afterData) :- if op >= DataFrom then ReadSection(s[1..]) else Ok(([], s[1..]));
      var (body, rest) :- if op >= BodyFrom then ReadSection(afterData) else Ok(([], afterData));
      Ok((Frame(op, data, body), rest))
  }

  lemma SectionThenRest(b: seq<byte>, rest: seq<byte>)
    requires |b| < Two32
    ensures ReadSection(Section(b) + rest) == Ok((b, rest))
  {
    var s := Section(b) + rest;
    assert s[..4] == PutUint32(|b|);
    assert s[4..4 + |b|] == b;
    assert s[4 + |b|..] == rest;
  }

  /** Round trip: the reader recovers exactly what the writer sent. */
  lemma ReadEncoded(p: Payload, rest: seq<byte>)
    requires WellFormed(p)
    ensures ReadFrame(Encode(p) + rest) == Ok((Delivered(p), rest))
  {
    var s := Encode(p) + rest;
    var afterOp := (if p.data.Some? then Section(p.data.value) else [])
                   + (if p.body.Some? then Section(p.body.value) else []) + rest;
    assert s[1..] == afterOp;
    var afterData := (if p.body.Some? then Section(p.body.value) else []) + rest;
    if p.data.Some? {
      assert afterOp == Section(p.data.value) + afterData;
      SectionThenRest(p.data.value, afterData);
    }
    if p.body.Some? {
      SectionThenRest(p.body.value, rest);
    }
  }

  /** And conversely: every frame the reader accepts is the encoding of a
      well-formed payload, so the grammar has no other sentences. */
  lemma EncodedRead(s: seq<byte>)
    requires ReadFrame(s).Ok?
    ensures var (f, rest) := ReadFrame(s).value;
            exists p :: WellFormed(p) && Delivered(p) == f && s == Encode(p) + rest
  {
    var (f, rest) := ReadFrame(s).value;
    var p := ReadPayload(s);
    assert WellFormed(p) && Delivered(p) == f && s == Encode(p) + rest;
  }

  /** The payload a frame accepted by `ReadFrame` was encoded from. */
  function ReadPayload(s: seq<byte>): (p: Payload)
    requires ReadFrame(s).Ok?
    ensures WellFormed(p) && Delivered(p) == ReadFrame(s).value.0
    ensures s == Encode(p) + ReadFrame(s).value.1
  {
    var op: byte := s[0];
    if op < DataFrom then
      EncodedBare(s);
      Payload(op, None, None)
    else if op < BodyFrom then
      EncodedData(s);
      Payload(op, Some(ReadFrame(s).value.0.data), None)
    else
      EncodedBody(s);
      Payload(op, Some(ReadFrame(s).value.0.data), Some(ReadFrame(s).value.0.body))
  }

  lemma EncodedBare(s: seq<byte>)
    requires ReadFrame(s).Ok? && s[0] < DataFrom
    ensures ReadFrame(s).value == (Frame(s[0], [], []), s[1..])
    ensures s == Encode(Payload(s[0], None, None)) + s[1..]
  {
    assert s == [s[0]] + s[1..];
  }

  lemma EncodedData(s: seq<byte>)
    requires ReadFrame(s).Ok? && DataFrom <= s[0] < BodyFrom
    ensures var (f, rest) := ReadFrame(s).value;
            f.opcode == s[0] && f.body == [] && |f.data| < Two32
            && s == Encode(Payload(s[0], Some(f.data), None)) + rest
  {
    var (f, rest) := ReadFrame(s).value;
    var sec := ReadSection(s[1..]);
    assert sec.Ok? && f.data == sec.value.0 && rest == sec.value.1;
    assert s == [s[0]] + s[1..];
  }

  /** How `ReadFrame` consumes a frame carrying both sections. */
  lemma ReadBothSections(s: seq<byte>)
    requires ReadFrame(s).Ok? && BodyFrom <= s[0]
    ensures ReadSection(s[1..]).Ok? && ReadSection(ReadSection(s[1..]).value.1).Ok?
    ensures var d := ReadSection(s[1..]).value;
            var b := ReadSection(d.1).value;
            ReadFrame(s).value == (Frame(s[0], d.0, b.0), b.1)
  {
  }

  lemma EncodedBody(s: seq<byte>)
    requires ReadFrame(s).Ok? && BodyFrom <= s[0]
    ensures var (f, rest) := ReadFrame(s).value;
            f.opcode == s[0] && |f.data| < Two32 && |f.body| < Two32
            && s == Encode(Payload(s[0], Some(f.data), Some(f.body))) + rest
  {
    ReadBothSections(s);
    var d := ReadSection(s[1..]).value;
    var b := ReadSection(d.1).value;
    assert s == [s[0]] + s[1..];
    TwoSections(s, s[0], d.0, d.1, b.0, b.1);
  }

  /** The byte-level step of `EncodedBody`. */
  lemma TwoSections(s: seq<byte>, op: byte, data: seq<byte>, afterData: seq<byte>, body: seq<byte>, rest: seq<byte>)
    requires s == [op] + (Section(data) + afterData) && afterData == Section(body) + rest
    ensures s == Encode(Payload(op, Some(data), Some(body))) + rest
  {
    var p := Payload(op, Some(data), Some(body));
    assert Encode(p) == [op] + Section(data) + Section(body);
    calc {
      s;
      [op] + (Section(data) + (Section(body) + rest));
      Encode(p) + rest;
    }
  }

  /** The byte stream of a sequence of payloads. */
  function EncodeAll(ps: seq<Payload>): seq<byte> {
    if ps == [] then [] else Encode(ps[0]) + EncodeAll(ps[1..])
  }

  /** The reader's loop: frames until the stream ends cleanly. */
  function ReadAll(s: seq<byte>): (r: Result<seq<Frame>, ReadError>)
    ensures r.Err? ==> r.error == Truncated
    decreases |s|
  {
    if s == [] then Ok([])
    else
      var (f, rest) :- ReadFrame(s);
      var fs :- ReadAll(rest);
      Ok([f] + fs)
  }

  /** A stream of well-formed payloads is read back frame for frame. */
  lemma {:induction false} ReadAllEncoded(ps: seq<Payload>)
    requires forall i :: 0 <= i < |ps| ==> WellFormed(ps[i])
    ensures ReadAll(EncodeAll(ps)).Ok?
    ensures var fs := ReadAll(EncodeAll(ps)).value;
            |fs| == |ps| && forall i :: 0 <= i < |ps| ==> fs[i] == Delivered(ps[i])
  {
    if ps != [] {
      var s := EncodeAll(ps);
      var rest := EncodeAll(ps[1..]);
      assert s == Encode(ps[0]) + rest;
      ReadEncoded(ps[0], rest);
      ReadAllEncoded(ps[1..]);
      assert Encode(ps[0]) + rest != [];
      var tail := ReadAll(rest).value;
      assert ReadAll(s) == Ok([Delivered(ps[0])] + tail);
      forall i | 1 <= i < |ps| ensures ([Delivered(ps[0])] + tail)[i] == Delivered(ps[i]) {
        assert ps[1..][i - 1] == ps[i];
      }
    }
  }

  // ---------------------------------------------------------------------
  // Conn.Write / Conn.Close
  // ---------------------------------------------------------------------

  const ConnectionClosed := "elko.protocol: connection closed"

  /** A connection's flag and the payloads handed to its write queue. */
  datatype Conn = Conn(closed: bool, queue: seq<Payload>)

  datatype Written = Written(err: Option<string>, conn: Conn)

  /** `Conn.Write`: refused once closed, queued otherwise. */
  function Write(c: Conn, p: Payload): (r: Written)
    ensures c.closed ==> r.err == Some(ConnectionClosed) && r.conn == c
    ensures !c.closed ==> r.err.None? && r.conn == Conn(false, c.queue + [p])
  {
    if c.closed then Written(Some(ConnectionClosed), c)
    else Written(None, c.(queue := c.queue + [p]))
  }

  /** `Conn.Close`: only the flag changes. */
  function Close(c: Conn): (r: Conn)
    ensures r.closed && r.queue == c.queue
  {
    c.(closed := true)
  }

  /** Writes applied in turn; the errors they returned, in order. */
  function WriteAll(c: Conn, ps: seq<Payload>): (r: (seq<Option<string>>, Conn))
    ensures |r.0| == |ps|
    decreases |ps|
  {
    if ps == [] then ([], c)
    else
      var w := Write(c, ps[0]);
      var (errs, c2) := WriteAll(w.conn, ps[1..]);
      ([w.err] + errs, c2)
  }

  /** An open connection queues every payload in order; once closed it
      queues nothing more and every write reports the closed error. */
  lemma {:induction false} WriteAllQueues(c: Conn, ps: seq<Payload>)
    ensures !c.closed ==> WriteAll(c, ps).1 == Conn(false, c.queue + ps)
    ensures !c.closed ==> forall i :: 0 <= i < |ps| ==> WriteAll(c, ps).0[i].None?
    ensures c.closed ==> WriteAll(c, ps).1 == c
    ensures c.closed ==> forall i :: 0 <= i < |ps| ==> WriteAll(c, ps).0[i] == Some(ConnectionClosed)
    decreases |ps|
  {
    if ps != [] {
      WriteAllQueues(Write(c, ps[0]).conn, ps[1..]);
      assert c.queue + [ps[0]] + ps[1..] == c.queue + ps;
    }
  }
}

=== FILE: server.dfy ===
/** Start-up and first-byte dispatch of the service manager
    (`pkg/servicemanager/server.go`): validating a `Config`, the node ID
    layout, and routing of fresh connections. */
module Server {
  import opened Wrappers
  import opened Bytes
  import opened Strs
  import opened Decimal
  import Base64

  /** The configuration fields `New` attempts. */
  datatype Config = Config(clusterType: string, clusterEndpoints: string, clusterId: string,
                           clusterKey: string, hostMetadata: string)

  /** The reasons `New` gives up. The formatted messages carry the offending
      value; the metadata and random-source failures carry the error text
      they were handed. */
  datatype ConfigError =
    | MissingEndpoints
    | MissingClusterId
    | MissingClusterKey
    | EmptyEndpointList
    | UnknownClusterType(clusterType: string)
    | UnknownMetadata(hostMetadata: string)
    | MetadataFailed(msg: string)
    | RandomFailed(msg: string)
    | ShortRandom

  const Pkg := "servicemanager: "
  const ClusterTypeText := "unknown cluster type: "
  const MetadataText := "unknown metadata server type: "

  /** Whether the error is one `New` makes itself, rather than one it
      passes through from the metadata service or the random source. */
  predicate OwnError(e: ConfigError) {
    !e.MetadataFailed? && !e.RandomFailed?
  }

  /** The own errors whose detail quotes a value. */
  predicate Formatted(e: ConfigError) {
    e.UnknownClusterType? || e.UnknownMetadata?
  }

  /** The text of each error. `New`'s own errors are `servicemanager: `
      followed by a detail, the two formatted ones quoting the offending
      value with `%q`; passed-through errors keep their own text. */
  function Message(e: ConfigError): (m: string)
    ensures OwnError(e) ==> HasPrefix(m, Pkg) && m[|Pkg|..] == Detail(e)
    ensures !OwnError(e) ==> m == e.msg
  {
    if OwnError(e) then
      var m := Pkg + Detail(e);
      assert m[..|Pkg|] == Pkg && m[|Pkg|..] == Detail(e);
      m
    else e.msg
  }

  /** What follows `servicemanager: ` in each of `New`'s own errors. The
      offending value of a formatted one reads back from its quotation. */
  function Detail(e: ConfigError): (d: string)
    requires OwnError(e)
    ensures e.UnknownClusterType? ==>
              HasPrefix(d, ClusterTypeText) && |d| > |ClusterTypeText| && ReadQuoted(d[|ClusterTypeText| + 1..]) == Some((e.clusterType, ""))
    ensures e.UnknownMetadata? ==>
              HasPrefix(d, MetadataText) && |d| > |MetadataText| && ReadQuoted(d[|MetadataText| + 1..]) == Some((e.hostMetadata, ""))
    ensures |d| > 0 && (d[|d| - 1] == '"' <==> Formatted(e))
  {
    match e
    case MissingEndpoints => "missing --cluster-endpoints value"
    case MissingClusterId => "missing --cluster-id value"
    case MissingClusterKey => "missing --cluster-key value"
    case EmptyEndpointList => "empty list specified in --cluster-endpoints"
    case ShortRandom => "unable to generate the random portion of the node id"
    case UnknownClusterType(t) => QuotedAfter(ClusterTypeText, t)
    case UnknownMetadata(h) => QuotedAfter(MetadataText, h)
  }

  /** `prefix` followed by `%q` of `v`. */
  function QuotedAfter(prefix: string, v: string): (m: string)
    ensures HasPrefix(m, prefix) && |m| > |prefix| && m[|prefix|] == '"'
    ensures ReadQuoted(m[|prefix| + 1..]) == Some((v, ""))
    ensures m[|m| - 1] == '"'
  {
    var m := prefix + Quote(v);
    ReadQuotedEscape(v, "");
    assert m[|prefix| + 1..] == Escape(v) + "\"" + "";
    m
  }

  /** The errors `New` makes itself all have different texts, so a caller
      can tell them apart; the formatted ones also differ in the value they
      quote. */
  lemma MessageDistinct(a: ConfigError, b: ConfigError)
    requires OwnError(a) && OwnError(b) && a != b
    ensures Message(a) != Message(b)
  {
    var da, db := Detail(a), Detail(b);
    if a.UnknownClusterType? && b.UnknownClusterType? {
      assert da[|ClusterTypeText| + 1..] != db[|ClusterTypeText| + 1..];
    } else if a.UnknownMetadata? && b.UnknownMetadata? {
      assert da[|MetadataText| + 1..] != db[|MetadataText| + 1..];
    } else if a.UnknownClusterType? && b.UnknownMetadata? {
      FormattedKindsDiffer(a, b);
    } else if a.UnknownMetadata? && b.UnknownClusterType? {
      FormattedKindsDiffer(b, a);
    } else if Formatted(a) || Formatted(b) {
      assert da[|da| - 1] != db[|db| - 1];
    } else {
      FixedLengthsDiffer(a, b);
    }
    assert da != db;
  }

  /** The two prefixes part at the opening quote of the shorter one, where
      the longer one still has a letter. */
  lemma FormattedKindsDiffer(a: ConfigError, b: ConfigError)
    requires a.UnknownClusterType? && b.UnknownMetadata?
    ensures Detail(a) != Detail(b)
  {
    var i, db := |ClusterTypeText|, Detail(b);
    assert db[..|MetadataText|] == MetadataText;
    assert db[i] == MetadataText[i] == 'r';
  }

  /** The five fixed texts have five different lengths. */
  lemma FixedLengthsDiffer(a: ConfigError, b: ConfigError)
    requires OwnError(a) && OwnError(b) && !Formatted(a) && !Formatted(b) && a != b
    ensures |Detail(a)| != |Detail(b)|
  {
  }

  datatype Cluster = Solo | Consul(servers: seq<string>)

  datatype Server = Server(cluster: Cluster, nodeId: string)

  // ---------------------------------------------------------------------
  // Endpoint list
  // ---------------------------------------------------------------------

  /** An entry that survives parsing: non-empty, already trimmed, and
      free of the separator. */
  predicate CleanEndpoint(e: string) {
    e != "" && !IsSpace(e[0]) && !IsSpace(e[|e| - 1]) && ',' !in e
  }

  /** Every entry of a list is clean, stated along the list. */
  predicate AllClean(es: seq<string>) {
    es == [] || (CleanEndpoint(es[0]) && AllClean(es[1..]))
  }

  /** No piece contains the separator, stated along the list. */
  predicate NoComma(pieces: seq<string>) {
    pieces == [] || (',' !in pieces[0] && NoComma(pieces[1..]))
  }

  /** The trimmed, non-empty entries of a list of pieces, in order. */
  function KeepTrimmed(pieces: seq<string>): (r: seq<string>)
    ensures |r| <= |pieces|
    ensures forall i :: 0 <= i < |r| ==> r[i] != ""
  {
    if pieces == [] then []
    else
      var e := TrimSpace(pieces[0]);
      (if e != "" then [e] else []) + KeepTrimmed(pieces[1..])
  }

  /** The loop over `strings.Split(ClusterEndpoints, ",")`. */
  function ParseEndpoints(s: string): (r: seq<string>)
    ensures forall i :: 0 <= i < |r| ==> r[i] != ""
  {
    KeepTrimmed(Split(s, ','))
  }

  /** A single piece is kept in trimmed form, or dropped when it trims to
      nothing. */
  lemma KeepTrimmedOne(p: string)
    ensures KeepTrimmed([p]) == if TrimSpace(p) == "" then [] else [TrimSpace(p)]
  {
    assert [p][1..] == [];
  }

  /** The pieces are handled one at a time, in order: keeping distributes
      over concatenation. With `KeepTrimmedOne` this determines the result
      for every list. */
  lemma {:induction false} KeepTrimmedAppend(a: seq<string>, b: seq<string>)
    ensures KeepTrimmed(a + b) == KeepTrimmed(a) + KeepTrimmed(b)
    decreases |a|
  {
    if a == [] {
      assert a + b == b;
    } else {
      assert (a + b)[0] == a[0];
      assert (a + b)[1..] == a[1..] + b;
      KeepTrimmedAppend(a[1..], b);
    }
  }

  /** Every piece kept is trimmed and has no comma in it. */
  lemma {:induction false} KeepTrimmedClean(pieces: seq<string>)
    requires NoComma(pieces)
    ensures AllClean(KeepTrimmed(pieces))
    decreases |pieces|
  {
    if pieces != [] {
      var e := TrimSpace(pieces[0]);
      KeepTrimmedClean(pieces[1..]);
      var tail := KeepTrimmed(pieces[1..]);
      if e != "" {
        TrimmedClean(pieces[0]);
        assert KeepTrimmed(pieces) == [e] + tail;
        assert ([e] + tail)[1..] == tail;
      } else {
        assert KeepTrimmed(pieces) == tail;
      }
    }
  }

  /** A comma-free piece trims to a clean entry or to nothing. */
  lemma TrimmedClean(p: string)
    requires ',' !in p
    ensures TrimSpace(p) != "" ==> CleanEndpoint(TrimSpace(p))
  {
    TrimSpaceWithout(p, ',');
  }

  /** Pieces that are already clean are kept exactly. */
  lemma {:induction false} KeepClean(pieces: seq<string>)
    requires AllClean(pieces)
    ensures KeepTrimmed(pieces) == pieces
    decreases |pieces|
  {
    if pieces != [] {
      KeepClean(pieces[1..]);
      TrimSpaceUntouched(pieces[0]);
      assert KeepTrimmed(pieces) == [pieces[0]] + pieces[1..];
    }
  }

  /** The list form of `AllClean`. */
  lemma {:induction false} AllCleanAt(es: seq<string>)
    ensures AllClean(es) <==> forall i :: 0 <= i < |es| ==> CleanEndpoint(es[i])
    decreases |es|
  {
    if es != [] {
      AllCleanAt(es[1..]);
      assert forall i :: 1 <= i < |es| ==> es[i] == es[1..][i - 1];
    }
  }

  /** The list form of `NoComma`. */
  lemma {:induction false} NoCommaAt(pieces: seq<string>)
    ensures NoComma(pieces) <==> forall i :: 0 <= i < |pieces| ==> ',' !in pieces[i]
    decreases |pieces|
  {
    if pieces != [] {
      NoCommaAt(pieces[1..]);
      assert forall i :: 1 <= i < |pieces| ==> pieces[i] == pieces[1..][i - 1];
    }
  }

  /** Every parsed entry is clean. */
  lemma ParseEndpointsClean(s: string)
    ensures forall i :: 0 <= i < |ParseEndpoints(s)| ==> CleanEndpoint(ParseEndpoints(s)[i])
  {
    NoCommaAt(Split(s, ','));
    KeepTrimmedClean(Split(s, ','));
    AllCleanAt(ParseEndpoints(s));
  }

  /** Round trip: a comma-joined list of clean entries parses back to the
      same list, in the same order. */
  lemma ParseJoinedEndpoints(es: seq<string>)
    requires |es| >= 1
    requires forall i :: 0 <= i < |es| ==> CleanEndpoint(es[i])
    ensures ParseEndpoints(Join(es, ',')) == es
  {
    SplitJoin(es, ',');
    AllCleanAt(es);
    KeepClean(es);
  }

  // ---------------------------------------------------------------------
  // Node IDs
  // ---------------------------------------------------------------------

  /** What `rand.Read` returned for the 5 random bytes: the bytes it filled
      and its error, if any. */
  datatype RandomRead = RandomRead(filled: seq<byte>, err: Option<string>)

  /** The 9 bytes a node ID encodes: `uint32(unix)` big-endian, then the
      random bytes. */
  function NodeIdBytes(unix: int, random: seq<byte>): seq<byte> {
    PutUint32(unix) + random
  }

  /** `genNodeID`. The clock reading and the random source are inputs. */
  function GenNodeId(prefix: string, unix: int, rnd: RandomRead): (r: Result<string, ConfigError>)
    ensures rnd.err.Some? ==> r == Err(RandomFailed(rnd.err.value))
    ensures rnd.err.None? && |rnd.filled| != 5 ==> r == Err(ShortRandom)
    ensures rnd.err.None? && |rnd.filled| == 5 <==> r.Ok?
    ensures r.Ok? ==> exists suffix :: r.value == prefix + "-" + suffix && |suffix| == 12
                                        && Base64.Decode(suffix) == Some(NodeIdBytes(unix, rnd.filled))
  {
    if rnd.err.Some? then Err(RandomFailed(rnd.err.value))
    else if |rnd.filled| != 5 then Err(ShortRandom)
    else
      var suffix := Base64.Encode(NodeIdBytes(unix, rnd.filled));
      Base64.DecodeEncode(NodeIdBytes(unix, rnd.filled));
      Ok(prefix + "-" + suffix)
  }

  /** The clock part of a node ID is the low 32 bits of the Unix time, and
      the random part is exactly the bytes drawn. */
  lemma NodeIdFields(unix: int, random: seq<byte>)
    ensures var b := NodeIdBytes(unix, random);
            FromBigEndian(b[..4]) == Uint32(unix) && b[4..] == random
  {
    var b := NodeIdBytes(unix, random);
    assert b[..4] == PutUint32(unix);
  }

  // ---------------------------------------------------------------------
  // New
  // ---------------------------------------------------------------------

  /** The cluster `ClusterType` selects, checking the consul settings in the
      order the code does. */
  function SelectCluster(cfg: Config): (r: Result<Cluster, ConfigError>)
    ensures cfg.clusterType == "" <==> r == Ok(Solo)
    ensures cfg.clusterType != "" && cfg.clusterType != "consul" <==> r == Err(UnknownClusterType(cfg.clusterType))
    ensures cfg.clusterType == "consul" ==>
              (cfg.clusterEndpoints == "" <==> r == Err(MissingEndpoints))
              && (cfg.clusterEndpoints != "" && cfg.clusterId == "" <==> r == Err(MissingClusterId))
              && (cfg.clusterEndpoints != "" && cfg.clusterId != "" && cfg.clusterKey == "" <==> r == Err(MissingClusterKey))
    ensures r.Ok? && r.value.Consul? ==>
              cfg.clusterType == "consul" && cfg.clusterEndpoints != "" && cfg.clusterId != "" && cfg.clusterKey != ""
              && r.value.servers == ParseEndpoints(cfg.clusterEndpoints) && |r.value.servers| > 0
    ensures cfg.clusterType == "consul" && cfg.clusterEndpoints != "" && cfg.clusterId != "" && cfg.clusterKey != "" ==>
              && (r == Err(EmptyEndpointList) <==> ParseEndpoints(cfg.clusterEndpoints) == [])
              && (ParseEndpoints(cfg.clusterEndpoints) != [] ==> r == Ok(Consul(ParseEndpoints(cfg.clusterEndpoints))))
  {
    if cfg.clusterType == "" then Ok(Solo)
    else if cfg.clusterType == "consul" then
      if cfg.clusterEndpoints == "" then Err(MissingEndpoints)
      else if cfg.clusterId == "" then Err(MissingClusterId)
      else if cfg.clusterKey == "" then Err(MissingClusterKey)
      else
        var servers := ParseEndpoints(cfg.clusterEndpoints);
        if |servers| == 0 then Err(EmptyEndpointList) else Ok(Consul(servers))
    else Err(UnknownClusterType(cfg.clusterType))
  }

  /** The node ID prefix `HostMetadata` selects; `azure` is the instance ID
      the metadata service answered with, consulted only for "azure". */
  function IdPrefix(hostMetadata: string, azure: Result<string, string>): (r: Result<string, ConfigError>)
    ensures hostMetadata == "" ==> r == Ok("dev")
    ensures hostMetadata == "azure" ==>
              (azure.Ok? ==> r == Ok(azure.value)) && (azure.Err? ==> r == Err(MetadataFailed(azure.error)))
    ensures hostMetadata != "" && hostMetadata != "azure" ==> r == Err(UnknownMetadata(hostMetadata))
  {
    if hostMetadata == "" then Ok("dev")
    else if hostMetadata == "azure" then
      if azure.Ok? then Ok(azure.value) else Err(MetadataFailed(azure.error))
    else Err(UnknownMetadata(hostMetadata))
  }

  /** `New`: cluster, then ID prefix, then node ID; the first failure is
      the result. */
  function New(cfg: Config, azure: Result<string, string>, unix: int, rnd: RandomRead): (r: Result<Server, ConfigError>)
    ensures SelectCluster(cfg).Err? ==> r == Err(SelectCluster(cfg).error)
    ensures SelectCluster(cfg).Ok? && IdPrefix(cfg.hostMetadata, azure).Err? ==> r == Err(IdPrefix(cfg.hostMetadata, azure).error)
    ensures r.Ok? <==> (SelectCluster(cfg).Ok? && IdPrefix(cfg.hostMetadata, azure).Ok?
                        && rnd.err.None? && |rnd.filled| == 5)
    ensures r.Ok? ==> r.value.cluster == SelectCluster(cfg).value
                      && HasPrefix(r.value.nodeId, IdPrefix(cfg.hostMetadata, azure).value + "-")
  {
    var cluster :- SelectCluster(cfg);
    var prefix :- IdPrefix(cfg.hostMetadata, azure);
    var id :- GenNodeId(prefix, unix, rnd);
    assert HasPrefix(id, prefix + "-");
    Ok(Server(cluster, id))
  }

  // ---------------------------------------------------------------------
  // handle
  // ---------------------------------------------------------------------

  /** One `Read` of the fresh connection's first byte. */
  datatype FirstRead = Got(b: byte) | Empty | ReadError(msg: string)

  /** Where a fresh connection goes. `Pending` is a connection whose attempts
      so far returned nothing (the loop keeps reading). */
  datatype Route = ToService | ToNode | Dropped | Pending

  /** `handle`: skip empty attempts; a read error or an unknown first byte
      closes the connection, 1 hands it to the service loop, 2 is the node
      case, which does nothing yet. */
  function Handle(attempts: seq<FirstRead>): (r: Route)
    ensures r == Pending <==> forall i :: 0 <= i < |attempts| ==> attempts[i] == Empty
    decreases |attempts|
  {
    if attempts == [] then Pending
    else match attempts[0]
      case Empty => Handle(attempts[1..])
      case ReadError(_) => Dropped
      case Got(b) => if b == 1 then ToService else if b == 2 then ToNode else Dropped
  }

  /** The route is decided by the first read that is not empty. */
  lemma {:induction false} HandleFirstByte(attempts: seq<FirstRead>, k: nat)
    requires k < |attempts| && attempts[k] != Empty
    requires forall i :: 0 <= i < k ==> attempts[i] == Empty
    ensures Handle(attempts) == (match attempts[k]
                               case Got(b) => if b == 1 then ToService else if b == 2 then ToNode else Dropped
                               case _ => Dropped)
    decreases k
  {
    if k > 0 {
      HandleFirstByte(attempts[1..], k - 1);
    }
  }
}

=== FILE: service.dfy ===
/** The service side of the service manager (`pkg/servicemanager/service.go`):
    the frame layout a service connection uses in both directions, the
    per-connection frame loop of `handleService`, and the service-ID rule. */
module Service {
  import opened Wrappers
  import opened Bytes

  // ---------------------------------------------------------------------
  // Frames
  // ---------------------------------------------------------------------

  /** Header: opcode byte plus a 4-byte big-endian length. */
  const HeaderLen: nat := 5
  /** The trailer after the data, reserved for a hash and left zero. */
  const TrailerLen: nat := 8

  /** A frame's contents. */
  datatype Message = Message(opcode: byte, data: seq<byte>)

  /** `service.write`: a buffer of 13+n bytes holding the opcode, `uint32(n)`
      big-endian, the data, and eight bytes nobody fills in. */
  function WriteFrame(m: Message): (buf: seq<byte>)
    ensures |buf| == HeaderLen + |m.data| + TrailerLen
    ensures buf[0] == m.opcode
    ensures FromBigEndian(buf[1..HeaderLen]) == Uint32(|m.data|)
    ensures buf[HeaderLen..HeaderLen + |m.data|] == m.data
    ensures forall i :: HeaderLen + |m.data| <= i < |buf| ==> buf[i] == 0
  {
    var buf := [m.opcode] + PutUint32(|m.data|) + m.data + [0, 0, 0, 0, 0, 0, 0, 0];
    assert buf[1..HeaderLen] == PutUint32(|m.data|);
    assert buf[HeaderLen..HeaderLen + |m.data|] == m.data;
    buf
  }

  /** The bytes of several frames, back to back. */
  function WriteFrames(ms: seq<Message>): seq<byte> {
    if ms == [] then [] else WriteFrame(ms[0]) + WriteFrames(ms[1..])
  }

  /** The data buffer's capacity after a frame of length `n` arrives: it is
      replaced by one of exactly `n` bytes when too small. */
  function Grow(capacity: nat, n: nat): (r: nat)
    ensures r >= n && r >= capacity
    ensures r == capacity || r == n
  {
    if n > capacity then n else capacity
  }

  /** The capacity of the data buffer a connection starts with. */
  const InitialCapacity: nat := 4096

  // ---------------------------------------------------------------------
  // handleService
  // ---------------------------------------------------------------------

  /** The opcode values of the service-manager protocol. The package that
      defines them is not part of this model, so they are a parameter. */
  datatype OpTable = OpTable(heartbeat: byte, hello: byte, request: byte, response: byte, shutdown: byte)

  /** Why the loop closed the connection. */
  datatype Reason = NotHello(opcode: byte) | Undecodable(opcode: byte) | ShutdownRequested | UnknownOpcode(opcode: byte)

  /** How the loop ended: a read failed (the connection is left as it is),
      or the loop closed the connection. */
  datatype End = ReadFailed | Closed(reason: Reason)

  /** One connection's run: the frames handled before the loop ended, how
      it ended, and the data buffer's final capacity. */
  datatype Session = Session(handled: seq<Message>, end: End, capacity: nat)

  /** The frames after which the switch goes round again. `decodes` says
      whether a payload unmarshals as the message its opcode names. */
  predicate Continues(t: OpTable, decodes: (byte, seq<byte>) -> bool, m: Message) {
    m.opcode == t.heartbeat
    || ((m.opcode == t.hello || m.opcode == t.request || m.opcode == t.response) && decodes(m.opcode, m.data))
  }

  function Prepend(m: Message, s: Session): Session {
    s.(handled := [m] + s.handled)
  }

  /** The `handleService` loop over the bytes a connection delivers. With
      `markSeen` false it is the code as written, where `seen` stays false
      forever; with `markSeen` true, `seen` is set once the first frame has
      passed the CLIENT_HELLO check. */
  function Serve(t: OpTable, decodes: (byte, seq<byte>) -> bool, markSeen: bool,
                 seen: bool, capacity: nat, s: seq<byte>): (r: Session)
    ensures r.capacity >= capacity
    ensures forall i :: 0 <= i < |r.handled| ==>
              |r.handled[i].data| <= r.capacity && Continues(t, decodes, r.handled[i])
    ensures !markSeen && !seen ==> forall i :: 0 <= i < |r.handled| ==> r.handled[i].opcode == t.hello
    ensures r.end.Closed? && r.end.reason.NotHello? ==> r.end.reason.opcode != t.hello
    ensures r.end.Closed? && r.end.reason.UnknownOpcode? ==>
              r.end.reason.opcode !in {t.heartbeat, t.hello, t.request, t.response, t.shutdown}
    decreases |s|
  {
    if |s| < HeaderLen then Session([], ReadFailed, capacity)
    else
      var op := s[0];
      if !seen && op != t.hello then Session([], Closed(NotHello(op)), capacity)
      else
        var n := FromBigEndian(s[1..HeaderLen]);
        var c := Grow(capacity, n);
        if |s| < HeaderLen + n + TrailerLen then Session([], ReadFailed, c)
        else
          var m := Message(op, s[HeaderLen..HeaderLen + n]);
          var rest := s[HeaderLen + n + TrailerLen..];
          var next := seen || markSeen;
          if op == t.heartbeat then Prepend(m, Serve(t, decodes, markSeen, next, c, rest))
          else if op == t.hello || op == t.request || op == t.response then
            if decodes(op, m.data) then Prepend(m, Serve(t, decodes, markSeen, next, c, rest))
            else Session([], Closed(Undecodable(op)), c)
          else if op == t.shutdown then
            if decodes(op, m.data) then Session([], Closed(ShutdownRequested), c)
            else Session([], Closed(Undecodable(op)), c)
          else Session([], Closed(UnknownOpcode(op)), c)
  }

  /** A connection starts unseen with a 4096-byte buffer. */
  function HandleService(t: OpTable, decodes: (byte, seq<byte>) -> bool, s: seq<byte>): (r: Session)
    ensures forall i :: 0 <= i < |r.handled| ==> r.handled[i].opcode == t.hello
    ensures r.capacity >= InitialCapacity
  {
    Serve(t, decodes, false, false, InitialCapacity, s)
  }

  /** `handleService` with `seen` set after the first frame's check. */
  function HandleServiceFixed(t: OpTable, decodes: (byte, seq<byte>) -> bool, s: seq<byte>): (r: Session)
    ensures r.capacity >= InitialCapacity
    ensures |r.handled| > 0 ==> r.handled[0].opcode == t.hello
  {
    Serve(t, decodes, true, false, InitialCapacity, s)
  }

  /** Reading a written frame gives back its opcode and data. */
  lemma FrameFields(m: Message, rest: seq<byte>)
    requires |m.data| < Two32
    ensures var s := WriteFrame(m) + rest;
            && |s| >= HeaderLen + |m.data| + TrailerLen
            && s[0] == m.opcode
            && FromBigEndian(s[1..HeaderLen]) == |m.data|
            && s[HeaderLen..HeaderLen + |m.data|] == m.data
            && s[HeaderLen + |m.data| + TrailerLen..] == rest
  {
    var s := WriteFrame(m) + rest;
    var f := WriteFrame(m);
    assert s[1..HeaderLen] == f[1..HeaderLen];
    assert s[HeaderLen..HeaderLen + |m.data|] == f[HeaderLen..HeaderLen + |m.data|];
  }

  /** Why the switch stops at a frame that does not continue the loop, its
      cases taken in the order the code tests them. */
  function StopReason(t: OpTable, decodes: (byte, seq<byte>) -> bool, m: Message): Reason {
    if m.opcode == t.hello || m.opcode == t.request || m.opcode == t.response then Undecodable(m.opcode)
    else if m.opcode == t.shutdown then
      if decodes(m.opcode, m.data) then ShutdownRequested else Undecodable(m.opcode)
    else UnknownOpcode(m.opcode)
  }

  /** A frame that passes the CLIENT_HELLO check but does not continue the
      loop closes the connection at once: a CLIENT_SHUTDOWN, a payload
      that does not decode, or an opcode the switch does not know. Nothing
      after it is read. */
  lemma ServeStops(t: OpTable, decodes: (byte, seq<byte>) -> bool, markSeen: bool,
                   seen: bool, capacity: nat, m: Message, rest: seq<byte>)
    requires |m.data| < Two32
    requires seen || m.opcode == t.hello
    requires !Continues(t, decodes, m)
    ensures var r := Serve(t, decodes, markSeen, seen, capacity, WriteFrame(m) + rest);
            && r.handled == []
            && r.end == Closed(StopReason(t, decodes, m))
            && r.capacity == Grow(capacity, |m.data|)
  {
    FrameFields(m, rest);
  }

  /** Before CLIENT_HELLO has been seen, any other opcode closes the
      connection as soon as its header has arrived. */
  lemma ServeRejectsFirst(t: OpTable, decodes: (byte, seq<byte>) -> bool, markSeen: bool,
                          capacity: nat, s: seq<byte>)
    requires |s| >= HeaderLen && s[0] != t.hello
    ensures Serve(t, decodes, markSeen, false, capacity, s) == Session([], Closed(NotHello(s[0])), capacity)
  {
  }

  /** With `seen` set after the first check, a connection that opens with
      CLIENT_HELLO gets every frame that the switch accepts handled in
      order, until its bytes run out. */
  lemma {:induction false} ServeAcceptsAll(t: OpTable, decodes: (byte, seq<byte>) -> bool,
                                           seen: bool, capacity: nat, ms: seq<Message>)
    requires forall i :: 0 <= i < |ms| ==> Continues(t, decodes, ms[i]) && |ms[i].data| < Two32
    requires !seen && |ms| > 0 ==> ms[0].opcode == t.hello
    ensures Serve(t, decodes, true, seen, capacity, WriteFrames(ms)).handled == ms
    ensures Serve(t, decodes, true, seen, capacity, WriteFrames(ms)).end == ReadFailed
    decreases |ms|
  {
    if ms != [] {
      var m := ms[0];
      var rest := WriteFrames(ms[1..]);
      assert WriteFrames(ms) == WriteFrame(m) + rest;
      FrameFields(m, rest);
      ServeAcceptsAll(t, decodes, true, Grow(capacity, |m.data|), ms[1..]);
      assert [m] + ms[1..] == ms;
    }
  }

  /** As written, a CLIENT_HELLO followed by a heartbeat closes the
      connection at the heartbeat: the second frame is checked against
      CLIENT_HELLO again because `seen` was never set. */
  lemma HeartbeatAfterHelloCloses(t: OpTable, decodes: (byte, seq<byte>) -> bool, hello: seq<byte>, beat: seq<byte>)
    requires t.hello != t.heartbeat
    requires decodes(t.hello, hello)
    requires |hello| < Two32 && |beat| < Two32
    ensures var s := WriteFrames([Message(t.hello, hello), Message(t.heartbeat, beat)]);
            && HandleService(t, decodes, s).handled == [Message(t.hello, hello)]
            && HandleService(t, decodes, s).end == Closed(NotHello(t.heartbeat))
            && HandleServiceFixed(t, decodes, s).handled == [Message(t.hello, hello), Message(t.heartbeat, beat)]
  {
    var ms := [Message(t.hello, hello), Message(t.heartbeat, beat)];
    assert ms[1..] == [ms[1]] && ms[1..][1..] == [];
    var tail := WriteFrames(ms[1..]);
    assert WriteFrames(ms) == WriteFrame(ms[0]) + tail;
    assert WriteFrames(ms[1..][1..]) == [];
    assert tail == WriteFrame(ms[1]) + [];
    FrameFields(ms[0], tail);
    FrameFields(ms[1], []);
    ServeAcceptsAll(t, decodes, false, InitialCapacity, ms);
    var c := Grow(InitialCapacity, |hello|);
    assert tail[0] == t.heartbeat && |tail| >= HeaderLen;
    assert Serve(t, decodes, false, false, c, tail) == Session([], Closed(NotHello(t.heartbeat)), c);
  }

  // ---------------------------------------------------------------------
  // isValidServiceID
  // ---------------------------------------------------------------------

  predicate ServiceIdChar(c: char) {
    ('a' <= c <= 'z') || c == '.' || ('0' <= c <= '9')
  }

  /** A service ID is non-empty and made of lower-case ASCII letters,
      digits and dots. */
  predicate ValidServiceId(id: string) {
    id != "" && forall i :: 0 <= i < |id| ==> ServiceIdChar(id[i])
  }

  /** `isValidServiceID`: the scan stops at the first character outside
      the alphabet. */
  method IsValidServiceId(id: string) returns (ok: bool)
    ensures ok <==> ValidServiceId(id)
  {
    if id == "" {
      return false;
    }
    var i := 0;
    while i < |id|
      invariant 0 <= i <= |id|
      invariant forall k :: 0 <= k < i ==> ServiceIdChar(id[k])
    {
      if !ServiceIdChar(id[i]) {
        return false;
      }
      i := i + 1;
    }
    return true;
  }
}

=== FILE: storecalls.dfy ===
/** How a lease participant meets the rest of the cluster. Every call the
    participant makes (to the store, or to its cleanup callback) consumes one
    environment `Turn`: first the writes of other processes scheduled for
    that turn land in the store, then the participant's own call takes
    effect at the current local clock, then the clock advances by the turn's
    latency while the reply travels back. A turn may also inject a transport
    failure. Each call is returned as an `Effect` carrying its reply, so
    properties of the protocol are statements about the log of effects an
    operation returns. */
module StoreCalls {
  import opened Wrappers
  import opened Bytes
  import opened KvStore
  import Consul

  /** A transport failure: `Lost` means the request never reached the store;
      `ReplyLost` means it took effect but the reply did not arrive. */
  datatype Fault = NoFault | Lost(msg: string) | ReplyLost(msg: string)

  datatype Turn = Turn(others: seq<Op>, fault: Fault, latency: nat)

  /** What `consul.Get` / `consul.Wait` report. */
  datatype GetResp = Found(item: Item) | NotFound | GetFailed(msg: string)

  /** What `consul.CAS` reports: the store's verdict, or a transport error. */
  datatype CasResp = CasDone(ok: bool) | CasFailed(msg: string)

  /** One observable step of a participant, stamped with the local clock at
      which it was issued. */
  datatype Effect =
    | Read(key: string, at: int, got: GetResp)
    | Waited(key: string, since: nat, at: int, got: GetResp)
    | Wrote(key: string, value: seq<byte>, expected: nat, at: int, result: CasResp)
    | Removed(key: string, at: int, failure: Option<string>)
    | Called(key: string, at: int, failure: Option<string>)
    | Slept(at: int, duration: nat)
    | Extended(at: int, until: int)

  /** The shared store, the participant's local clock, and the turns the
      environment has yet to play. */
  datatype World = World(store: Store, now: int, env: seq<Turn>)

  /** A call together with the world after it. */
  datatype Step = Step(eff: Effect, world: World)

  const Quiet := Turn([], NoFault, 0)

  /** Start the next turn: other processes' writes land in the store. */
  function Begin(w: World): (r: (Turn, World))
    ensures r.1.now == w.now
    ensures KvStore.Valid(w.store) ==> KvStore.Valid(r.1.store)
  {
    var t := if |w.env| > 0 then w.env[0] else Quiet;
    (t, w.(store := ApplyAll(w.store, t.others), env := if |w.env| > 0 then w.env[1..] else []))
  }

  /** A read of `k` in `s`: a transport failure is reported as such,
      otherwise the reply is exactly what the store holds. */
  function Observe(s: Store, k: string, f: Fault): (r: GetResp)
    ensures r.Found? ==> Lookup(s, k) == Some(r.item)
    ensures r == NotFound ==> k !in s.items
    ensures f.NoFault? ==> (r == NotFound <==> k !in s.items) && (k in s.items ==> r == Found(s.items[k]))
    ensures !f.NoFault? ==> r.GetFailed?
    ensures KvStore.Valid(s) && r.Found? ==> r.item.modifyIndex > 0
  {
    if !f.NoFault? then GetFailed(f.msg)
    else if k in s.items then Found(s.items[k]) else NotFound
  }

  /** A fault-free read says what the Consul client's `Get` would say when
      the store answers the request: NotFound for the same keys, and
      otherwise the same value and modify index. */
  lemma ObserveMatchesClient(s: Store, k: string)
    ensures var r := Observe(s, k, NoFault);
            var c := Consul.GetItem(Consul.ServeGet(s, k));
            && (r == NotFound <==> c == Err(Consul.NotFound))
            && (r.Found? <==> c.Ok?)
            && (r.Found? ==> c.value.key == k && Item(c.value.value, c.value.modifyIndex) == r.item)
  {
    Consul.GetMatchesStore(s, k);
  }

  /** `consul.Get(k)`: a consistent read. */
  function Get(w: World, k: string): (r: Step)
    ensures r.eff.Read? && r.eff.key == k && r.eff.at == w.now <= r.world.now
    ensures KvStore.Valid(w.store) ==> KvStore.Valid(r.world.store)
    ensures KvStore.Valid(w.store) && r.eff.got.Found? ==> r.eff.got.item.modifyIndex > 0
  {
    var (t, w1) := Begin(w);
    Step(Read(k, w.now, Observe(w1.store, k, t.fault)), w1.(now := w.now + t.latency))
  }

  /** `consul.Wait(k, period, since)`: a blocking read that returns the
      current item once it changes or the wait times out; which of the two
      happens is the environment's choice. */
  function Wait(w: World, k: string, since: nat): (r: Step)
    ensures r.eff.Waited? && r.eff.key == k && r.eff.since == since && r.eff.at == w.now <= r.world.now
    ensures KvStore.Valid(w.store) ==> KvStore.Valid(r.world.store)
  {
    var (t, w1) := Begin(w);
    Step(Waited(k, since, w.now, Observe(w1.store, k, t.fault)), w1.(now := w.now + t.latency))
  }

  /** `consul.CAS(k, v, expected)`: the store applies it under its
      check-and-set rule unless the request is lost. */
  function CasCall(w: World, k: string, v: seq<byte>, expected: nat): (r: Step)
    ensures r.eff.Wrote? && r.eff.key == k && r.eff.value == v && r.eff.expected == expected
    ensures r.eff.at == w.now <= r.world.now
    ensures KvStore.Valid(w.store) ==> KvStore.Valid(r.world.store)
  {
    var (t, w1) := Begin(w);
    var store := if t.fault.Lost? then w1.store else Apply(w1.store, Cas(k, v, expected));
    var got := if t.fault.NoFault? then CasDone(CasAccepts(w1.store, k, expected)) else CasFailed(t.fault.msg);
    Step(Wrote(k, v, expected, w.now, got), w1.(store := store, now := w.now + t.latency))
  }

  /** `consul.Delete(k)`. */
  function DeleteCall(w: World, k: string): (r: Step)
    ensures r.eff.Removed? && r.eff.key == k && r.eff.at == w.now <= r.world.now
    ensures KvStore.Valid(w.store) ==> KvStore.Valid(r.world.store)
  {
    var (t, w1) := Begin(w);
    var store := if t.fault.Lost? then w1.store else Apply(w1.store, Delete(k));
    var got := if t.fault.NoFault? then None else Some(t.fault.msg);
    Step(Removed(k, w.now, got), w1.(store := store, now := w.now + t.latency))
  }

  /** The registered cleanup callback: foreign code, so its outcome and
      duration come from the turn. */
  function Callback(w: World, k: string): (r: Step)
    ensures r.eff.Called? && r.eff.key == k && r.eff.at == w.now <= r.world.now
    ensures KvStore.Valid(w.store) ==> KvStore.Valid(r.world.store)
  {
    var (t, w1) := Begin(w);
    var got := if t.fault.NoFault? then None else Some(t.fault.msg);
    Step(Called(k, w.now, got), w1.(now := w.now + t.latency))
  }

  /** `time.Sleep(d)`. */
  function Sleep(w: World, d: nat): (r: Step)
    ensures r.eff == Slept(w.now, d)
    ensures r.world.now == w.now + d && r.world.store == w.store
  {
    Step(Slept(w.now, d), w.(now := w.now + d))
  }
}

=== FILE: strs.dfy ===
/** The few pieces of Go's `strings` package the modelled code relies on. */
module Strs {

  predicate HasPrefix(s: string, p: string) {
    |p| <= |s| && s[..|p|] == p
  }

  /** `strings.TrimPrefix`: drops `p` once from the front of `s` if present. */
  function TrimPrefix(s: string, p: string): (r: string)
    ensures HasPrefix(s, p) ==> s == p + r
    ensures !HasPrefix(s, p) ==> r == s
  {
    if HasPrefix(s, p) then s[|p|..] else s
  }

  /** `strings.Join(parts, string(sep))`. */
  function Join(parts: seq<string>, sep: char): string
    requires |parts| >= 1
  {
    if |parts| == 1 then parts[0] else parts[0] + [sep] + Join(parts[1..], sep)
  }

  /** `strings.Split(s, string(sep))`: the pieces between separators, in
      order; an empty `s` gives one empty piece. */
  function Split(s: string, sep: char): (r: seq<string>)
    ensures |r| >= 1
    ensures forall i :: 0 <= i < |r| ==> sep !in r[i]
    decreases |s|
  {
    if |s| == 0 then [""]
    else
      var rest := Split(s[1..], sep);
      if s[0] == sep then [""] + rest
      else [[s[0]] + rest[0]] + rest[1..]
  }

  /** Joining the pieces with the separator gives the input back. */
  lemma {:induction false} JoinSplit(s: string, sep: char)
    ensures Join(Split(s, sep), sep) == s
    decreases |s|
  {
    if |s| > 0 {
      var rest := Split(s[1..], sep);
      JoinSplit(s[1..], sep);
      if s[0] != sep {
        var r := Split(s, sep);
        if |rest| == 1 {
          assert r == [[s[0]] + rest[0]];
        } else {
          assert r[1..] == rest[1..];
          assert Join(r, sep) == [s[0]] + rest[0] + [sep] + Join(rest[1..], sep);
        }
      }
    }
  }

  /** Splitting is the only way to cut a string into separator-free pieces:
      splitting a join of such pieces returns exactly those pieces. */
  lemma {:induction false} SplitJoin(parts: seq<string>, sep: char)
    requires |parts| >= 1
    requires forall i :: 0 <= i < |parts| ==> sep !in parts[i]
    ensures Split(Join(parts, sep), sep) == parts
    decreases |parts|, |parts[0]|
  {
    var j := Join(parts, sep);
    if |parts[0]| == 0 {
      if |parts| > 1 {
        assert j == [sep] + Join(parts[1..], sep);
        assert j[1..] == Join(parts[1..], sep);
        SplitJoin(parts[1..], sep);
      }
    } else {
      var tail := [parts[0][1..]] + parts[1..];
      assert forall i :: 0 <= i < |tail| ==> sep !in tail[i] by {
        forall i | 0 <= i < |tail| ensures sep !in tail[i] {
          if i == 0 {
            assert forall c :: c in parts[0][1..] ==> c in parts[0];
          } else {
            assert tail[i] == parts[i];
          }
        }
      }
      if |parts| == 1 {
        assert j[1..] == Join(tail, sep);
      } else {
        assert j == [parts[0][0]] + (parts[0][1..] + [sep] + Join(parts[1..], sep));
        assert j[1..] == Join(tail, sep);
      }
      SplitJoin(tail, sep);
      assert parts[0] == [parts[0][0]] + parts[0][1..];
      assert parts[0][0] != sep by { assert parts[0][0] in parts[0]; }
      assert parts == [[parts[0][0]] + tail[0]] + tail[1..];
    }
  }

  /** `unicode.IsSpace`: the Latin-1 spaces and the Unicode White_Space
      property. */
  predicate IsSpace(c: char) {
    c == '\t' || c == '\n' || c == '\U{000B}' || c == '\U{000C}' || c == '\r' || c == ' '
    || c == '\U{0085}' || c == '\U{00A0}' || c == '\U{1680}'
    || ('\U{2000}' <= c <= '\U{200A}')
    || c == '\U{2028}' || c == '\U{2029}' || c == '\U{202F}' || c == '\U{205F}' || c == '\U{3000}'
  }

  predicate AllSpace(t: string) {
    forall k :: 0 <= k < |t| ==> IsSpace(t[k])
  }

  function TrimLeft(s: string): (r: string)
    ensures |r| <= |s| && r == s[|s| - |r|..]
    ensures AllSpace(s[..|s| - |r|])
    ensures |r| > 0 ==> !IsSpace(r[0])
  {
    if |s| > 0 && IsSpace(s[0]) then
      var r := TrimLeft(s[1..]);
      SpacesBefore(s, r);
      r
    else s
  }

  /** A leading space followed by spaces up to `n` is all space up to `n`. */
  lemma SpacesBefore(s: string, r: string)
    requires 0 < |s| && IsSpace(s[0]) && |r| <= |s| - 1
    requires r == s[1..][|s| - 1 - |r|..] && AllSpace(s[1..][..|s| - 1 - |r|])
    ensures r == s[|s| - |r|..] && AllSpace(s[..|s| - |r|])
  {
    var n := |s| - |r|;
    forall k | 0 <= k < n
      ensures IsSpace(s[..n][k])
    {
      if k > 0 {
        assert s[..n][k] == s[1..][..n - 1][k - 1];
      }
    }
  }

  function TrimRight(s: string): (r: string)
    ensures |r| <= |s| && r == s[..|r|]
    ensures AllSpace(s[|r|..])
    ensures |r| > 0 ==> !IsSpace(r[|r| - 1])
  {
    if |s| > 0 && IsSpace(s[|s| - 1]) then
      var r := TrimRight(s[..|s| - 1]);
      SpacesAfter(s, r);
      r
    else s
  }

  /** Spaces from `n` up to a trailing space are all space from `n`. */
  lemma SpacesAfter(s: string, r: string)
    requires 0 < |s| && IsSpace(s[|s| - 1]) && |r| <= |s| - 1
    requires r == s[..|s| - 1][..|r|] && AllSpace(s[..|s| - 1][|r|..])
    ensures r == s[..|r|] && AllSpace(s[|r|..])
  {
    var n := |r|;
    forall k | 0 <= k < |s| - n
      ensures IsSpace(s[n..][k])
    {
      if k < |s| - 1 - n {
        assert s[n..][k] == s[..|s| - 1][n..][k];
      }
    }
  }

  /** `strings.TrimSpace`: the slice of `s` left once every leading and
      trailing space is removed. */
  function TrimSpace(s: string): (r: string)
    ensures |r| > 0 ==> !IsSpace(r[0]) && !IsSpace(r[|r| - 1])
    ensures AllSpace(s) <==> r == ""
  {
    var l := TrimLeft(s);
    var r := TrimRight(l);
    TrimSpaceEmpty(s, l, r);
    r
  }

  /** What `TrimSpace` keeps is a slice of its input, with only spaces cut
      off either end. */
  lemma TrimSpaceIsSlice(s: string)
    ensures exists i, j :: 0 <= i <= j <= |s| && TrimSpace(s) == s[i..j] && AllSpace(s[..i]) && AllSpace(s[j..])
  {
    TrimSpaceSlice(s, TrimLeft(s), TrimRight(TrimLeft(s)));
  }

  /** A string with no space at either end is left as it is. */
  lemma TrimSpaceUntouched(s: string)
    requires s != "" && !IsSpace(s[0]) && !IsSpace(s[|s| - 1])
    ensures TrimSpace(s) == s
  {
    assert TrimLeft(s) == s;
    assert TrimRight(s) == s;
  }

  /** Trimming adds no character: what is absent from `s` is absent from
      `TrimSpace(s)`. */
  lemma TrimSpaceWithout(s: string, c: char)
    requires c !in s
    ensures c !in TrimSpace(s)
  {
    TrimSpaceIsSlice(s);
    var i, j :| 0 <= i <= j <= |s| && TrimSpace(s) == s[i..j];
    SliceWithout(s, i, j, c);
  }

  lemma SliceWithout(s: string, i: nat, j: nat, c: char)
    requires i <= j <= |s| && c !in s
    ensures c !in s[i..j]
  {
    forall k | 0 <= k < j - i
      ensures s[i..j][k] != c
    {
      assert s[i..j][k] == s[i + k];
    }
  }

  /** What `TrimLeft` then `TrimRight` promise, combined into one slice. */
  lemma TrimSpaceSlice(s: string, l: string, r: string)
    requires |l| <= |s| && l == s[|s| - |l|..] && AllSpace(s[..|s| - |l|])
    requires |r| <= |l| && r == l[..|r|] && AllSpace(l[|r|..])
    ensures exists i, j :: 0 <= i <= j <= |s| && r == s[i..j] && AllSpace(s[..i]) && AllSpace(s[j..])
  {
    var i := |s| - |l|;
    var j := i + |r|;
    SliceOfSlice(s, i, |r|);
    assert r == s[i..j];
    assert s[j..] == l[|r|..];
  }

  lemma SliceOfSlice(s: string, i: nat, n: nat)
    requires i + n <= |s|
    ensures s[i..][..n] == s[i..i + n]
  {
  }

  lemma TrimSpaceEmpty(s: string, l: string, r: string)
    requires l == TrimLeft(s) && r == TrimRight(l)
    ensures AllSpace(s) <==> r == ""
  {
    var i := |s| - |l|;
    if r == "" {
      assert s == s[..i] + l;
      assert AllSpace(l) by { assert l == l[|r|..]; }
    } else {
      assert s[i] == r[0];
    }
  }

  predicate IsUpperAscii(c: char) {
    'A' <= c <= 'Z'
  }

  function LowerChar(c: char): (d: char)
    ensures !IsUpperAscii(d)
  {
    if IsUpperAscii(c) then (c as int + 32) as char else c
  }

  /** `strings.ToLower`, restricted to the ASCII letters. */
  function ToLower(s: string): (r: string)
    ensures |r| == |s|
    ensures forall i :: 0 <= i < |s| ==> r[i] == LowerChar(s[i])
  {
    seq(|s|, i requires 0 <= i < |s| => LowerChar(s[i]))
  }

  /** Lowering twice is lowering once. */
  lemma ToLowerIdempotent(s: string)
    ensures ToLower(ToLower(s)) == ToLower(s)
  {
  }

  /** Go's `<` on strings: lexicographic on code points, which is also the
      order of their UTF-8 bytes. */
  predicate Less(a: string, b: string) {
    if |a| == 0 then |b| > 0
    else if |b| == 0 then false
    else if a[0] != b[0] then a[0] < b[0]
    else Less(a[1..], b[1..])
  }

  lemma {:induction false} LessIrreflexive(a: string)
    ensures !Less(a, a)
  {
    if |a| > 0 { LessIrreflexive(a[1..]); }
  }

  lemma {:induction false} LessTransitive(a: string, b: string, c: string)
    requires Less(a, b) && Less(b, c)
    ensures Less(a, c)
  {
    if |a| > 0 && |b| > 0 && |c| > 0 && a[0] == b[0] && b[0] == c[0] {
      LessTransitive(a[1..], b[1..], c[1..]);
    }
  }

  lemma {:induction false} LessTotal(a: string, b: string)
    ensures a == b || Less(a, b) || Less(b, a)
  {
    if |a| > 0 && |b| > 0 && a[0] == b[0] {
      LessTotal(a[1..], b[1..]);
      if a[1..] == b[1..] {
        assert a == [a[0]] + a[1..] && b == [b[0]] + b[1..];
      }
    }
  }
}

=== FILE: wrappers.dfy ===
/** Option and Result carriers used by every module of the model in place of
    Go's (value, error) pairs and nil pointers. */
module Wrappers {

  datatype Option<+T> = None | Some(value: T) {

    /** The carried value, or `default` when there is none. */
    function GetOr(default: T): T {
      match this
      case Some(v) => v
      case None => default
    }

    predicate IsFailure() {
      None?
    }

    function PropagateFailure<U>(): Option<U>
      requires None?
    {
      None
    }

    function Extract(): T
      requires Some?
    {
      value
    }
  }

  /** A Go `(value, error)` return: exactly one of the two is meaningful. */
  datatype Result<+R, +E> = Ok(value: R) | Err(error: E) {

    predicate IsFailure() {
      Err?
    }

    function PropagateFailure<U>(): Result<U, E>
      requires Err?
    {
      Err(error)
    }

    function Extract(): R
      requires Ok?
    {
      value
    }
  }
}
